=== FILE: README.md ===
# spoolman2slicer, modelled in Dafny

spoolman2slicer turns the contents of a Spoolman filament inventory into
filament configuration files for a 3D-printer slicer: OrcaSlicer
(`.json` and `.info`), PrusaSlicer, SuperSlicer or Slic3r (`.ini`). The
inventory holds vendors, filaments and spools. A filament embeds its vendor
and a spool embeds its filament.

A file is rendered from a Jinja template for every *subject* and every
combination of slicer suffix and configured variant. Which subjects exist
depends on the spool mode:
- the default mode has one subject per filament with an active spool;
- `all` has one subject per non-archived spool;
- `least-left` and `most-recent` have one subject per filament, bound to the
  spool a selector picks.

An active spool is one that is not archived.

`SpoolmanProcessor` remembers the filename and the text of every record, and
a reference count per path. With these it skips writes that would change
nothing, and it removes a file only when its last user lets go of it. After
the initial snapshot it follows websocket events for vendors, filaments and
spools. An event refreshes or releases exactly the subjects it affects.

The older standalone script does the same with module-level state. It uses
two event streams (filaments and spools), has no entity caches, and refreshes
only the filament the payload names.

The model is pure and value-based. Each file corresponds to one layer:

- `base.dfy`, `text.dfy` hold `Option`/`Result`, the failures, and the string
  functions the keys and paths use: `strip`, `removesuffix`, `split`, `str(int)`
  and string `<`.
- `ordered_dict.dfy` models Python dicts as insertion-ordered association
  lists, because the engine iterates its entity caches and the order matters.
- `entities.dfy` holds vendors, filaments, spools, the three entity caches,
  and the resolution of `vendor_id` and `filament_id` references.
- `settings.dfy` holds the validated configuration, the slicer's suffixes, the
  variants, and the suffix × variant expansion.
- `outputs.dfy` holds the records handed to templates, the cache keys, the
  filename/content/usage caches, and `write_filament` / `delete_filament` as
  functions that return file effects (`Write`, `Remove`).
- `state.dfy` holds the processor state, a step's outcome (the state reached,
  the effects done and the failure that escaped, if any), and one action over
  every record of a subject.
- `selection.dfy` holds the least-left and most-recent spool selectors.
- `snapshot.dfy` holds cache loading and the four snapshot passes.
- `spool_update.dfy` holds `handle_spool_update`: the plan for one spool
  change, and carrying it out.
- `cascades.dfy` holds the loop over the spool cache after a filament change.
- `vendor_cascades.dfy` holds the loop over the filament cache after a vendor
  change.
- `engine.dfy` holds the three message handlers and the receive loop.
- `legacy.dfy` holds the standalone script's snapshot and event handlers.

Templates and rendering are a parameter: the names of the templates that
exist, and a rendering function. The filesystem is the list of effects a step
produces.

In the default mode, deleting the only cached spool re-commits its
filament's files rather than removing them. After the deletion the spool
cache is empty, and `handle_spool_update` counts an empty cache as "has active
spools". The model follows the code here
(`Engine.DeletingOnlySpoolKeepsFiles`).

## Model

| member | source | states |
|---|---|---|
| Settings.MakeConfig | spoolman_core.py:56-65 | A configuration is accepted iff the slicer is one of the four known names and the mode is unset, empty, or one of `all`, `least-left`, `most-recent`. An unknown slicer is refused first. The accepted configuration keeps every given value. |
| Settings.MakeConfigOfNames | spoolman_core.py:56-65 | Every configuration is the accepted form of its own slicer and mode names. |
| Settings.Suffixes | spoolman_core.py:118-124 | OrcaSlicer writes `json` and `info`. Every other slicer, Slic3r included, writes `ini`. |
| Settings.SuffixesWellFormed | tests/test_core_modules.py:81-101 | There is at least one suffix, no suffix repeats, and none contains the `-` that joins it to a cache key. |
| Settings.Variants | spoolman_core.py:356 | `variants.split(",")` gives at least one label, none containing a comma, and joining the labels with commas gives back the setting. |
| Settings.SuffixMajor | spoolman_core.py:355-358 | Suffixes outer, variants inner: the record at position `i * |variants| + j` is suffix `i` with variant `j`, there are suffixes times variants records, and every record is a listed pair. A repeated variant gives a repeated record. |
| Settings.VariantMajor | spoolman2slicer.py:540-546 | Variants outer, suffixes inner: the record at position `i * |suffixes| + j` is variant `i` with suffix `j`, there are suffixes times variants records, and every record is a listed pair. |
| Settings.Expansion | spoolman_core.py:355-358 | The snapshot's combinations: at least one, in suffix-major order over the slicer's suffixes and the configured variants. |
| Text.Strip | spoolman_core.py:226-238 | The result does not start or end with whitespace, and what was cut off on each side is whitespace. |
| Text.StripIdempotent | spoolman_core.py:226-238 | Stripping a rendered filename twice is stripping it once. |
| Text.RemoveSuffix | spoolman_core.py:234-236 | A present non-empty suffix is removed once, and the rest is put back in front of it. Anything else is unchanged. |
| Text.Split | spoolman_core.py:356 | The parts join back to the input, none contains the separator, and there is always at least one part. |
| Text.SplitJoin | spoolman_core.py:356 | Splitting a join of separator-free parts gives back the parts. |
| Text.IntToString | spoolman_core.py:240-256 | `str(n)`: a leading `-` exactly for negative numbers, followed by digits. |
| Text.IntToStringInjective | spoolman_core.py:240-256 | Different ids print differently, so different filaments never share a key. |
| OrderedDict.Get | spoolman_core.py:601 | `d.get(k)` finds a value exactly when `k` is a key. |
| OrderedDict.Put | spoolman_core.py:424 | After `d[k] = v`, `k` maps to `v` and every other key maps to what it did. |
| OrderedDict.PutKeys | spoolman_core.py:441 | An overwrite keeps the key order, and a new key goes last. |
| OrderedDict.Delete | spoolman_core.py:580-583 | After `del d[k]`, `k` is gone, every other key is unchanged, nothing new appears, and the entries left keep their order. |
| OrderedDict.KeysDistinct | spoolman_core.py:596-597 | With one entry per key, two positions of a dict hold two different keys. |
| OrderedDict.SetAt | spoolman_core.py:534-536 | Mutating the value at one position while iterating keeps every key and every other entry. |
| Entities.EmbedVendor | spoolman_core.py:420-423 | Only a filament without a vendor changes, and only by embedding the cached vendor that its truthy `vendor_id` names. Otherwise it is unchanged. |
| Entities.EmbedFilament | spoolman_core.py:464-467 | Only a spool without a filament changes, and only by embedding the cached filament that its truthy `filament_id` names. |
| Entities.EmbedIdempotent | spoolman_core.py:420-423 | Resolving a reference twice is resolving it once. |
| Entities.HasActiveSpool | spoolman_core.py:512-516 | True iff some cached spool is a non-archived spool of the filament. |
| Entities.ActiveSpools | spoolman_core.py:483-488 | The list holds exactly the cached non-archived spools of the filament. |
| Entities.PutFilament | spoolman_core.py:568 | The filament is stored under its id, the caches stay well-formed, and nothing else changes. |
| Entities.PutSpool | spoolman_core.py:596-597 | The spool is stored under its id, the caches stay well-formed, and nothing else changes. |
| Entities.DeleteVendor | spoolman_core.py:552-555 | Removes the vendor, if present, and nothing else. |
| Entities.DeleteFilament | spoolman_core.py:580-583 | Removes the filament, if present, and nothing else. |
| Entities.DeleteSpool | spoolman_core.py:632-636 | Removes the spool, if present, and nothing else. |
| Outputs.KeyShapes | spoolman_core.py:240-256 | Keys are `spool-<id>[-<suffix>]` in `all` mode for a spool with a truthy id, and `<filament id>[-<suffix>]` otherwise. The filename key is the content key plus `-<suffix>`. Neither depends on the variant. |
| Outputs.ContentKeyInjective | spoolman_core.py:249-256 | Two records share a content key iff they are keyed by the same spool or the same filament. |
| Outputs.FilenameKeyInjective | spoolman_core.py:240-247 | Two records share a filename key iff they share the content key and the suffix. |
| Outputs.OutputPath | spoolman_core.py:226-238 | The output directory, without a trailing `/`, followed by `/` and the stripped rendered name. |
| Outputs.FileName | spoolman_core.py:226-238 | Fails iff the mode's filename template is missing. Otherwise the result is the rendered path. |
| Outputs.BodyTemplate | spoolman_core.py:311-327 | `<material>.<suffix>.template` when the material is set and that template exists. Otherwise `default.<suffix>.template`, which fails if it is missing. |
| Outputs.Commit | spoolman_core.py:299-343 | Counts the path and remembers it under the filename key. It then writes, unless both the remembered text and the path are unchanged. A missing filename template changes nothing. A missing body template fails after the path is recorded. On success the record is current: its path is remembered under its filename key and its rendered text under its content key. |
| Outputs.Release | spoolman_core.py:272-288 | Without a tracked path it does nothing. Otherwise the count drops by one and the file is removed when the count reaches zero or below, unless an update keeps the same path. The filename and content caches are never touched. |
| Outputs.Apply | spoolman_core.py:475-480 | A refresh removes at most once and writes at most once, the removal first. A release never writes or fails, and a commit never removes. The only filename key it can add is the record's own. A commit or refresh that goes through leaves the record current. |
| Outputs.ApplyAll | spoolman_core.py:475-480 | After a pass over the combinations that does not fail, every combination's filename key is remembered. Filenames are never forgotten, and every key added belongs to one of the combinations. A release-only pass removes exactly the files whose last user it releases. |
| Outputs.ApplyAllUpToDate | spoolman_core.py:475-480 | A commit or refresh pass over at least one combination that goes through leaves the subject's last record current, with the path and the text it renders to now. |
| Outputs.CommitKeeps | spoolman_core.py:299-343 | A commit touches only its own record's filename and content keys, so a record under another content key that was current stays current. |
| Outputs.ApplyKeeps | spoolman_core.py:475-480 | Releasing, refreshing or committing one record keeps current every record under another content key. |
| Outputs.ApplyAllKeeps | spoolman_core.py:475-480 | A pass over one subject's combinations keeps current every record under another subject's content key. |
| Outputs.CommitPassCounts | spoolman_core.py:301-305 | A commit pass that goes through adds one use of a path for every record that renders to it. Commits are not deduplicated. |
| Outputs.RecordedSubset | spoolman2slicer.py:540-546 | Whether a subject's records are all remembered does not depend on the order of the loops. |
| Outputs.CommitAgainWritesNothing | spoolman_core.py:335-343 | Committing the same record twice writes only once, but counts the path twice. |
| Outputs.RefreshInPlaceKeepsFile | spoolman_core.py:282-288 | A refresh that keeps the same path never removes the file and leaves its count as it was. |
| Outputs.RefreshMovesFile | spoolman_core.py:282-288 | A refresh of a file's last user onto a new path removes the old file, then writes the new one. |
| Outputs.SharedFileRemovedByLastRelease | spoolman_core.py:272-281 | Two subjects rendering to one path share the file. The first release keeps it and the second removes it. |
| Outputs.DoubleReleaseRemovesTwice | spoolman_core.py:276-288 | Releases are not guarded: two plain releases after one commit both ask for the file's removal, and the count reaches -1. On disk the second `os.remove` would fail, which the model does not follow (see Left out). |
| Processor.InitialGood | spoolman_core.py:89-95 | A fresh processor satisfies the invariants every step keeps. |
| Processor.Reconcile | spoolman_core.py:475-480 | One action over every record of a subject leaves the entity caches alone and never forgets a filename. Every key it adds belongs to the subject. Release-only never writes or fails, and removes exactly the files whose last user it releases. Commit-only never removes. A successful commit or refresh records every combination and leaves the subject's last record current. |
| Processor.ReconcileKeeps | spoolman_core.py:475-480 | One subject's pass keeps current every record of every other subject. |
| Selection.SelectLeastLeft | spoolman_core.py:371-376 | The chosen spool is in the list, and no spool has a smaller (weight, id) key, a missing weight counting as infinity. |
| Selection.SelectMostRecent | spoolman_core.py:378-387 | The chosen spool is in the list, and no spool has a larger most-recent key. |
| Selection.LeastLeftWins | spoolman_core.py:371-376 | The choice has the lowest weight, and the lowest id among spools of that weight. |
| Selection.MostRecentWins | spoolman_core.py:378-387 | A dated spool beats every undated one, and the latest date wins with ties going to the smaller id. When no spool is dated, the largest id wins. |
| Selection.LeastLeftUnique | spoolman_core.py:371-376 | With distinct ids, the choice is the one spool that beats every other spool. |
| Selection.MostRecentUnique | spoolman_core.py:378-387 | With distinct ids, the choice is the one spool that beats every other spool. |
| Selection.Choose | spoolman_core.py:490-494 | `most-recent` uses the most-recent selector, and every other per-filament mode uses least-left. |
| Snapshot.VendorsById | spoolman_core.py:412-414 | The vendor cache maps exactly the listed ids, each to a vendor with that id. |
| Snapshot.VendorsByIdLastWins | spoolman_core.py:414 | For a repeated id, the last vendor listed wins. |
| Snapshot.LoadFilaments | spoolman_core.py:415-424 | Every listed filament is cached with its vendor resolved, and no other filament changes. |
| Snapshot.LoadFilamentsLastWins | spoolman_core.py:424 | For a repeated id, the last filament listed is the one stored. |
| Snapshot.StoredSpool | spoolman_core.py:430-440 | An embedded filament gets its vendor resolved. Otherwise the `filament_id` is resolved from the cache. |
| Snapshot.LoadSpool | spoolman_core.py:429-441 | An embedded filament also goes into the filament cache. A spool without an id fails with a missing field. Otherwise the stored spool replaces the one under its id and nothing else. |
| Snapshot.LoadSpools | spoolman_core.py:428-441 | Fails iff some spool has no id. Otherwise every listed spool is cached. |
| Snapshot.LoadCaches | spoolman_core.py:410-442 | The vendor cache is the listed vendors, and every listed filament and spool is cached. |
| Snapshot.CommitSubject | spoolman_core.py:355-358 | Commits every (suffix, variant) record of one subject: only writes, and on success every record is remembered and the last one is current, with the text it renders to now cached under the subject's content key. |
| Snapshot.CommitSubjectKeeps | spoolman_core.py:320-343 | Committing one subject leaves a record under any other content key current: it touches only its own keys. |
| Snapshot.InsertSorted | spoolman_core.py:347-350 | Adding an id to the set of filament ids keeps the set ordered and adds exactly that id. |
| Snapshot.FilamentIdsWithSpools | spoolman_core.py:347-350 | Exactly the ids of filaments embedded in a non-archived spool, each once. |
| Snapshot.CommitFilaments | spoolman_core.py:352-358 | On success every cached filament among the ids is covered with no spool bound. Every key added belongs to a cached filament among the ids. When no id is cached, nothing happens. |
| Snapshot.FilamentKeysCons | spoolman_core.py:352-358 | The keys a pass adds are those of its first filament followed by those of the rest. |
| Snapshot.FilamentSubjects | spoolman_core.py:352-358 | The default pass's subjects are exactly the cached filaments among the ids, with no spool bound. |
| Snapshot.CommitFilamentsKeeps | spoolman_core.py:352-358 | The default pass leaves current any record whose content key none of its subjects has. |
| Snapshot.CommitFilamentsRenders | spoolman_core.py:352-358 | When the default pass goes through, the last subject of every content key has its last record current. |
| Snapshot.CachedFilamentId | spoolman_core.py:415-424 | A filament cached under an id carries that id. |
| Snapshot.FilamentSubjectsDistinct | spoolman_core.py:249-256 | Filaments with ascending ids have pairwise different content keys. |
| Snapshot.DefaultSubjectAt | spoolman_core.py:347-358 | The cached filament of every non-archived spool is a subject of the default pass. |
| Snapshot.DefaultRendersAll | spoolman_core.py:345-358 | With a valid cache, the default pass that goes through leaves every cached filament with a non-archived spool current. |
| Snapshot.SnapshotDefault | spoolman_core.py:345-358 | On success, every cached filament that has a non-archived spool has all its records remembered and its last record current. Every key added belongs to such a filament, with no spool bound. |
| Snapshot.CommitSpools | spoolman_core.py:360-369 | Every non-archived spool is committed with its own filament. A non-archived spool without a filament makes the pass fail. Every key added belongs to a non-archived spool, and a list of archived spools changes nothing. |
| Snapshot.SpoolKeysCons | spoolman_core.py:360-369 | The keys a pass adds are those of its first spool followed by those of the rest. |
| Snapshot.SpoolSubjects | spoolman_core.py:360-369 | The all-spools pass's subjects are exactly the non-archived spools with a filament, each bound to it. |
| Snapshot.CommitSpoolsKeeps | spoolman_core.py:360-369 | The all-spools pass leaves current any record whose content key none of its subjects has. |
| Snapshot.CommitSpoolsRenders | spoolman_core.py:360-369 | When the all-spools pass goes through, the last subject of every content key has its last record current. |
| Snapshot.SpoolSubjectsDistinct | spoolman_core.py:249-256 | In `all` mode, spools with distinct ids have distinct content keys: at most one carries the falsy id 0 and falls back to its filament's key. |
| Snapshot.CommitSpoolsCurrent | spoolman_core.py:360-369 | In `all` mode, a pass over spools with distinct ids that goes through leaves every non-archived spool current. |
| Snapshot.CachedSpoolIds | spoolman_core.py:441 | The spools of a valid cache carry distinct ids. |
| Snapshot.AddToGroup | spoolman_core.py:393-399 | The spool joins its filament's group, and no other group changes. |
| Snapshot.Gather | spoolman_core.py:391-399 | Fails iff a non-archived spool has no filament. Otherwise every non-archived spool is in its filament's group, and nothing else is. |
| Snapshot.CommitChosen | spoolman_core.py:401-408 | On success each group's chosen spool is covered with its filament. Every key added belongs to the chosen spool of some group, so other spools get no records. |
| Snapshot.CommitGroup | spoolman_core.py:401-408 | The selector's choice in a group has a filament. It is covered on success, and every key added is one of its records. |
| Snapshot.ChosenKeysCons | spoolman_core.py:401-408 | The keys a pass adds are those of its first group's choice followed by those of the rest. |
| Snapshot.GroupsActiveTail | spoolman_core.py:391-399 | Groups that hold only active spools of their key keep doing so without their first group. |
| Snapshot.ChosenSubjects | spoolman_core.py:401-408 | The per-filament pass's subjects are exactly the selector's choices of the groups, each bound to its filament. |
| Snapshot.CommitChosenKeeps | spoolman_core.py:401-408 | The per-filament pass leaves current any record whose content key none of its subjects has. |
| Snapshot.CommitChosenRenders | spoolman_core.py:401-408 | When the per-filament pass goes through, the last subject of every content key has its last record current. |
| Snapshot.ChoiceKeyedByGroup | spoolman_core.py:249-256 | Outside `all` mode, a group's choice is keyed by the id the group is stored under. |
| Snapshot.ChosenSubjectsDistinct | spoolman_core.py:391-408 | Outside `all` mode, groups stored under distinct filament ids give choices with distinct content keys. |
| Snapshot.ChosenRendersAll | spoolman_core.py:401-408 | Outside `all` mode, the per-filament pass that goes through leaves every group's choice current. |
| Snapshot.SnapshotSelected | spoolman_core.py:389-408 | A non-archived spool without a filament fails before anything is written. Otherwise, on success the choice of every group is covered and current, and every key added belongs to a group's choice. |
| Snapshot.ProcessCached | spoolman_core.py:447-460 | The mode's pass over the cached spools: each mode leaves its subjects covered and current on success, and adds only their keys. |
| Snapshot.Run | spoolman_core.py:444-460 | Loads the caches, then runs the mode's pass over the cached spools. A spool without an id fails before anything is written. Otherwise each mode leaves its subjects covered and current on success and adds only their keys: non-archived spools in `all` mode, filaments with an active spool by default, the selector's choices per filament. |
| SpoolUpdate.PlanPerFilament | spoolman_core.py:481-509 | Refreshes iff the filament has a cached active spool, and then binds the one the mode's selector prefers. Otherwise it releases the filament with no spool bound. |
| SpoolUpdate.PlanSpoolUpdate | spoolman_core.py:462-530 | See below.<br>• An unresolved filament does nothing, and in `all` mode so does an archived spool.<br>• `all` refreshes the spool itself.<br>• The default mode refreshes the filament iff the spool cache is empty or holds an active spool of it, and otherwise releases it. |
| SpoolUpdate.HandleSpoolUpdate | spoolman_core.py:462-530 | Entity caches unchanged and filenames never forgotten. A skipped plan changes nothing. A release only removes, never fails, and removes exactly the files whose last user it releases. A successful refresh records every combination of the planned subject and leaves its last record current. |
| Cascades.RefreshAt | spoolman_core.py:575-579 | One spool of the filament gets the new filament embedded, and the other entries are unchanged. An archived spool changes no file. On success with an active spool, `all` mode records that spool, the default mode records the filament with no spool bound, and a selector mode records the best active spool. |
| Cascades.RefreshAtRenders | spoolman_core.py:575-579 | On success with an active spool: in `all` mode that spool's last record is current, in the default mode the filament's, and in a selector mode a best active spool's. |
| Cascades.RefreshAtKeeps | spoolman_core.py:575-579 | Refreshing one spool keeps current every record under a content key other than that spool's subject's. |
| Cascades.RefreshSpools | spoolman_core.py:575-579 | From a position on, only spools of the filament change, and only by re-embedding it. When nothing fails, every one is re-embedded and, in `all` mode, every active one is recorded. |
| Cascades.RefreshSpoolsModes | spoolman_core.py:575-579 | The same loop for the other modes: with no active spool of the filament from that position on it changes no file. When it has one and succeeds, the default mode records the filament with no spool bound, and a selector mode records the best active spool. |
| Cascades.RefreshSpoolsRenders | spoolman_core.py:575-579 | From a position on, when the loop goes through: in `all` mode every active spool of the filament from there on has its last record current, as re-embedded. In the default mode the filament's last record is current, and in a selector mode a best active spool's, when the filament has an active spool from there on. |
| Cascades.RefreshSpoolsKeeps | spoolman_core.py:575-579 | The loop keeps current every record under a content key that no spool of the filament from that position on writes under. |
| Cascades.RefreshedSpoolStays | spoolman_core.py:575-579 | In `all` mode the later spools of the loop write under other keys, so the spool just refreshed stays current to the end of the loop. |
| Cascades.RefreshRenders | spoolman_core.py:575-579 | A loop over the whole cache that goes through leaves the filament rendered: every active spool current in `all` mode, the filament current by default, a best active spool current per filament. |
| Cascades.RefreshedModesCompose | spoolman_core.py:575-579 | One refreshed spool of the filament followed by the rest of the loop keeps what the loop promises for the default and selector modes. |
| Cascades.RefreshedModesSkip | spoolman_core.py:576 | Skipping a spool of another filament keeps what the rest of the loop promises. |
| Cascades.RefreshSettles | spoolman_core.py:575-579 | A loop over every spool that succeeds leaves the filament settled: each active spool recorded in `all` mode, the filament recorded by default, the best active spool recorded per filament. |
| Cascades.SettledKeeps | spoolman_core.py:483-488 | A settled filament stays settled when more filenames are remembered or only spools of other filaments change. |
| Cascades.BestRecordedKeeps | spoolman_core.py:483-494 | Which spool is best depends only on the active spools of the filament. |
| Cascades.RefreshFrom | spoolman_core.py:575-579 | The same as RefreshSpools, for a position that holds a spool of the filament. |
| VendorCascades.VendorAt | spoolman_core.py:534-541 | One filament of the vendor gets the vendor embedded. Then every spool of it re-embeds the updated filament, and on success the updated filament is settled and rendered in the mode's sense. |
| VendorCascades.VendorAtKeeps | spoolman_core.py:534-541 | One turn keeps current every record under a content key that no spool of that filament writes under. |
| VendorCascades.VendorCascade | spoolman_core.py:532-541 | Only filaments of the vendor change, and only by embedding the new vendor. When nothing fails, all of them do. Vendor ids and cache keys are unchanged. |
| VendorCascades.VendorCascadeSpools | spoolman_core.py:532-541 | The spool half of the same loop: a spool either stays as it was or re-embeds one of the vendor's filaments, now with the new vendor. On success every spool of such a filament does, and each such filament is settled in the mode's sense. |
| VendorCascades.VendorCascadeKeeps | spoolman_core.py:532-541 | The loop from a position on keeps current every record under a content key that no spool of a later filament of the vendor writes under. |
| VendorCascades.VendorCascadeRenders | spoolman_core.py:532-541 | On success every filament of the vendor from that position on, with the new vendor embedded, is rendered: later turns touch only spools of other filaments, so what an earlier turn made current stays current. |
| VendorCascades.VendorSpoolsCompose | spoolman_core.py:534-541 | One filament's turn of the vendor loop followed by the rest re-embeds exactly what the whole loop promises. |
| VendorCascades.VendorSettledCompose | spoolman_core.py:534-541 | A filament settled in its turn stays settled through the later turns, which only touch spools of other filaments. |
| Engine.OnVendor | spoolman_core.py:543-557 | Added and updated store the vendor, and deleted removes it. Only an update touches the files, by rewriting the filaments of the vendor and every spool of them, each such filament ending settled and rendered on success. An unknown type changes nothing. |
| Engine.UpdateVendor | spoolman_core.py:543-551 | The update branch: the vendor is cached, every filament of it gets it embedded, every spool of such a filament re-embeds it, and on success each such filament is settled and rendered. |
| Engine.UpdateFilament | spoolman_core.py:569-579 | The filament is stored with its vendor resolved, and no other filament changes. With no active spool of it no file changes. On success every spool embedding it is re-embedded, and the filament is settled and rendered in the mode's sense. |
| Engine.OnFilament | spoolman_core.py:559-585 | Added stores the filament, updated also refreshes its spools and leaves it settled and rendered on success, deleted removes it if cached, and an unknown type changes nothing. |
| Engine.CacheSpool | spoolman_core.py:596-597 | A spool with an id replaces the cached one. One without an id leaves the cache alone. |
| Engine.MoveRelease | spoolman_core.py:611-629 | In the default mode only: the old filament is released iff the spool moved between two filaments and no cached active spool of the old one remains. |
| Engine.OnSpool | spoolman_core.py:587-640 | Added caches the spool and handles it. Updated caches it and, in the default mode after a move away from a filament with no active spool left, first removes the old filament's files, then handles the spool, a successful refresh leaving the subject's last record current. Deleted removes a cached spool and handles the removed copy if it had a filament, and otherwise changes no file. An unknown type changes nothing. |
| Engine.OnSpoolUpdated | spoolman_core.py:599-631 | The update branch: the spool is cached with its filament resolved, the old filament is released first when it moved away, and then the spool's plan is carried out. |
| Engine.OnSpoolDeleted | spoolman_core.py:632-640 | The delete branch: a cached spool is removed, and the removed copy is handled only when it had a filament. |
| Engine.HandleMessage | spoolman_core.py:653-662 | Dispatches on the resource and keeps the invariants. An unknown resource changes nothing. |
| Engine.Listen | spoolman_core.py:642-675 | The invariants and remembered filenames survive any stream, there is at most one failure per event, and a stream of unknown resources changes nothing. |
| Engine.ListenOne | spoolman_core.py:649-664 | A one-event stream is that event's handler: its state and effects, and its failure if it has one. |
| Engine.ListenAppend | spoolman_core.py:647-669 | A stream split in two runs the second part from the state the first part left, whether or not its events failed. The effects and the failures of the two parts follow each other in order. |
| Engine.FilamentUpdateRefreshesSpools | spoolman_core.py:569-579 | In `all` mode, a successful filament update re-embeds the filament into every active spool of it and records each one's files. |
| Engine.DeletedEntries | spoolman_core.py:632-636 | After the deletion, no cached entry has the deleted key, and every entry was there before. |
| Engine.DeletingLastActiveSpoolReleases | spoolman_core.py:504-509 | In a per-filament mode, deleting the last active spool of a filament only removes files and cannot fail. |
| Engine.DeletingOnlySpoolKeepsFiles | spoolman_core.py:510-524 | In the default mode, deleting the only cached spool re-records its filament's files instead of removing them. |
| Engine.DeletingSpoolInAllModeKeepsFiles | spoolman_core.py:632-638 | In `all` mode, deleting an active spool rewrites its files from the cached copy instead of removing them. |
| Engine.ArchivingInAllModeKeepsFiles | spoolman_core.py:473-474 | In `all` mode, archiving a spool caches the update and neither removes nor writes anything. |
| Engine.MovingLastSpoolReleasesOldFilament | spoolman_core.py:611-629 | In the default mode, moving the last active spool of a filament to another filament makes the update remove the old filament's last-used files before anything else. On success an active moved spool leaves its new filament recorded. |
| Engine.LastSpoolMoveReleases | spoolman_core.py:611-629 | The move condition holds when no other cached spool of the old filament is active. |
| Engine.UpdatedActiveSpoolRefreshes | spoolman_core.py:510-524 | In the default mode an updated active spool refreshes its filament with no spool bound. |
| Legacy.LegacySuffixes | spoolman2slicer.py:186-193 | Like the core, except that slic3r is refused. |
| Legacy.EventCombos | spoolman2slicer.py:540-546 | Exactly the configured (suffix, variant) pairs, variants outer and suffixes inner: the record at position `i * |suffixes| + j` is variant `i` with suffix `j`. |
| Legacy.LegacyDefault | spoolman2slicer.py:453-460 | Every spool, archived or not, has its filament committed with no spool bound, and every key added belongs to the filament of one of the spools. A spool without a filament fails, and with slic3r the first spool fails before anything is written. |
| Legacy.LegacyKeysCons | spoolman2slicer.py:453-460 | The keys the pass adds are those of the first spool's filament followed by those of the rest. |
| Legacy.LegacySubjects | spoolman2slicer.py:453-460 | The script's default subjects are exactly the spools' filaments, one per spool, with no spool bound. |
| Legacy.LegacyDefaultKeeps | spoolman2slicer.py:453-460 | The script's default pass leaves current any record whose content key none of its subjects has. |
| Legacy.LegacyDefaultRenders | spoolman2slicer.py:453-460 | When the script's default pass goes through, the filament of the last spool of every filament id has its last record current. |
| Legacy.LegacyDefaultCountsEverySpool | spoolman2slicer.py:453-460 | No deduplication: after a successful pass over `n` spools of one filament, each path counts `n` more uses for every record of the filament that renders to it. Two spools of a filament with one record leave its file at a count of 2. |
| Legacy.CommitSubjectCounts | spoolman2slicer.py:453-460 | One filament commit that goes through adds one use of a path per record that renders to it. |
| Legacy.FirstActiveFailure | spoolman2slicer.py:463-473 | With slic3r, the all-spools pass fails iff some spool is not archived. |
| Legacy.LegacySnapshot | spoolman2slicer.py:526-537 | The mode's pass, written with `print`. With slic3r nothing is written, and the pass fails once it reaches a spool it would render. Each mode adds only the keys of its subjects: the spools' filaments by default, non-archived spools in `all` mode, the selector's choices per filament, each covered on success. On success the last subject of every content key is current, and in `all` mode with distinct spool ids, and per filament, every subject is. |
| Legacy.HandleFilamentUpdate | spoolman2slicer.py:540-546 | Refreshes every record of the filament with no spool bound, and on success its last record is current. With slic3r it fails before any change. |
| Legacy.EventCombosAreExpansion | spoolman2slicer.py:540-546 | The events' variant-major loops cover the same combinations as the snapshot's suffix-major loops. |
| Legacy.LegacyUpdateCovers | spoolman2slicer.py:540-546 | A successful filament update leaves the filament covered exactly as the default-mode snapshot does. |
| Legacy.OnLegacySpool | spoolman2slicer.py:549-567 | A payload without a filament fails whatever the type. Added commits the filament, updated refreshes it, each recording every combination on success, and deleted releases it, removing exactly the files it was the last user of. Only the filament's keys are ever added. With slic3r every known type fails without change. |
| Legacy.OnLegacyFilament | spoolman2slicer.py:570-581 | Only an update does anything. |
| Legacy.OnLegacyEvent | spoolman2slicer.py:591-634 | A spool message goes to the spool handler and a filament message to the filament handler. The entity caches are never touched, and a filament message other than an update changes nothing. |
| Legacy.LegacyListen | spoolman2slicer.py:584-666 | The invariants and remembered filenames survive any interleaving of the two streams, there is at most one failure per event, and a stream of filament messages that are not updates changes nothing. |
| Legacy.LegacyListenOne | spoolman2slicer.py:591-594 | A one-event stream is that event's handler, with its failure if it has one. |
| Legacy.LegacyListenAppend | spoolman2slicer.py:584-666 | A stream split in two runs the second part from the state the first part left, whether or not its events failed. The effects and the failures follow each other in order. |

## Left out

- HTTP loading and its retries (`load_filaments_from_spoolman`) are not modelled, because they are I/O. The downloaded lists are parameters of the snapshot.
- The websocket connection, JSON parsing and the reconnect loops are not modelled, because they are I/O. Events are an input sequence.
- Messages sent while a handler's failure forces a reconnect are lost in the real system. The model keeps reading the sequence.
- The legacy script's two streams run concurrently. The model handles them as one interleaved sequence.
- Logging, argument parsing, the template directory, `delete_all_filaments`, `run_once` and `run_with_updates` are not modelled, because they only perform I/O or orchestration.
- The `now` and `now_int` fields of the `sm2s` block are left out, because they come from the clock. Rendering is modelled as a function of the template and the record alone, so every result about skipped writes holds only for templates that do not print these two fields. A template that prints `sm2s.now` renders new text on every commit, and the real system then rewrites the file each time.
- Outputs.Commit: its "writes unless the remembered text and the path are unchanged" clause holds as stated, but the text compared is the clock-free rendering, so for a template that prints `sm2s.now` or `sm2s.now_int` the real commit writes where the model skips.
- Outputs.CommitAgainWritesNothing: the second commit writes nothing only for templates that do not print `sm2s.now` or `sm2s.now_int`.
- The `name` and `version` fields of the `sm2s` block are constants of the program and are left out of the record.
- Jinja template lookup and rendering are abstract: a set of existing template names and a rendering function.
- The model does not check that a template renders differently for different records.
- Spool weights are integers, not floats. The model keeps their order, with absence counting as infinity.
- Null fields and fields with unexpected types in payloads are outside the model. `last_used` is "" when absent, null or empty, since the selector treats those alike.
- Python dicts are shared between caches: a spool's `filament` can be the same object as a cached filament. The model has value semantics and follows the loops literally. For example, a sibling spool sees an update only when the loop reaches it.
- Snapshot.FilamentIdsWithSpools: the set of filament ids is iterated in ascending order. CPython iterates a set of ints in hash-slot order, `id & mask`, over a table that starts with 8 slots, so `{5, 9}` iterates 9 then 5. The two orders agree only when every id is below the table size. The files written and the keys remembered are the same either way, but the order of the effects differs, and when two filaments render to one path, the one written last wins on disk.
- Processor.Reconcile: of a subject's records only the last is promised current. All records of a subject share one content key, so each commit overwrites the text the previous combination left under it. The same holds for `Outputs.ApplyAllUpToDate`, `Cascades.Rendered` and every handler that promises it. Likewise `Snapshot.CommitSpoolsRenders`, `Snapshot.CommitFilamentsRenders`, `Snapshot.CommitChosenRenders` and `Legacy.LegacyDefaultRenders` promise only the last subject of each content key current, because a later subject with the same key overwrites the text. Subjects share a key when two spools embed one filament in the script's default pass, or when spools without a truthy id fall back to their filament's key in `all` mode.
- Engine.Listen: a failure in one event does not stop later events in the sequence. This is weaker than the real loop, which drops the connection and may lose events sent before it reconnects.
- Legacy.LegacyListen: the same holds per stream for the legacy script.
- Outputs.Release: `os.remove` of a file that is already gone raises in the real system and ends the handler; the model records the removal and carries on.
- Outputs.DoubleReleaseRemovesTwice: its second `Remove` is such a removal of a missing file, so on disk the second release fails rather than completing.
- Selection.IdOf: a spool without an id is ranked as id 0. The engine's spool cache only holds spools with ids, but the script's selected pass ranks the downloaded list, where such a spool makes the script fail on the missing key.

=== FILE: base.dfy ===
/**
 Optional values and the failures the synchronisation engine can raise.
 */
module Maybe {

  /** A value that may be absent; stands for a JSON field that may be missing. */
  datatype Option<+T> = None | Some(value: T) {

    /** The value, or `default` when absent. */
    function GetOr(default: T): T {
      if Some? then value else default
    }
  }

  /** The outcome of an operation that can raise. */
  datatype Result<+T, +E> = Ok(value: T) | Err(error: E)
}

module Failures {

  /**
   The exceptions the engine lets escape. Each aborts the event (or the snapshot)
   that raised it and leaves the caches as they were at that point.
   */
  datatype Failure =
    | TemplateNotFound(name: string)    // the template loader found no such template
    | MissingField(field: string)       // a required key is absent from a record
    | UnsupportedSlicer(slicer: string) // the slicer has no known file suffix
    | InvalidMode(mode: string)         // unknown create-per-spool mode
}

=== FILE: cascades.dfy ===
/**
 The in-place cascade that follows a filament change: the loop over the spool
 cache that re-embeds the filament and handles each active spool as a spool
 update, and what it leaves current.
 */
module Cascades {
  import opened Maybe
  import opened Failures
  import opened Text
  import opened OrderedDict
  import opened Entities
  import opened Settings
  import opened Outputs
  import opened Selection
  import opened Processor
  import opened SpoolUpdate

  /**
   One turn of the loop over `spools_cache.values()` after a filament changed,
   for a cached spool that embeds a filament with the id of `f`: `f` is embedded
   in place, and a non-archived spool is handled as a spool update.
   */
  function RefreshAt(cfg: Config, t: Templates, st: State, f: Filament, j: nat): (r: Step)
    requires Valid(st.g)
    requires j < |st.g.spools| && Embeds(st.g.spools[j].value, f.id)
    ensures Valid(r.st.g)
    ensures Good(st) ==> Good(r.st)
    ensures st.out.names.Keys <= r.st.out.names.Keys
    ensures r.st.g == st.g.(spools := SetAt(st.g.spools, j, Reembed(st.g.spools[j].value, f)))
    ensures r.err == None && ActiveFor(st.g.spools[j].value, f.id) && cfg.mode == All ==>
              Recorded(cfg, r.st.out.names, f, Some(Reembed(st.g.spools[j].value, f)), Expansion(cfg))
    ensures !ActiveFor(st.g.spools[j].value, f.id) ==> r.effects == [] && r.err == None && r.st.out == st.out
    ensures r.err == None && ActiveFor(st.g.spools[j].value, f.id) && cfg.mode == Default ==>
              Recorded(cfg, r.st.out.names, f, None, Expansion(cfg))
    ensures r.err == None && ActiveFor(st.g.spools[j].value, f.id) && PerFilament(cfg.mode) ==>
              BestRecorded(cfg, r.st.out.names, r.st.g.spools, f.id)
  {
    var s1 := Reembed(st.g.spools[j].value, f);
    var st1 := st.(g := st.g.(spools := SetAt(st.g.spools, j, s1)));
    assert Valid(st1.g) by {
      forall i | 0 <= i < |st1.g.spools|
        ensures st1.g.spools[i].value.id == Some(st1.g.spools[i].key)
      {
        if i != j {
          assert st1.g.spools[i] == st.g.spools[i];
        }
      }
    }
    if s1.archived then Stay(st1)
    else
      var r := HandleSpoolUpdate(cfg, t, st1, s1);
      assert ActiveFor(st1.g.spools[j].value, f.id);
      assert r.err == None && PerFilament(cfg.mode) ==> BestRecorded(cfg, r.st.out.names, r.st.g.spools, f.id) by {
        if r.err == None && PerFilament(cfg.mode) {
          var p := PlanSpoolUpdate(cfg, st1.g, s1);
          var i :| 0 <= i < |st1.g.spools| && st1.g.spools[i].value == p.spool.value;
          assert p.spool == Some(st1.g.spools[i].value);
        }
      }
      r
  }

  /** `spool["filament"] = f` on a spool of the filament `f` replaces. */
  function Reembed(s: Spool, f: Filament): Spool {
    s.(filament := Some(f))
  }

  /**
   The content key that handling the cached spool `sid` of the filament `fid`
   writes under: the spool's own in `all` mode when the id is truthy, the
   filament's otherwise.
   */
  function SpoolKey(mode: Mode, fid: int, sid: int): string {
    if mode == All && sid != 0 then "spool-" + IntToString(sid) else IntToString(fid)
  }

  /** In `all` mode different spools write under different keys, otherwise different filaments do. */
  lemma SpoolKeyDistinct(mode: Mode, f1: int, s1: int, f2: int, s2: int)
    ensures SpoolKey(mode, f1, s1) == SpoolKey(mode, f2, s2) ==> if mode == All then s1 == s2 else f1 == f2
  {
    var k1, k2 := SpoolKey(mode, f1, s1), SpoolKey(mode, f2, s2);
    if k1 == k2 {
      if mode == All && s1 != 0 && s2 != 0 {
        assert k1[6..] == IntToString(s1) && k2[6..] == IntToString(s2);
        IntToStringInjective(s1, s2);
      } else if mode == All && s1 != 0 {
        SpoolKeyNotFilamentKey(s1, f2);
      } else if mode == All && s2 != 0 {
        SpoolKeyNotFilamentKey(s2, f1);
      } else {
        IntToStringInjective(f1, f2);
      }
    }
  }

  /** The plan for a cached spool of `f` writes under that spool's key. */
  lemma PlanKey(cfg: Config, g: Graph, f: Filament, j: nat)
    requires Valid(g)
    requires j < |g.spools| && Embeds(g.spools[j].value, f.id)
    ensures var s1 := Reembed(g.spools[j].value, f);
            var p := PlanSpoolUpdate(cfg, g, s1);
            p.Act? ==> SubjectKey(cfg.mode, p.filament, p.spool) == SpoolKey(cfg.mode, f.id, g.spools[j].key)
  {
    var s1 := Reembed(g.spools[j].value, f);
    var p := PlanSpoolUpdate(cfg, g, s1);
    if p.Act? && p.spool.Some? && cfg.mode != All {
      assert ActiveFor(p.spool.value, f.id);
    }
  }

  /** No cached spool of `fid` from position `j` on writes under the content key `ck`. */
  predicate Untouched(mode: Mode, ck: string, spools: seq<Entry<Spool>>, fid: int, j: nat) {
    forall i :: j <= i < |spools| && Embeds(spools[i].value, fid) ==> ck != SpoolKey(mode, fid, spools[i].key)
  }

  /** A best active cached spool of `fid` has its last record, with its own filament, current. */
  predicate BestCurrent(cfg: Config, t: Templates, out: Caches, spools: seq<Entry<Spool>>, fid: int) {
    exists i :: 0 <= i < |spools| && BestActive(cfg.mode, spools, fid, spools[i].value)
                && UpToDate(cfg, t, out, spools[i].value.filament.value, Some(spools[i].value), Expansion(cfg))
  }

  /** Which spool is best depends only on the active spools. */
  lemma BestActiveSame(mode: Mode, a: seq<Entry<Spool>>, c: seq<Entry<Spool>>, fid: int, x: Spool)
    requires SameActive(a, c, fid)
    requires BestActive(mode, a, fid, x)
    ensures BestActive(mode, c, fid, x)
  {
    var i :| 0 <= i < |a| && a[i].value == x;
    assert c[i] == a[i];
  }

  /** A best active spool whose last record is current is a witness of `BestCurrent`. */
  lemma BestCurrentAt(cfg: Config, t: Templates, out: Caches, c: seq<Entry<Spool>>, fid: int, i: nat)
    requires i < |c| && BestActive(cfg.mode, c, fid, c[i].value)
    requires UpToDate(cfg, t, out, c[i].value.filament.value, Some(c[i].value), Expansion(cfg))
    ensures BestCurrent(cfg, t, out, c, fid)
  {
  }

  /** Which spool is best depends only on the active spools, so agreeing caches keep `BestCurrent`. */
  lemma BestCurrentKeeps(cfg: Config, t: Templates, out: Caches, a: seq<Entry<Spool>>, c: seq<Entry<Spool>>, fid: int)
    requires SameActive(a, c, fid)
    ensures BestCurrent(cfg, t, out, a, fid) ==> BestCurrent(cfg, t, out, c, fid)
  {
    if BestCurrent(cfg, t, out, a, fid) {
      var i :| 0 <= i < |a| && BestActive(cfg.mode, a, fid, a[i].value)
               && UpToDate(cfg, t, out, a[i].value.filament.value, Some(a[i].value), Expansion(cfg));
      BestActiveSame(cfg.mode, a, c, fid, a[i].value);
      assert c[i] == a[i];
      BestCurrentAt(cfg, t, out, c, fid, i);
    }
  }


  /**
   What one turn of the loop renders, by mode, for an active spool of the
   filament: the re-embedded spool's last record (`all`), the filament's own
   (default), or a best active spool's (per-filament modes) is current.
   */
  lemma RefreshAtRenders(cfg: Config, t: Templates, st: State, f: Filament, j: nat)
    requires Valid(st.g)
    requires j < |st.g.spools| && Embeds(st.g.spools[j].value, f.id)
    ensures var r := RefreshAt(cfg, t, st, f, j);
            var s1 := Reembed(st.g.spools[j].value, f);
            && (r.err == None && ActiveFor(s1, f.id) && cfg.mode == All ==>
                  UpToDate(cfg, t, r.st.out, f, Some(s1), Expansion(cfg)))
            && (r.err == None && ActiveFor(s1, f.id) && cfg.mode == Default ==>
                  UpToDate(cfg, t, r.st.out, f, None, Expansion(cfg)))
            && (r.err == None && ActiveFor(s1, f.id) && PerFilament(cfg.mode) ==>
                  BestCurrent(cfg, t, r.st.out, r.st.g.spools, f.id))
  {
    var s1 := Reembed(st.g.spools[j].value, f);
    var st1 := st.(g := st.g.(spools := SetAt(st.g.spools, j, s1)));
    if !s1.archived {
      var r := HandleSpoolUpdate(cfg, t, st1, s1);
      assert RefreshAt(cfg, t, st, f, j) == r;
      var p := PlanSpoolUpdate(cfg, st1.g, s1);
      assert ActiveFor(st1.g.spools[j].value, f.id);
      assert p.Act? && p.action == Refresh;
      assert Handled(cfg, t, st1.out, r, p);
      if r.err == None && PerFilament(cfg.mode) {
        var i :| 0 <= i < |st1.g.spools| && st1.g.spools[i].value == p.spool.value;
        assert p.spool == Some(st1.g.spools[i].value);
      }
    }
  }

  /** One turn of the loop keeps current every record whose content key is not the turn's spool's. */
  lemma RefreshAtKeeps(cfg: Config, t: Templates, st: State, f: Filament, j: nat, rec: Record)
    requires Valid(st.g)
    requires j < |st.g.spools| && Embeds(st.g.spools[j].value, f.id)
    requires '-' !in rec.suffix
    requires ContentKey(cfg.mode, rec) != SpoolKey(cfg.mode, f.id, st.g.spools[j].key)
    ensures Current(cfg, t, st.out, rec) ==> Current(cfg, t, RefreshAt(cfg, t, st, f, j).st.out, rec)
  {
    var s1 := Reembed(st.g.spools[j].value, f);
    var st1 := st.(g := st.g.(spools := SetAt(st.g.spools, j, s1)));
    if !s1.archived {
      assert RefreshAt(cfg, t, st, f, j) == HandleSpoolUpdate(cfg, t, st1, s1);
      var p := PlanSpoolUpdate(cfg, st1.g, s1);
      if p.Act? {
        assert Valid(st1.g) by {
          forall i | 0 <= i < |st1.g.spools|
            ensures st1.g.spools[i].value.id == Some(st1.g.spools[i].key)
          {
            if i != j {
              assert st1.g.spools[i] == st.g.spools[i];
            }
          }
        }
        PlanKey(cfg, st1.g, f, j);
        assert Reembed(st1.g.spools[j].value, f) == s1;
        ExpansionDashFree(cfg);
        ReconcileKeeps(cfg, t, Atomic, st1, p.filament, p.spool, Expansion(cfg), p.action, rec);
      }
    }
  }

  /**
   `c` is the spool cache `a` after the loop from position `j` on: the same keys,
   and each entry unchanged or, from `j` on, a spool of the filament re-embedding `f`.
   */
  predicate RefreshedFrom(a: seq<Entry<Spool>>, c: seq<Entry<Spool>>, f: Filament, j: nat) {
    && |c| == |a|
    && forall i :: 0 <= i < |a| ==>
         || c[i] == a[i]
         || (j <= i && Embeds(a[i].value, f.id) && c[i] == Entry(a[i].key, Reembed(a[i].value, f)))
  }

  /** From position `j` on, every spool of the filament re-embeds `f`. */
  predicate AllReembedded(a: seq<Entry<Spool>>, c: seq<Entry<Spool>>, f: Filament, j: nat)
    requires |c| == |a|
  {
    forall i :: j <= i < |a| && Embeds(a[i].value, f.id) ==> c[i] == Entry(a[i].key, Reembed(a[i].value, f))
  }

  /** One turn of the loop followed by the rest of it is the loop from that turn on. */
  lemma RefreshedCompose(a: seq<Entry<Spool>>, b: seq<Entry<Spool>>, c: seq<Entry<Spool>>, f: Filament, j: nat)
    requires 0 <= j < |a| && Embeds(a[j].value, f.id)
    requires b == SetAt(a, j, Reembed(a[j].value, f))
    requires RefreshedFrom(b, c, f, j + 1)
    ensures RefreshedFrom(a, c, f, j)
    ensures AllReembedded(b, c, f, j + 1) ==> AllReembedded(a, c, f, j)
  {
    forall i | 0 <= i < |a|
      ensures || c[i] == a[i]
              || (j <= i && Embeds(a[i].value, f.id) && c[i] == Entry(a[i].key, Reembed(a[i].value, f)))
    {
      if i == j {
        assert Reembed(Reembed(a[i].value, f), f) == Reembed(a[i].value, f);
      } else {
        assert b[i] == a[i];
      }
    }
    if AllReembedded(b, c, f, j + 1) {
      forall i | j <= i < |a| && Embeds(a[i].value, f.id)
        ensures c[i] == Entry(a[i].key, Reembed(a[i].value, f))
      {
        if i == j {
          assert Embeds(b[j].value, f.id);
        } else {
          assert b[i] == a[i];
        }
      }
    }
  }

  /** Skipping a spool of another filament. */
  lemma RefreshedSkip(a: seq<Entry<Spool>>, c: seq<Entry<Spool>>, f: Filament, j: nat)
    requires 0 <= j < |a| && !Embeds(a[j].value, f.id)
    requires RefreshedFrom(a, c, f, j + 1)
    ensures RefreshedFrom(a, c, f, j)
    ensures AllReembedded(a, c, f, j + 1) ==> AllReembedded(a, c, f, j)
  {
  }

  /**
   From position `j` on, every active spool of the filament in the cache `a`
   has the files of its re-embedded version `c[i]` remembered in `names`.
   */
  predicate ActiveRecordedFrom(cfg: Config, names: map<string, string>, a: seq<Entry<Spool>>,
                               c: seq<Entry<Spool>>, f: Filament, j: nat)
    requires |c| == |a|
  {
    forall i :: j <= i < |a| && ActiveFor(a[i].value, f.id) ==>
      Recorded(cfg, names, f, Some(c[i].value), Expansion(cfg))
  }

  /** `ActiveRecordedFrom` only looks at positions from `j` on. */
  lemma ActiveRecordedAgree(cfg: Config, names: map<string, string>, a: seq<Entry<Spool>>,
                            b: seq<Entry<Spool>>, c: seq<Entry<Spool>>, f: Filament, j: nat)
    requires |a| == |b| == |c|
    requires forall i :: j <= i < |a| ==> a[i] == b[i]
    ensures ActiveRecordedFrom(cfg, names, b, c, f, j) ==> ActiveRecordedFrom(cfg, names, a, c, f, j)
  {
    if ActiveRecordedFrom(cfg, names, b, c, f, j) {
      forall i | j <= i < |a| && ActiveFor(a[i].value, f.id)
        ensures Recorded(cfg, names, f, Some(c[i].value), Expansion(cfg))
      {
        assert a[i] == b[i];
      }
    }
  }

  /** Remembering more filenames keeps `ActiveRecordedFrom`. */
  lemma ActiveRecordedGrows(cfg: Config, x: map<string, string>, y: map<string, string>,
                            a: seq<Entry<Spool>>, c: seq<Entry<Spool>>, f: Filament, j: nat)
    requires |c| == |a|
    requires x.Keys <= y.Keys
    ensures ActiveRecordedFrom(cfg, x, a, c, f, j) ==> ActiveRecordedFrom(cfg, y, a, c, f, j)
  {
    if ActiveRecordedFrom(cfg, x, a, c, f, j) {
      forall i | j <= i < |a| && ActiveFor(a[i].value, f.id)
        ensures Recorded(cfg, y, f, Some(c[i].value), Expansion(cfg))
      {
        RecordedGrows(cfg, x, y, f, Some(c[i].value), Expansion(cfg));
      }
    }
  }

  /** What `ActiveRecordedFrom` says about one position `i` from `j` on. */
  lemma ActiveRecordedAt(cfg: Config, names: map<string, string>, a: seq<Entry<Spool>>,
                         c: seq<Entry<Spool>>, f: Filament, j: nat, i: nat)
    requires |c| == |a|
    requires j <= i < |a|
    requires ActiveRecordedFrom(cfg, names, a, c, f, j)
    ensures ActiveFor(a[i].value, f.id) ==> Recorded(cfg, names, f, Some(c[i].value), Expansion(cfg))
  {
  }

  /** Some cached spool from position `j` on is an active spool of `fid`. */
  predicate ActiveFrom(spools: seq<Entry<Spool>>, fid: int, j: nat) {
    exists i :: j <= i < |spools| && ActiveFor(spools[i].value, fid)
  }

  /** A best active cached spool of `fid` has a filename remembered for every record of it, with its own filament. */
  predicate BestRecorded(cfg: Config, names: map<string, string>, spools: seq<Entry<Spool>>, fid: int) {
    exists i :: 0 <= i < |spools| && BestActive(cfg.mode, spools, fid, spools[i].value)
                && Recorded(cfg, names, spools[i].value.filament.value, Some(spools[i].value), Expansion(cfg))
  }

  /** Two spool caches of one length agree wherever either holds an active spool of `fid`. */
  predicate SameActive(a: seq<Entry<Spool>>, c: seq<Entry<Spool>>, fid: int) {
    && |a| == |c|
    && forall i :: 0 <= i < |a| && (ActiveFor(a[i].value, fid) || ActiveFor(c[i].value, fid)) ==> a[i] == c[i]
  }

  /** Which spool is best depends only on the active spools, so agreeing caches keep `BestRecorded`. */
  lemma BestRecordedKeeps(cfg: Config, x: map<string, string>, y: map<string, string>,
                          a: seq<Entry<Spool>>, c: seq<Entry<Spool>>, fid: int)
    requires x.Keys <= y.Keys
    requires SameActive(a, c, fid)
    ensures BestRecorded(cfg, x, a, fid) ==> BestRecorded(cfg, y, c, fid)
    ensures ActiveFrom(a, fid, 0) <==> ActiveFrom(c, fid, 0)
  {
    if BestRecorded(cfg, x, a, fid) {
      var i :| 0 <= i < |a| && BestActive(cfg.mode, a, fid, a[i].value)
               && Recorded(cfg, x, a[i].value.filament.value, Some(a[i].value), Expansion(cfg));
      var b := a[i].value;
      assert c[i] == a[i];
      RecordedGrows(cfg, x, y, b.filament.value, Some(b), Expansion(cfg));
      assert BestActive(cfg.mode, c, fid, b);
    }
    if ActiveFrom(c, fid, 0) {
      var i :| 0 <= i < |c| && ActiveFor(c[i].value, fid);
      assert a[i] == c[i];
    }
  }

  /**
   The filenames a filament has remembered once its spools are handled, by
   mode: in `all` every active cached spool of it has its filenames
   remembered; in the default mode the filament has its own filenames
   remembered while some cached spool of it is active; in the per-filament
   modes a best active cached spool of it has its filenames remembered.
   `Rendered` states the matching current content.
   */
  predicate Settled(cfg: Config, names: map<string, string>, spools: seq<Entry<Spool>>, f: Filament) {
    && (cfg.mode == All ==>
          forall i :: 0 <= i < |spools| && ActiveFor(spools[i].value, f.id) ==>
            Recorded(cfg, names, f, Some(spools[i].value), Expansion(cfg)))
    && (cfg.mode == Default && ActiveFrom(spools, f.id, 0) ==> Recorded(cfg, names, f, None, Expansion(cfg)))
    && (PerFilament(cfg.mode) && ActiveFrom(spools, f.id, 0) ==> BestRecorded(cfg, names, spools, f.id))
  }

  /** Remembering more filenames, or changing only spools of other filaments, keeps a filament settled. */
  lemma SettledKeeps(cfg: Config, x: map<string, string>, y: map<string, string>,
                     a: seq<Entry<Spool>>, c: seq<Entry<Spool>>, f: Filament)
    requires x.Keys <= y.Keys
    requires SameActive(a, c, f.id)
    ensures Settled(cfg, x, a, f) ==> Settled(cfg, y, c, f)
  {
    BestRecordedKeeps(cfg, x, y, a, c, f.id);
    RecordedGrows(cfg, x, y, f, None, Expansion(cfg));
    if Settled(cfg, x, a, f) && cfg.mode == All {
      forall i | 0 <= i < |c| && ActiveFor(c[i].value, f.id)
        ensures Recorded(cfg, y, f, Some(c[i].value), Expansion(cfg))
      {
        assert a[i] == c[i];
        RecordedGrows(cfg, x, y, f, Some(c[i].value), Expansion(cfg));
      }
    }
  }

  /**
   What the loop from position `j` on leaves behind, by mode: with no active
   spool of the filament there it touches no file, and a loop that goes through
   leaves the filament's own files (default mode) or a best active spool's
   files (per-filament modes) remembered.
   */
  predicate RefreshedModes(cfg: Config, st: State, r: Step, f: Filament, j: nat) {
    && (!ActiveFrom(st.g.spools, f.id, j) ==> r.effects == [] && r.err == None && r.st.out == st.out)
    && (r.err == None && ActiveFrom(st.g.spools, f.id, j) && cfg.mode == Default ==>
          Recorded(cfg, r.st.out.names, f, None, Expansion(cfg)))
    && (r.err == None && ActiveFrom(st.g.spools, f.id, j) && PerFilament(cfg.mode) ==>
          BestRecorded(cfg, r.st.out.names, r.st.g.spools, f.id))
  }

  /** Skipping a spool of another filament leaves what the rest of the loop promises. */
  lemma RefreshedModesSkip(cfg: Config, st: State, r: Step, f: Filament, j: nat)
    requires j < |st.g.spools| && !Embeds(st.g.spools[j].value, f.id)
    requires RefreshedModes(cfg, st, r, f, j + 1)
    ensures RefreshedModes(cfg, st, r, f, j)
  {
    assert ActiveFrom(st.g.spools, f.id, j) ==> ActiveFrom(st.g.spools, f.id, j + 1);
  }

  /** Handling one spool of the filament followed by the rest of the loop. */
  lemma RefreshedModesCompose(cfg: Config, st: State, h: Step, rest: Step, f: Filament, j: nat)
    requires j < |st.g.spools| && Embeds(st.g.spools[j].value, f.id)
    requires h.st.g.spools == SetAt(st.g.spools, j, Reembed(st.g.spools[j].value, f))
    requires h.err == None
    requires !ActiveFor(st.g.spools[j].value, f.id) ==> h.effects == [] && h.st.out == st.out
    requires ActiveFor(st.g.spools[j].value, f.id) && cfg.mode == Default ==>
               Recorded(cfg, h.st.out.names, f, None, Expansion(cfg))
    requires ActiveFor(st.g.spools[j].value, f.id) && PerFilament(cfg.mode) ==>
               BestRecorded(cfg, h.st.out.names, h.st.g.spools, f.id)
    requires h.st.out.names.Keys <= rest.st.out.names.Keys
    requires RefreshedFrom(h.st.g.spools, rest.st.g.spools, f, j + 1)
    requires RefreshedModes(cfg, h.st, rest, f, j + 1)
    ensures RefreshedModes(cfg, st, Then(h, rest), f, j)
  {
    var a := st.g.spools;
    var b := h.st.g.spools;
    var c := rest.st.g.spools;
    assert ActiveFrom(a, f.id, j + 1) <==> ActiveFrom(b, f.id, j + 1) by {
      assert forall i :: j + 1 <= i < |a| ==> a[i] == b[i];
    }
    if !ActiveFrom(b, f.id, j + 1) {
      assert SameActive(b, c, f.id);
      BestRecordedKeeps(cfg, h.st.out.names, rest.st.out.names, b, c, f.id);
      RecordedGrows(cfg, h.st.out.names, rest.st.out.names, f, None, Expansion(cfg));
    }
  }

  /** A loop over the whole cache that goes through leaves the filament settled. */
  lemma RefreshSettles(cfg: Config, st: State, r: Step, f: Filament)
    requires Valid(st.g)
    requires Refreshed(cfg, st, r, f, 0)
    requires RefreshedModes(cfg, st, r, f, 0)
    ensures r.err == None ==> Settled(cfg, r.st.out.names, r.st.g.spools, f)
  {
    if r.err.Some? {
      return;
    }
    var a := st.g.spools;
    var c := r.st.g.spools;
    assert forall i :: 0 <= i < |a| && ActiveFor(c[i].value, f.id) ==> ActiveFor(a[i].value, f.id);
    if cfg.mode == All {
      forall i | 0 <= i < |c| && ActiveFor(c[i].value, f.id)
        ensures Recorded(cfg, r.st.out.names, f, Some(c[i].value), Expansion(cfg))
      {
        ActiveRecordedAt(cfg, r.st.out.names, a, c, f, 0, i);
      }
    }
    if ActiveFrom(c, f.id, 0) {
      var i :| 0 <= i < |c| && ActiveFor(c[i].value, f.id);
      assert ActiveFor(a[i].value, f.id);
    }
  }

  /**
   What the loop over the spool cache from position `j` on promises: the entity
   caches stay valid and keep their keys, only spools of the filament change and
   only by re-embedding `f`, filenames are never forgotten, and a loop that goes
   through re-embeds every spool of the filament and, in `all` mode, leaves
   every active one with its files remembered.
   */
  predicate Refreshed(cfg: Config, st: State, r: Step, f: Filament, j: nat)
    requires Valid(st.g)
  {
    && Valid(r.st.g)
    && (Good(st) ==> Good(r.st))
    && st.out.names.Keys <= r.st.out.names.Keys
    && r.st.g.vendors == st.g.vendors && r.st.g.filaments == st.g.filaments
    && Keys(r.st.g.spools) == Keys(st.g.spools)
    && RefreshedFrom(st.g.spools, r.st.g.spools, f, j)
    && (r.err == None ==> AllReembedded(st.g.spools, r.st.g.spools, f, j))
    && (r.err == None && cfg.mode == All ==>
          ActiveRecordedFrom(cfg, r.st.out.names, st.g.spools, r.st.g.spools, f, j))
  }

  /**
   The loop over `spools_cache.values()` after a filament changed, from
   position `j` on: every cached spool whose embedded filament has the id of `f`
   gets `f` embedded in place, and the non-archived ones are handled as spool
   updates. The first failure ends the loop.
   */
  function RefreshSpools(cfg: Config, t: Templates, st: State, f: Filament, j: nat): (r: Step)
    requires Valid(st.g)
    requires j <= |st.g.spools|
    ensures Refreshed(cfg, st, r, f, j)
    decreases |st.g.spools| - j, 1
  {
    if j == |st.g.spools| then Stay(st)
    else if !Embeds(st.g.spools[j].value, f.id) then
      var rest := RefreshSpools(cfg, t, st, f, j + 1);
      RefreshedSkip(st.g.spools, rest.st.g.spools, f, j);
      assert !ActiveFor(st.g.spools[j].value, f.id);
      rest
    else RefreshFrom(cfg, t, st, f, j)
  }

  /** The loop from a spool of the filament on: handle it, then the rest. */
  function RefreshFrom(cfg: Config, t: Templates, st: State, f: Filament, j: nat): (r: Step)
    requires Valid(st.g)
    requires j < |st.g.spools| && Embeds(st.g.spools[j].value, f.id)
    ensures Refreshed(cfg, st, r, f, j)
    decreases |st.g.spools| - j, 0
  {
    var h := RefreshAt(cfg, t, st, f, j);
    if h.err.Some? then h
    else
      var rest := RefreshSpools(cfg, t, h.st, f, j + 1);
      RefreshedCompose(st.g.spools, h.st.g.spools, rest.st.g.spools, f, j);
      RecordedGrows(cfg, h.st.out.names, rest.st.out.names, f, Some(h.st.g.spools[j].value), Expansion(cfg));
      ActiveRecordedAgree(cfg, rest.st.out.names, st.g.spools, h.st.g.spools, rest.st.g.spools, f, j + 1);
      Then(h, rest)
  }

  /** What the loop from position `j` on leaves behind in each mode. */
  lemma {:induction false} RefreshSpoolsModes(cfg: Config, t: Templates, st: State, f: Filament, j: nat)
    requires Valid(st.g)
    requires j <= |st.g.spools|
    ensures RefreshedModes(cfg, st, RefreshSpools(cfg, t, st, f, j), f, j)
    decreases |st.g.spools| - j
  {
    if j < |st.g.spools| {
      if !Embeds(st.g.spools[j].value, f.id) {
        RefreshSpoolsModes(cfg, t, st, f, j + 1);
        RefreshedModesSkip(cfg, st, RefreshSpools(cfg, t, st, f, j + 1), f, j);
      } else {
        var h := RefreshAt(cfg, t, st, f, j);
        if h.err.None? {
          var rest := RefreshSpools(cfg, t, h.st, f, j + 1);
          RefreshSpoolsModes(cfg, t, h.st, f, j + 1);
          RefreshedModesCompose(cfg, st, h, rest, f, j);
          assert RefreshFrom(cfg, t, st, f, j) == Then(h, rest);
        }
      }
    }
  }

  /** Changing only the spool at position `j` keeps the later spools untouched. */
  lemma UntouchedLater(mode: Mode, ck: string, a: seq<Entry<Spool>>, b: seq<Entry<Spool>>, fid: int, j: nat)
    requires j < |a| && |b| == |a|
    requires b == SetAt(a, j, b[j].value)
    requires Untouched(mode, ck, a, fid, j)
    ensures Untouched(mode, ck, b, fid, j + 1)
  {
    forall i | j + 1 <= i < |b| && Embeds(b[i].value, fid)
      ensures ck != SpoolKey(mode, fid, b[i].key)
    {
      assert b[i] == a[i];
    }
  }

  /** The loop from position `j` on keeps current every record under a content key no spool of it writes under. */
  lemma {:induction false} RefreshSpoolsKeeps(cfg: Config, t: Templates, st: State, f: Filament, j: nat, rec: Record)
    requires Valid(st.g)
    requires j <= |st.g.spools|
    requires '-' !in rec.suffix
    requires Untouched(cfg.mode, ContentKey(cfg.mode, rec), st.g.spools, f.id, j)
    ensures Current(cfg, t, st.out, rec) ==> Current(cfg, t, RefreshSpools(cfg, t, st, f, j).st.out, rec)
    decreases |st.g.spools| - j, 1
  {
    if j < |st.g.spools| {
      if !Embeds(st.g.spools[j].value, f.id) {
        RefreshSkipKeeps(cfg, t, st, f, j, rec);
      } else {
        RefreshFromKeeps(cfg, t, st, f, j, rec);
        RefreshSpoolsStep(cfg, t, st, f, j);
      }
    }
  }

  /** The same, past a spool of another filament. */
  lemma {:induction false} RefreshSkipKeeps(cfg: Config, t: Templates, st: State, f: Filament, j: nat, rec: Record)
    requires Valid(st.g)
    requires j < |st.g.spools| && !Embeds(st.g.spools[j].value, f.id)
    requires '-' !in rec.suffix
    requires Untouched(cfg.mode, ContentKey(cfg.mode, rec), st.g.spools, f.id, j)
    ensures Current(cfg, t, st.out, rec) ==> Current(cfg, t, RefreshSpools(cfg, t, st, f, j).st.out, rec)
    decreases |st.g.spools| - j, 0
  {
    RefreshSpoolsKeeps(cfg, t, st, f, j + 1, rec);
    RefreshSpoolsStep(cfg, t, st, f, j);
  }

  /** The same, from a spool of the filament on. */
  lemma {:induction false} RefreshFromKeeps(cfg: Config, t: Templates, st: State, f: Filament, j: nat, rec: Record)
    requires Valid(st.g)
    requires j < |st.g.spools| && Embeds(st.g.spools[j].value, f.id)
    requires '-' !in rec.suffix
    requires Untouched(cfg.mode, ContentKey(cfg.mode, rec), st.g.spools, f.id, j)
    ensures Current(cfg, t, st.out, rec) ==> Current(cfg, t, RefreshFrom(cfg, t, st, f, j).st.out, rec)
    decreases |st.g.spools| - j, 0
  {
    RefreshAtKeeps(cfg, t, st, f, j, rec);
    RefreshFromStep(cfg, t, st, f, j);
    var h := RefreshAt(cfg, t, st, f, j);
    var rest := RefreshSpools(cfg, t, h.st, f, j + 1);
    if h.err.None? {
      UntouchedLater(cfg.mode, ContentKey(cfg.mode, rec), st.g.spools, h.st.g.spools, f.id, j);
      RefreshSpoolsKeeps(cfg, t, h.st, f, j + 1, rec);
    }
    CurrentThrough(cfg, t, st.out, h, rest, RefreshFrom(cfg, t, st, f, j), rec);
  }

  /** A record kept current by one turn, and by the rest of the loop when the turn goes through, is kept current by both. */
  lemma CurrentThrough(cfg: Config, t: Templates, x: Caches, h: Step, rest: Step, r: Step, rec: Record)
    requires h.err.Some? ==> r == h
    requires h.err.None? ==> r == Then(h, rest)
    requires Current(cfg, t, x, rec) ==> Current(cfg, t, h.st.out, rec)
    requires h.err.None? && Current(cfg, t, h.st.out, rec) ==> Current(cfg, t, rest.st.out, rec)
    ensures Current(cfg, t, x, rec) ==> Current(cfg, t, r.st.out, rec)
  {
  }

  /** One turn of the loop: a spool of another filament is passed over, a spool of the filament is handled. */
  lemma RefreshSpoolsStep(cfg: Config, t: Templates, st: State, f: Filament, j: nat)
    requires Valid(st.g)
    requires j < |st.g.spools|
    ensures !Embeds(st.g.spools[j].value, f.id) ==> RefreshSpools(cfg, t, st, f, j) == RefreshSpools(cfg, t, st, f, j + 1)
    ensures Embeds(st.g.spools[j].value, f.id) ==> RefreshSpools(cfg, t, st, f, j) == RefreshFrom(cfg, t, st, f, j)
  {
  }

  /** Handling a spool of the filament either fails, and the loop stops there, or is followed by the rest. */
  lemma RefreshFromStep(cfg: Config, t: Templates, st: State, f: Filament, j: nat)
    requires Valid(st.g)
    requires j < |st.g.spools| && Embeds(st.g.spools[j].value, f.id)
    ensures var h := RefreshAt(cfg, t, st, f, j);
            var r := RefreshFrom(cfg, t, st, f, j);
            && (h.err.Some? ==> r == h)
            && (h.err.None? ==> r == Then(h, RefreshSpools(cfg, t, h.st, f, j + 1)))
  {
  }


  /**
   What the loop from position `j` on leaves current, by mode, when it goes
   through: the last record of every active spool of the filament, as
   re-embedded (`all`), the filament's own last record (default), or a best
   active spool's (per-filament modes).
   */
  predicate RefreshedCurrent(cfg: Config, t: Templates, st: State, r: Step, f: Filament, j: nat) {
    && (r.err == None && cfg.mode == All ==>
          forall i :: j <= i < |st.g.spools| && i < |r.st.g.spools| && ActiveFor(st.g.spools[i].value, f.id) ==>
            UpToDate(cfg, t, r.st.out, f, Some(r.st.g.spools[i].value), Expansion(cfg)))
    && (r.err == None && ActiveFrom(st.g.spools, f.id, j) && cfg.mode == Default ==>
          UpToDate(cfg, t, r.st.out, f, None, Expansion(cfg)))
    && (r.err == None && ActiveFrom(st.g.spools, f.id, j) && PerFilament(cfg.mode) ==>
          BestCurrent(cfg, t, r.st.out, r.st.g.spools, f.id))
  }

  /**
   In `all` mode the spools after position `j` have other keys, so none of
   them writes under the key of the one at `j`.
   */
  lemma LaterSpoolsUntouched(mode: Mode, a: seq<Entry<Spool>>, b: seq<Entry<Spool>>, fid: int, j: nat)
    requires mode == All
    requires UniqueKeys(a) && j < |a| && |b| == |a|
    requires forall i :: j < i < |a| ==> b[i] == a[i]
    ensures Untouched(mode, SpoolKey(mode, fid, a[j].key), b, fid, j + 1)
  {
    forall i | j + 1 <= i < |b| && Embeds(b[i].value, fid)
      ensures SpoolKey(mode, fid, a[j].key) != SpoolKey(mode, fid, b[i].key)
    {
      assert b[i] == a[i];
      KeysDistinct(a, i, j);
      SpoolKeyDistinct(mode, fid, a[j].key, fid, a[i].key);
    }
  }

  /** A subject whose last record stays current stays up to date. */
  lemma UpToDateKept(cfg: Config, t: Templates, x: Caches, y: Caches, f: Filament, spool: Option<Spool>, ex: seq<Combo>)
    requires |ex| > 0 ==> (Current(cfg, t, x, MakeRecord(cfg, f, spool, ex[|ex| - 1])) ==>
                             Current(cfg, t, y, MakeRecord(cfg, f, spool, ex[|ex| - 1])))
    ensures UpToDate(cfg, t, x, f, spool, ex) ==> UpToDate(cfg, t, y, f, spool, ex)
  {
  }

  /** In `all` mode no later spool writes under the key of the last record of the spool at position `j`. */
  lemma LastRecordUntouched(cfg: Config, a: seq<Entry<Spool>>, b: seq<Entry<Spool>>, f: Filament, j: nat)
    requires cfg.mode == All
    requires UniqueKeys(a) && j < |a| && |b| == |a|
    requires a[j].value.id == Some(a[j].key) && Embeds(a[j].value, f.id)
    requires forall i :: j < i < |a| ==> b[i] == a[i]
    ensures var ex := Expansion(cfg);
            var rec := MakeRecord(cfg, f, Some(Reembed(a[j].value, f)), ex[|ex| - 1]);
            '-' !in rec.suffix && Untouched(cfg.mode, ContentKey(cfg.mode, rec), b, f.id, j + 1)
  {
    var ex := Expansion(cfg);
    var rec := MakeRecord(cfg, f, Some(Reembed(a[j].value, f)), ex[|ex| - 1]);
    assert ContentKey(cfg.mode, rec) == SpoolKey(cfg.mode, f.id, a[j].key);
    LaterSpoolsUntouched(cfg.mode, a, b, f.id, j);
    ExpansionDashFree(cfg);
  }

  /** The rest of the loop leaves the spool handled at position `j` as that turn re-embedded it. */
  lemma RefreshedSpoolPlace(cfg: Config, t: Templates, st: State, f: Filament, j: nat)
    requires Valid(st.g)
    requires j < |st.g.spools| && Embeds(st.g.spools[j].value, f.id)
    ensures var h := RefreshAt(cfg, t, st, f, j);
            RefreshSpools(cfg, t, h.st, f, j + 1).st.g.spools[j].value == Reembed(st.g.spools[j].value, f)
  {
  }

  /** In `all` mode the spool handled at position `j` stays current through the rest of the loop. */
  lemma RefreshedSpoolStays(cfg: Config, t: Templates, st: State, f: Filament, j: nat)
    requires Valid(st.g)
    requires j < |st.g.spools| && Embeds(st.g.spools[j].value, f.id)
    requires cfg.mode == All
    ensures var h := RefreshAt(cfg, t, st, f, j);
            var s1 := Reembed(st.g.spools[j].value, f);
            h.err == None ==>
              var rest := RefreshSpools(cfg, t, h.st, f, j + 1);
              UpToDate(cfg, t, h.st.out, f, Some(s1), Expansion(cfg)) ==>
                UpToDate(cfg, t, rest.st.out, f, Some(s1), Expansion(cfg))
  {
    var h := RefreshAt(cfg, t, st, f, j);
    var s1 := Reembed(st.g.spools[j].value, f);
    if h.err == None {
      var ex := Expansion(cfg);
      var rec := MakeRecord(cfg, f, Some(s1), ex[|ex| - 1]);
      LastRecordUntouched(cfg, st.g.spools, h.st.g.spools, f, j);
      RefreshSpoolsKeeps(cfg, t, h.st, f, j + 1, rec);
      UpToDateKept(cfg, t, h.st.out, RefreshSpools(cfg, t, h.st, f, j + 1).st.out, f, Some(s1), ex);
    }
  }

  /** What the loop from position `j` on leaves current in each mode. */
  lemma {:induction false} RefreshSpoolsRenders(cfg: Config, t: Templates, st: State, f: Filament, j: nat)
    requires Valid(st.g)
    requires j <= |st.g.spools|
    ensures RefreshedCurrent(cfg, t, st, RefreshSpools(cfg, t, st, f, j), f, j)
    decreases |st.g.spools| - j, 1
  {
    if j < |st.g.spools| {
      RefreshSpoolsStep(cfg, t, st, f, j);
      if !Embeds(st.g.spools[j].value, f.id) {
        RefreshSkipRenders(cfg, t, st, f, j);
      } else {
        RefreshFromRenders(cfg, t, st, f, j);
      }
    }
  }

  /** The same, past a spool of another filament. */
  lemma {:induction false} RefreshSkipRenders(cfg: Config, t: Templates, st: State, f: Filament, j: nat)
    requires Valid(st.g)
    requires j < |st.g.spools| && !Embeds(st.g.spools[j].value, f.id)
    ensures RefreshedCurrent(cfg, t, st, RefreshSpools(cfg, t, st, f, j + 1), f, j)
    decreases |st.g.spools| - j, 0
  {
    RefreshSpoolsRenders(cfg, t, st, f, j + 1);
    RefreshedCurrentSkip(cfg, t, st, RefreshSpools(cfg, t, st, f, j + 1), f, j);
  }

  /** What the loop leaves current from position `j + 1` on it leaves current from `j` on, past a spool of another filament. */
  lemma RefreshedCurrentSkip(cfg: Config, t: Templates, st: State, r: Step, f: Filament, j: nat)
    requires j < |st.g.spools| && !Embeds(st.g.spools[j].value, f.id)
    requires RefreshedCurrent(cfg, t, st, r, f, j + 1)
    ensures RefreshedCurrent(cfg, t, st, r, f, j)
  {
    assert ActiveFrom(st.g.spools, f.id, j) ==> ActiveFrom(st.g.spools, f.id, j + 1);
  }

  /** The same, from a spool of the filament on. */
  lemma {:induction false} RefreshFromRenders(cfg: Config, t: Templates, st: State, f: Filament, j: nat)
    requires Valid(st.g)
    requires j < |st.g.spools| && Embeds(st.g.spools[j].value, f.id)
    ensures RefreshedCurrent(cfg, t, st, RefreshFrom(cfg, t, st, f, j), f, j)
    decreases |st.g.spools| - j, 0
  {
    RefreshFromStep(cfg, t, st, f, j);
    var h := RefreshAt(cfg, t, st, f, j);
    if h.err.None? {
      var rest := RefreshSpools(cfg, t, h.st, f, j + 1);
      RefreshSpoolsRenders(cfg, t, h.st, f, j + 1);
      RefreshAtRenders(cfg, t, st, f, j);
      RefreshSpoolsModes(cfg, t, h.st, f, j + 1);
      RefreshedSpoolPlace(cfg, t, st, f, j);
      if cfg.mode == All {
        RefreshedSpoolStays(cfg, t, st, f, j);
      }
      RefreshCurrentCompose(cfg, t, st, h, rest, f, j);
    }
  }


  /** Handling the spool at position `j` followed by the rest of the loop. */
  lemma RefreshCurrentCompose(cfg: Config, t: Templates, st: State, h: Step, rest: Step, f: Filament, j: nat)
    requires j < |st.g.spools| && Embeds(st.g.spools[j].value, f.id)
    requires h.st.g.spools == SetAt(st.g.spools, j, Reembed(st.g.spools[j].value, f))
    requires h.err == None
    requires !ActiveFor(st.g.spools[j].value, f.id) ==> h.st.out == st.out
    requires ActiveFor(st.g.spools[j].value, f.id) && cfg.mode == Default ==>
               UpToDate(cfg, t, h.st.out, f, None, Expansion(cfg))
    requires ActiveFor(st.g.spools[j].value, f.id) && PerFilament(cfg.mode) ==>
               BestCurrent(cfg, t, h.st.out, h.st.g.spools, f.id)
    requires ActiveFor(st.g.spools[j].value, f.id) && cfg.mode == All && rest.err == None ==>
               && j < |rest.st.g.spools|
               && UpToDate(cfg, t, rest.st.out, f, Some(rest.st.g.spools[j].value), Expansion(cfg))
    requires !ActiveFrom(h.st.g.spools, f.id, j + 1) ==> rest.err == None && rest.st.out == h.st.out
    requires RefreshedFrom(h.st.g.spools, rest.st.g.spools, f, j + 1)
    requires RefreshedCurrent(cfg, t, h.st, rest, f, j + 1)
    ensures RefreshedCurrent(cfg, t, st, Then(h, rest), f, j)
  {
    var a := st.g.spools;
    var b := h.st.g.spools;
    var c := rest.st.g.spools;
    assert forall i :: j + 1 <= i < |a| ==> a[i] == b[i];
    assert ActiveFrom(a, f.id, j + 1) <==> ActiveFrom(b, f.id, j + 1);
    if !ActiveFrom(b, f.id, j + 1) {
      assert SameActive(b, c, f.id);
      BestCurrentKeeps(cfg, t, h.st.out, b, c, f.id);
    }
  }

  /**
   The content a filament has once its spools are handled, by mode: in `all`
   the last record of every active cached spool of it is current; in the
   default mode the filament's own last record is current while some cached
   spool of it is active; in the per-filament modes a best active cached
   spool's last record is current.
   */
  predicate Rendered(cfg: Config, t: Templates, out: Caches, spools: seq<Entry<Spool>>, f: Filament) {
    && (cfg.mode == All ==>
          forall i :: 0 <= i < |spools| && ActiveFor(spools[i].value, f.id) ==>
            UpToDate(cfg, t, out, f, Some(spools[i].value), Expansion(cfg)))
    && (cfg.mode == Default && ActiveFrom(spools, f.id, 0) ==> UpToDate(cfg, t, out, f, None, Expansion(cfg)))
    && (PerFilament(cfg.mode) && ActiveFrom(spools, f.id, 0) ==> BestCurrent(cfg, t, out, spools, f.id))
  }

  /** A loop over the whole cache that goes through leaves the filament rendered. */
  lemma RefreshRenders(cfg: Config, t: Templates, st: State, r: Step, f: Filament)
    requires RefreshedFrom(st.g.spools, r.st.g.spools, f, 0)
    requires RefreshedCurrent(cfg, t, st, r, f, 0)
    ensures r.err == None ==> Rendered(cfg, t, r.st.out, r.st.g.spools, f)
  {
    if r.err.Some? {
      return;
    }
    var a := st.g.spools;
    var c := r.st.g.spools;
    if cfg.mode == All {
      forall i | 0 <= i < |c| && ActiveFor(c[i].value, f.id)
        ensures UpToDate(cfg, t, r.st.out, f, Some(c[i].value), Expansion(cfg))
      {
        ActiveBefore(a, c, f, i);
      }
    }
    if ActiveFrom(c, f.id, 0) {
      var i :| 0 <= i < |c| && ActiveFor(c[i].value, f.id);
      ActiveBefore(a, c, f, i);
    }
  }

  /** Re-embedding a spool keeps it active or not. */
  lemma ActiveBefore(a: seq<Entry<Spool>>, c: seq<Entry<Spool>>, f: Filament, i: nat)
    requires RefreshedFrom(a, c, f, 0)
    requires i < |c| && ActiveFor(c[i].value, f.id)
    ensures ActiveFor(a[i].value, f.id)
  {
  }
}

=== FILE: engine.dfy ===
/**
 The live half of the processor: the handlers of the inventory's change
 events, the receive loop, and scenarios of single events.
 */
module Engine {
  import opened Maybe
  import opened Failures
  import opened Text
  import opened OrderedDict
  import opened Entities
  import opened Settings
  import opened Outputs
  import opened Selection
  import opened Processor
  import opened SpoolUpdate
  import opened Cascades
  import opened VendorCascades

  /** The `type` field of a change event. */
  datatype Kind = Added | Updated | Deleted | OtherKind(name: string)

  /** A change event by its `resource` field, carrying its payload. */
  datatype Message =
    | VendorEvent(vkind: Kind, vendor: Vendor)
    | FilamentEvent(fkind: Kind, filament: Filament)
    | SpoolEvent(skind: Kind, spool: Spool)
    | OtherEvent(resource: string)

  /**
   `handle_vendor_update_msg`: the vendor cache follows the event; only an
   update touches files, through the cascade.
   */
  function OnVendor(cfg: Config, t: Templates, st: State, k: Kind, v: Vendor): (r: Step)
    requires Valid(st.g)
    ensures Valid(r.st.g)
    ensures Good(st) ==> Good(r.st)
    ensures st.out.names.Keys <= r.st.out.names.Keys
    ensures k == Added || k == Updated ==> r.st.g.vendors == st.g.vendors[v.id := v]
    ensures k == Deleted ==> r.st.g.vendors == st.g.vendors - {v.id}
    ensures k != Updated ==> r.effects == [] && r.err == None && r.st.out == st.out
    ensures k != Updated ==> r.st.g.filaments == st.g.filaments && r.st.g.spools == st.g.spools
    ensures k.OtherKind? ==> r == Stay(st)
    ensures Keys(r.st.g.filaments) == Keys(st.g.filaments) && Keys(r.st.g.spools) == Keys(st.g.spools)
    ensures k == Updated && r.err == None ==>
              forall i :: 0 <= i < |st.g.filaments| && HasVendor(st.g.filaments[i].value, v.id) ==>
                r.st.g.filaments[i] == Entry(st.g.filaments[i].key, Revend(st.g.filaments[i].value, v))
    ensures k == Updated ==> SpoolsRevended(st.g.filaments, st.g.spools, r.st.g.spools, v, 0)
    ensures k == Updated && r.err == None ==>
              && AllSpoolsRevended(st.g.filaments, st.g.spools, r.st.g.spools, v, 0)
              && VendorSettled(cfg, r.st.out.names, st.g.filaments, r.st.g.spools, v, 0)
              && VendorRendered(cfg, t, r.st.out, st.g.filaments, r.st.g.spools, v, 0)
  {
    match k
    case Added => Stay(st.(g := PutVendor(st.g, v)))
    case Updated => UpdateVendor(cfg, t, st, v)
    case Deleted => Stay(st.(g := DeleteVendor(st.g, v.id)))
    case OtherKind(_) => Stay(st)
  }

  /**
   The `updated` branch of `handle_vendor_update_msg`: the vendor is cached,
   then every cached filament of it gets it embedded and its spools refreshed.
   */
  function UpdateVendor(cfg: Config, t: Templates, st: State, v: Vendor): (r: Step)
    requires Valid(st.g)
    ensures Valid(r.st.g)
    ensures Good(st) ==> Good(r.st)
    ensures st.out.names.Keys <= r.st.out.names.Keys
    ensures r.st.g.vendors == st.g.vendors[v.id := v]
    ensures Keys(r.st.g.filaments) == Keys(st.g.filaments) && Keys(r.st.g.spools) == Keys(st.g.spools)
    ensures r.err == None ==>
              forall i :: 0 <= i < |st.g.filaments| && HasVendor(st.g.filaments[i].value, v.id) ==>
                r.st.g.filaments[i] == Entry(st.g.filaments[i].key, Revend(st.g.filaments[i].value, v))
    ensures SpoolsRevended(st.g.filaments, st.g.spools, r.st.g.spools, v, 0)
    ensures r.err == None ==>
              && AllSpoolsRevended(st.g.filaments, st.g.spools, r.st.g.spools, v, 0)
              && VendorSettled(cfg, r.st.out.names, st.g.filaments, r.st.g.spools, v, 0)
              && VendorRendered(cfg, t, r.st.out, st.g.filaments, r.st.g.spools, v, 0)
  {
    var st1 := st.(g := PutVendor(st.g, v));
    VendorCascadeSpools(cfg, t, st1, v, 0);
    VendorCascadeRenders(cfg, t, st1, v, 0);
    VendorCascade(cfg, t, st1, v, 0)
  }

  /**
   The `updated` branch of `handle_filament_update_msg`: the filament, with its
   vendor resolved, replaces the cached one, and every cached spool of it is
   refreshed.
   */
  function UpdateFilament(cfg: Config, t: Templates, st: State, f: Filament): (r: Step)
    requires Valid(st.g)
    ensures Valid(r.st.g)
    ensures Good(st) ==> Good(r.st)
    ensures st.out.names.Keys <= r.st.out.names.Keys
    ensures r.st.g.vendors == st.g.vendors
    ensures Get(r.st.g.filaments, f.id) == Some(EmbedVendor(st.g.vendors, f))
    ensures forall id :: id != f.id ==> Get(r.st.g.filaments, id) == Get(st.g.filaments, id)
    ensures Keys(r.st.g.spools) == Keys(st.g.spools)
    ensures r.err == None ==>
              forall i :: 0 <= i < |st.g.spools| && Embeds(st.g.spools[i].value, f.id) ==>
                r.st.g.spools[i].value == Reembed(st.g.spools[i].value, EmbedVendor(st.g.vendors, f))
    ensures !ActiveFrom(st.g.spools, f.id, 0) ==> r.effects == [] && r.err == None && r.st.out == st.out
    ensures r.err == None ==> Settled(cfg, r.st.out.names, r.st.g.spools, EmbedVendor(st.g.vendors, f))
    ensures r.err == None ==> Rendered(cfg, t, r.st.out, r.st.g.spools, EmbedVendor(st.g.vendors, f))
  {
    var f1 := EmbedVendor(st.g.vendors, f);
    var st1 := st.(g := PutFilament(st.g, f1));
    var r := RefreshSpools(cfg, t, st1, f1, 0);
    RefreshSpoolsModes(cfg, t, st1, f1, 0);
    RefreshSettles(cfg, st1, r, f1);
    RefreshSpoolsRenders(cfg, t, st1, f1, 0);
    RefreshRenders(cfg, t, st1, r, f1);
    r
  }

  /**
   `handle_filament_update_msg`: an added or updated filament gets its vendor
   resolved and is cached; an update then refreshes every cached spool of it.
   */
  function OnFilament(cfg: Config, t: Templates, st: State, k: Kind, f: Filament): (r: Step)
    requires Valid(st.g)
    ensures Valid(r.st.g)
    ensures Good(st) ==> Good(r.st)
    ensures st.out.names.Keys <= r.st.out.names.Keys
    ensures r.st.g.vendors == st.g.vendors
    ensures k == Added || k == Updated ==> Get(r.st.g.filaments, f.id) == Some(EmbedVendor(st.g.vendors, f))
    ensures k == Deleted ==> Get(r.st.g.filaments, f.id) == None
    ensures forall id :: id != f.id ==> Get(r.st.g.filaments, id) == Get(st.g.filaments, id)
    ensures k != Updated ==> r.effects == [] && r.err == None && r.st.out == st.out && r.st.g.spools == st.g.spools
    ensures k.OtherKind? ==> r == Stay(st)
    ensures Keys(r.st.g.spools) == Keys(st.g.spools)
    ensures k == Updated && r.err == None ==>
              forall i :: 0 <= i < |st.g.spools| && Embeds(st.g.spools[i].value, f.id) ==>
                r.st.g.spools[i].value == Reembed(st.g.spools[i].value, EmbedVendor(st.g.vendors, f))
    ensures k == Updated && !ActiveFrom(st.g.spools, f.id, 0) ==>
              r.effects == [] && r.err == None && r.st.out == st.out
    ensures k == Updated && r.err == None ==> Settled(cfg, r.st.out.names, r.st.g.spools, EmbedVendor(st.g.vendors, f))
    ensures k == Updated && r.err == None ==> Rendered(cfg, t, r.st.out, r.st.g.spools, EmbedVendor(st.g.vendors, f))
  {
    match k
    case Added => Stay(st.(g := PutFilament(st.g, EmbedVendor(st.g.vendors, f))))
    case Updated => UpdateFilament(cfg, t, st, f)
    case Deleted =>
      if HasKey(st.g.filaments, f.id) then Stay(st.(g := DeleteFilament(st.g, f.id))) else Stay(st)
    case OtherKind(_) => Stay(st)
  }

  /** `spools_cache[s["id"]] = s` when the payload has an id. */
  function CacheSpool(g: Graph, s: Spool): (r: Graph)
    requires Valid(g)
    ensures Valid(r)
    ensures r.vendors == g.vendors && r.filaments == g.filaments
    ensures s.id.Some? ==> Get(r.spools, s.id.value) == Some(s)
    ensures forall k :: (s.id.None? || k != s.id.value) ==> Get(r.spools, k) == Get(g.spools, k)
  {
    if s.id.Some? then PutSpool(g, s) else g
  }

  /**
   The extra step of a default-mode update that moves a spool to another
   filament: the old filament's files go when, after caching the new version,
   no cached spool of the old filament is active.
   */
  function MoveRelease(cfg: Config, g: Graph, prev: Option<Spool>, s: Spool): (r: Option<Filament>)
    ensures r.Some? <==>
              && cfg.mode == Default && prev.Some? && prev.value.filament.Some? && s.filament.Some?
              && prev.value.filament.value.id != s.filament.value.id
              && !(exists i :: 0 <= i < |g.spools| && ActiveFor(g.spools[i].value, prev.value.filament.value.id))
    ensures r.Some? ==> r == prev.value.filament
  {
    if cfg.mode == Default && prev.Some? && prev.value.filament.Some? && s.filament.Some?
       && prev.value.filament.value.id != s.filament.value.id
       && !HasActiveSpool(g.spools, prev.value.filament.value.id)
    then prev.value.filament
    else None
  }

  /**
   The release of `fo`'s files comes first: a prefix of the effects only
   removes, and removes the file of every record of `fo` on its last use in
   `out` and no file of another record.
   */
  predicate ReleasedFirst(cfg: Config, out: Caches, fo: Filament, fx: seq<Effect>) {
    exists n :: 0 <= n <= |fx| && OnlyRemoves(fx[..n]) && ReleasedFiles(cfg, out, fo, None, Expansion(cfg), fx[..n])
  }

  /**
   What an update event for `s` does to the files: the spool, with its filament
   resolved, is cached and then handled; in the default mode a move away from a
   filament with no active spool left first drops that filament's files.
   */
  predicate UpdateHandled(cfg: Config, t: Templates, st: State, s: Spool, r: Step)
    requires Valid(st.g)
  {
    var prev := if Truthy(s.id) then Get(st.g.spools, s.id.value) else None;
    var s1 := EmbedFilament(st.g.filaments, s);
    var g1 := CacheSpool(st.g, s1);
    var p := PlanSpoolUpdate(cfg, g1, s1);
    match MoveRelease(cfg, g1, prev, s1)
    case None => Handled(cfg, t, st.out, r, p)
    case Some(fo) =>
      && ReleasedFirst(cfg, st.out, fo, r.effects)
      && (p.Act? && p.action == ReleaseOnly ==> OnlyRemoves(r.effects) && r.err == None && r.st.out.names == st.out.names)
      && (p.Act? && p.action == Refresh && r.err == None ==>
            && Recorded(cfg, r.st.out.names, p.filament, p.spool, Expansion(cfg))
            && UpToDate(cfg, t, r.st.out, p.filament, p.spool, Expansion(cfg)))
  }

  /**
   What a delete event for `s` does to the files: a cached spool with a
   filament leaves the cache and is handled as it was cached; anything else
   touches no file.
   */
  predicate DeleteHandled(cfg: Config, t: Templates, st: State, s: Spool, r: Step)
    requires Valid(st.g)
  {
    if Truthy(s.id) && HasKey(st.g.spools, s.id.value) && Get(st.g.spools, s.id.value).value.filament.Some? then
      Handled(cfg, t, st.out, r, PlanSpoolUpdate(cfg, DeleteSpool(st.g, s.id.value), Get(st.g.spools, s.id.value).value))
    else r.effects == [] && r.err == None && r.st.out == st.out
  }

  /** The `updated` branch of `handle_spool_update_msg`. */
  function OnSpoolUpdated(cfg: Config, t: Templates, st: State, s: Spool): (r: Step)
    requires Valid(st.g)
    ensures Valid(r.st.g)
    ensures Good(st) ==> Good(r.st)
    ensures st.out.names.Keys <= r.st.out.names.Keys
    ensures r.st.g == CacheSpool(st.g, EmbedFilament(st.g.filaments, s))
    ensures UpdateHandled(cfg, t, st, s, r)
  {
    var prev := if Truthy(s.id) then Get(st.g.spools, s.id.value) else None;
    var s1 := EmbedFilament(st.g.filaments, s);
    var st1 := st.(g := CacheSpool(st.g, s1));
    match MoveRelease(cfg, st1.g, prev, s1)
    case Some(fo) =>
      var release := Reconcile(cfg, t, Atomic, st1, fo, None, Expansion(cfg), ReleaseOnly);
      var h := HandleSpoolUpdate(cfg, t, release.st, s1);
      var r := Then(release, h);
      assert r.effects[..|release.effects|] == release.effects;
      ThenKeeps(release, h);
      r
    case None => HandleSpoolUpdate(cfg, t, st1, s1)
  }

  /** The `deleted` branch of `handle_spool_update_msg`. */
  function OnSpoolDeleted(cfg: Config, t: Templates, st: State, s: Spool): (r: Step)
    requires Valid(st.g)
    ensures Valid(r.st.g)
    ensures Good(st) ==> Good(r.st)
    ensures st.out.names.Keys <= r.st.out.names.Keys
    ensures r.st.g == if Truthy(s.id) && HasKey(st.g.spools, s.id.value) then DeleteSpool(st.g, s.id.value) else st.g
    ensures DeleteHandled(cfg, t, st, s, r)
  {
    if Truthy(s.id) && HasKey(st.g.spools, s.id.value) then
      var gone := Get(st.g.spools, s.id.value).value;
      var st1 := st.(g := DeleteSpool(st.g, s.id.value));
      if gone.filament.Some? then HandleSpoolUpdate(cfg, t, st1, gone) else Stay(st1)
    else Stay(st)
  }

  /**
   `handle_spool_update_msg`. An added or updated spool gets its filament
   resolved, is cached when it has an id, and is handled; an update in the
   default mode first drops the files of the filament the spool left if that
   filament has no active spool left. A deleted cached spool is removed from
   the cache and then handled as it was, if it had a filament.
   */
  function OnSpool(cfg: Config, t: Templates, st: State, k: Kind, s: Spool): (r: Step)
    requires Valid(st.g)
    ensures Valid(r.st.g)
    ensures Good(st) ==> Good(r.st)
    ensures st.out.names.Keys <= r.st.out.names.Keys
    ensures r.st.g.vendors == st.g.vendors && r.st.g.filaments == st.g.filaments
    ensures (k == Added || k == Updated) && s.id.Some? ==>
              Get(r.st.g.spools, s.id.value) == Some(EmbedFilament(st.g.filaments, s))
    ensures k == Deleted && Truthy(s.id) ==> Get(r.st.g.spools, s.id.value) == None
    ensures forall id :: (s.id.None? || id != s.id.value) ==> Get(r.st.g.spools, id) == Get(st.g.spools, id)
    ensures k.OtherKind? ==> r == Stay(st)
    ensures k == Added ==>
              var s1 := EmbedFilament(st.g.filaments, s);
              Handled(cfg, t, st.out, r, PlanSpoolUpdate(cfg, CacheSpool(st.g, s1), s1))
    ensures k == Updated ==> UpdateHandled(cfg, t, st, s, r)
    ensures k == Deleted ==> DeleteHandled(cfg, t, st, s, r)
  {
    match k
    case Added =>
      var s1 := EmbedFilament(st.g.filaments, s);
      HandleSpoolUpdate(cfg, t, st.(g := CacheSpool(st.g, s1)), s1)
    case Updated => OnSpoolUpdated(cfg, t, st, s)
    case Deleted => OnSpoolDeleted(cfg, t, st, s)
    case OtherKind(_) => Stay(st)
  }

  /** The dispatch on the `resource` field; an unknown resource is only logged. */
  function HandleMessage(cfg: Config, t: Templates, st: State, m: Message): (r: Step)
    requires Valid(st.g)
    ensures Valid(r.st.g)
    ensures Good(st) ==> Good(r.st)
    ensures st.out.names.Keys <= r.st.out.names.Keys
    ensures m.OtherEvent? ==> r == Stay(st)
  {
    match m
    case VendorEvent(k, v) => OnVendor(cfg, t, st, k, v)
    case FilamentEvent(k, f) => OnFilament(cfg, t, st, k, f)
    case SpoolEvent(k, s) => OnSpool(cfg, t, st, k, s)
    case OtherEvent(_) => Stay(st)
  }

  /** What a stream of events leaves behind: the state, the file operations in order, the failures met. */
  datatype Session = Session(st: State, effects: seq<Effect>, failures: seq<Failure>)

  /**
   The receive loop of `connect_updates`: events are handled in order, and a
   failure ends only the event that raised it; the next event starts from the
   state that event left behind.
   */
  function Listen(cfg: Config, t: Templates, st: State, ms: seq<Message>): (r: Session)
    requires Valid(st.g)
    ensures Valid(r.st.g)
    ensures Good(st) ==> Good(r.st)
    ensures st.out.names.Keys <= r.st.out.names.Keys
    ensures |r.failures| <= |ms|
    ensures (forall i :: 0 <= i < |ms| ==> ms[i].OtherEvent?) ==> r == Session(st, [], [])
    decreases |ms|
  {
    if |ms| == 0 then Session(st, [], [])
    else
      var h := HandleMessage(cfg, t, st, ms[0]);
      var rest := Listen(cfg, t, h.st, ms[1..]);
      var failed := if h.err.Some? then [h.err.value] else [];
      Session(rest.st, h.effects + rest.effects, failed + rest.failures)
  }

  /** One event alone: its own effects, and its failure, if any, as the only one. */
  lemma ListenOne(cfg: Config, t: Templates, st: State, m: Message)
    requires Valid(st.g)
    ensures var h := HandleMessage(cfg, t, st, m);
            Listen(cfg, t, st, [m]) == Session(h.st, h.effects, if h.err.Some? then [h.err.value] else [])
  {
    assert [m][1..] == [];
  }

  /**
   A stream split in two: the second part starts from the state the first left
   behind, whether or not events of the first failed, and the effects and
   failures of the two parts follow each other.
   */
  lemma ListenAppend(cfg: Config, t: Templates, st: State, ms1: seq<Message>, ms2: seq<Message>)
    requires Valid(st.g)
    ensures var a := Listen(cfg, t, st, ms1);
            var b := Listen(cfg, t, a.st, ms2);
            Listen(cfg, t, st, ms1 + ms2) == Session(b.st, a.effects + b.effects, a.failures + b.failures)
  {
    var a := Listen(cfg, t, st, ms1);
    ListenDrives(cfg, t, st, ms1 + ms2);
    ListenDrives(cfg, t, st, ms1);
    ListenDrives(cfg, t, a.st, ms2);
    DriveAppend(Handler(cfg, t), st, ms1, ms2);
  }

  /** The handler of `HandleMessage` as a value, total over states. */
  function Handler(cfg: Config, t: Templates): (State, Message) -> Step {
    (s: State, m: Message) => if Valid(s.g) then HandleMessage(cfg, t, s, m) else Stay(s)
  }

  /** The receive loop over any handler. */
  function Drive<M>(handle: (State, M) -> Step, st: State, ms: seq<M>): Session
    decreases |ms|
  {
    if |ms| == 0 then Session(st, [], [])
    else
      var h := handle(st, ms[0]);
      var rest := Drive(handle, h.st, ms[1..]);
      Session(rest.st, h.effects + rest.effects, (if h.err.Some? then [h.err.value] else []) + rest.failures)
  }

  /** `Listen` is the receive loop over `HandleMessage`. */
  lemma {:induction false} ListenDrives(cfg: Config, t: Templates, st: State, ms: seq<Message>)
    requires Valid(st.g)
    ensures Listen(cfg, t, st, ms) == Drive(Handler(cfg, t), st, ms)
    decreases |ms|
  {
    if |ms| > 0 {
      var h := HandleMessage(cfg, t, st, ms[0]);
      assert Handler(cfg, t)(st, ms[0]) == h;
      ListenDrives(cfg, t, h.st, ms[1..]);
    }
  }

  /** Any receive loop splits at any point of its stream. */
  lemma {:induction false} DriveAppend<M>(handle: (State, M) -> Step, st: State, ms1: seq<M>, ms2: seq<M>)
    ensures var a := Drive(handle, st, ms1);
            var b := Drive(handle, a.st, ms2);
            Drive(handle, st, ms1 + ms2) == Session(b.st, a.effects + b.effects, a.failures + b.failures)
    decreases |ms1|
  {
    if |ms1| == 0 {
      assert ms1 + ms2 == ms2;
    } else {
      var h := handle(st, ms1[0]);
      assert (ms1 + ms2)[0] == ms1[0];
      assert (ms1 + ms2)[1..] == ms1[1..] + ms2;
      DriveAppend(handle, h.st, ms1[1..], ms2);
      var a1 := Drive(handle, h.st, ms1[1..]);
      var b := Drive(handle, a1.st, ms2);
      var failed := if h.err.Some? then [h.err.value] else [];
      assert h.effects + (a1.effects + b.effects) == (h.effects + a1.effects) + b.effects;
      assert failed + (a1.failures + b.failures) == (failed + a1.failures) + b.failures;
    }
  }



  /**
   In `all` mode a filament update that goes through refreshes every active
   cached spool of the filament: each now embeds the updated filament and has
   a filename remembered for every one of its records.
   */
  lemma FilamentUpdateRefreshesSpools(cfg: Config, t: Templates, st: State, f: Filament)
    requires Valid(st.g)
    requires cfg.mode == All
    ensures var r := UpdateFilament(cfg, t, st, f);
            var f1 := EmbedVendor(st.g.vendors, f);
            r.err == None ==>
              forall i :: 0 <= i < |st.g.spools| && ActiveFor(st.g.spools[i].value, f.id) ==>
                && r.st.g.spools[i].value == Reembed(st.g.spools[i].value, f1)
                && Recorded(cfg, r.st.out.names, f1, Some(r.st.g.spools[i].value), Expansion(cfg))
  {
    var f1 := EmbedVendor(st.g.vendors, f);
    var st1 := st.(g := PutFilament(st.g, f1));
    var r := RefreshSpools(cfg, t, st1, f1, 0);
    if r.err == None {
      forall i | 0 <= i < |st.g.spools| && ActiveFor(st.g.spools[i].value, f.id)
        ensures Recorded(cfg, r.st.out.names, f1, Some(r.st.g.spools[i].value), Expansion(cfg))
      {
        ActiveRecordedAt(cfg, r.st.out.names, st1.g.spools, r.st.g.spools, f1, 0, i);
      }
    }
  }

  /** The cache after `del d[k]` holds no entry for `k`, and only entries of `d`. */
  lemma DeletedEntries(d: seq<Entry<Spool>>, k: int)
    ensures forall i :: 0 <= i < |Delete(d, k)| ==> Delete(d, k)[i].key != k && Delete(d, k)[i] in d
  {
    var r := Delete(d, k);
    forall i | 0 <= i < |r|
      ensures r[i].key != k
    {
      assert Keys(r)[i] == k ==> HasKey(r, k);
    }
  }

  /**
   In the per-filament modes, deleting the last active spool of a filament drops
   the filament's files: only removals, no failure, no filename forgotten.
   */
  lemma DeletingLastActiveSpoolReleases(cfg: Config, t: Templates, st: State, s: Spool, sp: Spool)
    requires Valid(st.g)
    requires PerFilament(cfg.mode)
    requires Truthy(s.id) && Get(st.g.spools, s.id.value) == Some(sp) && sp.filament.Some?
    requires forall i :: 0 <= i < |st.g.spools| && st.g.spools[i].key != s.id.value ==>
               !ActiveFor(st.g.spools[i].value, sp.filament.value.id)
    ensures var r := OnSpool(cfg, t, st, Deleted, s);
            && OnlyRemoves(r.effects) && r.err == None
            && r.st.out.names == st.out.names
            && Get(r.st.g.spools, s.id.value) == None
  {
    var k := s.id.value;
    var g1 := DeleteSpool(st.g, k);
    DeletedEntries(st.g.spools, k);
    forall i | 0 <= i < |g1.spools|
      ensures !ActiveFor(g1.spools[i].value, sp.filament.value.id)
    {
      var e := g1.spools[i];
      var i0 :| 0 <= i0 < |st.g.spools| && st.g.spools[i0] == e;
    }
    assert PlanSpoolUpdate(cfg, g1, sp) == Act(sp.filament.value, None, ReleaseOnly);
  }

  /**
   In the default mode, deleting the only cached spool of the inventory keeps
   its filament's files: an empty spool cache counts as having an active spool,
   so the files are refreshed rather than dropped.
   */
  lemma DeletingOnlySpoolKeepsFiles(cfg: Config, t: Templates, st: State, s: Spool, sp: Spool)
    requires Valid(st.g)
    requires cfg.mode == Default
    requires Truthy(s.id) && st.g.spools == [Entry(s.id.value, sp)] && sp.filament.Some?
    ensures var r := OnSpool(cfg, t, st, Deleted, s);
            && r.st.g.spools == []
            && (r.err == None ==> Recorded(cfg, r.st.out.names, sp.filament.value, None, Expansion(cfg)))
  {
    var k := s.id.value;
    assert HasKey(st.g.spools, k) by {
      assert Keys(st.g.spools)[0] == k;
    }
    var g1 := DeleteSpool(st.g, k);
    DeletedEntries(st.g.spools, k);
    assert PlanSpoolUpdate(cfg, g1, sp) == Act(sp.filament.value, None, Refresh);
  }

  /**
   In `all` mode, deleting a cached active spool keeps its files: the spool is
   handled as an update after leaving the cache, which rewrites its files from
   the copy that was cached.
   */
  lemma DeletingSpoolInAllModeKeepsFiles(cfg: Config, t: Templates, st: State, s: Spool, sp: Spool)
    requires Valid(st.g)
    requires cfg.mode == All
    requires Truthy(s.id) && Get(st.g.spools, s.id.value) == Some(sp) && sp.filament.Some? && !sp.archived
    ensures var r := OnSpool(cfg, t, st, Deleted, s);
            && Get(r.st.g.spools, s.id.value) == None
            && (r.err == None ==> Recorded(cfg, r.st.out.names, sp.filament.value, Some(sp), Expansion(cfg)))
  {
    assert PlanSpoolUpdate(cfg, DeleteSpool(st.g, s.id.value), sp) == Act(sp.filament.value, Some(sp), Refresh);
  }

  /**
   In `all` mode, archiving a spool leaves its files in place: the update is
   cached and nothing is removed or written.
   */
  lemma ArchivingInAllModeKeepsFiles(cfg: Config, t: Templates, st: State, s: Spool)
    requires Valid(st.g)
    requires cfg.mode == All && s.archived
    ensures var r := OnSpool(cfg, t, st, Updated, s);
            && r.effects == [] && r.err == None && r.st.out == st.out
            && (s.id.Some? ==> Get(r.st.g.spools, s.id.value) == Some(EmbedFilament(st.g.filaments, s)))
  {
  }

  /** With no other active spool of the old filament cached, the move releases the old filament. */
  lemma LastSpoolMoveReleases(cfg: Config, st: State, s: Spool, prev: Spool)
    requires Valid(st.g)
    requires cfg.mode == Default
    requires Truthy(s.id) && prev.filament.Some?
    requires EmbedFilament(st.g.filaments, s).filament.Some?
    requires EmbedFilament(st.g.filaments, s).filament.value.id != prev.filament.value.id
    requires forall i :: 0 <= i < |st.g.spools| && st.g.spools[i].key != s.id.value ==>
               !ActiveFor(st.g.spools[i].value, prev.filament.value.id)
    ensures var s1 := EmbedFilament(st.g.filaments, s);
            MoveRelease(cfg, CacheSpool(st.g, s1), Some(prev), s1) == prev.filament
  {
    var k := s.id.value;
    var s1 := EmbedFilament(st.g.filaments, s);
    var g1 := CacheSpool(st.g, s1);
    var fo := prev.filament.value.id;
    forall i | 0 <= i < |g1.spools|
      ensures !ActiveFor(g1.spools[i].value, fo)
    {
      var e := g1.spools[i];
      GetAt(g1.spools, i);
      if e.key != k {
        GetIn(st.g.spools, e.key);
        var i0 :| 0 <= i0 < |st.g.spools| && st.g.spools[i0] == Entry(e.key, e.value);
      }
    }
  }

  /** In the default mode an updated active spool with a filament refreshes that filament's files. */
  lemma UpdatedActiveSpoolRefreshes(cfg: Config, st: State, s: Spool)
    requires Valid(st.g)
    requires cfg.mode == Default && s.id.Some?
    requires EmbedFilament(st.g.filaments, s).filament.Some? && !s.archived
    ensures var s1 := EmbedFilament(st.g.filaments, s);
            PlanSpoolUpdate(cfg, CacheSpool(st.g, s1), s1) == Act(s1.filament.value, None, Refresh)
  {
    var s1 := EmbedFilament(st.g.filaments, s);
    var g1 := CacheSpool(st.g, s1);
    GetIn(g1.spools, s.id.value);
    var i1 :| 0 <= i1 < |g1.spools| && g1.spools[i1] == Entry(s.id.value, s1);
    assert ActiveFor(g1.spools[i1].value, s1.filament.value.id);
  }

  /**
   In the default mode, an update that moves a spool to another filament drops
   the old filament's files when no other cached spool of the old filament is
   active: the file of every record of the old filament on its last use is
   removed before anything is written, and an active spool leaves its new
   filament with its files remembered when the update goes through.
   */
  lemma MovingLastSpoolReleasesOldFilament(cfg: Config, t: Templates, st: State, s: Spool, prev: Spool)
    requires Valid(st.g)
    requires cfg.mode == Default
    requires Truthy(s.id) && Get(st.g.spools, s.id.value) == Some(prev) && prev.filament.Some?
    requires EmbedFilament(st.g.filaments, s).filament.Some?
    requires EmbedFilament(st.g.filaments, s).filament.value.id != prev.filament.value.id
    requires forall i :: 0 <= i < |st.g.spools| && st.g.spools[i].key != s.id.value ==>
               !ActiveFor(st.g.spools[i].value, prev.filament.value.id)
    ensures var s1 := EmbedFilament(st.g.filaments, s);
            MoveRelease(cfg, CacheSpool(st.g, s1), Some(prev), s1) == prev.filament
    ensures var r := OnSpool(cfg, t, st, Updated, s);
            var s1 := EmbedFilament(st.g.filaments, s);
            && ReleasedFirst(cfg, st.out, prev.filament.value, r.effects)
            && (!s1.archived && r.err == None ==> Recorded(cfg, r.st.out.names, s1.filament.value, None, Expansion(cfg)))
  {
    LastSpoolMoveReleases(cfg, st, s, prev);
    if !s.archived {
      UpdatedActiveSpoolRefreshes(cfg, st, s);
    }
    var r := OnSpool(cfg, t, st, Updated, s);
    assert UpdateHandled(cfg, t, st, s, r);
  }
}

=== FILE: entities.dfy ===
/**
 The entity graph cache: vendors, filaments and spools as received from the
 inventory, with foreign keys denormalised at insertion time (a filament
 carries its vendor, a spool carries its filament).
 */
module Entities {
  import opened Maybe
  import opened Failures
  import opened OrderedDict

  /** A vendor record; the engine only reads its id, the other fields go to templates. */
  datatype Vendor = Vendor(id: int, data: string)

  /** A filament record. `vendor` is the embedded vendor object, absent until resolved. */
  datatype Filament = Filament(
    id: int,
    vendorId: Option<int>,    // "vendor_id"
    vendor: Option<Vendor>,   // "vendor"
    material: Option<string>, // "material"; absent selects the default template
    data: string)             // every other field, opaque to the engine

  /**
   A spool record. `lastUsed` is "" when the field is absent, null or empty, which
   the selector treats alike; an absent `spoolWeight` sorts after every weight.
   */
  datatype Spool = Spool(
    id: Option<int>,
    filamentId: Option<int>,     // "filament_id"
    filament: Option<Filament>,  // "filament"
    archived: bool,              // "archived", absent meaning false
    spoolWeight: Option<int>,    // "spool_weight"
    lastUsed: string,            // "last_used"
    data: string)

  /** Python truthiness of an optional id: both an absent id and id 0 count as no id. */
  predicate Truthy(x: Option<int>) {
    x.Some? && x.value != 0
  }

  /** The three caches: `vendors_cache`, `filaments_cache` and `spools_cache`. */
  datatype Graph = Graph(
    vendors: map<int, Vendor>,
    filaments: seq<Entry<Filament>>,
    spools: seq<Entry<Spool>>)

  /** Every entry is stored under its own id and no id is stored twice. */
  predicate Valid(g: Graph) {
    && (forall k :: k in g.vendors ==> g.vendors[k].id == k)
    && UniqueKeys(g.filaments)
    && (forall i :: 0 <= i < |g.filaments| ==> g.filaments[i].value.id == g.filaments[i].key)
    && UniqueKeys(g.spools)
    && (forall i :: 0 <= i < |g.spools| ==> g.spools[i].value.id == Some(g.spools[i].key))
  }

  const Empty := Graph(map[], [], [])

  lemma EmptyValid()
    ensures Valid(Empty)
  {
  }

  /**
   Vendor resolution of a filament: only a filament without an embedded vendor
   changes, and only by embedding the cached vendor its truthy `vendor_id` names.
   An unresolvable reference leaves the vendor absent; it is never an error.
   */
  function EmbedVendor(vendors: map<int, Vendor>, f: Filament): (r: Filament)
    ensures r.(vendor := f.vendor) == f
    ensures f.vendor.Some? ==> r == f
    ensures r.vendor.None? <==> f.vendor.None? && !(Truthy(f.vendorId) && f.vendorId.value in vendors)
    ensures f.vendor.None? && r.vendor.Some? ==> r.vendor == Some(vendors[f.vendorId.value])
  {
    if f.vendor.None? && Truthy(f.vendorId) && f.vendorId.value in vendors then
      f.(vendor := Some(vendors[f.vendorId.value]))
    else f
  }

  /**
   Filament resolution of a spool, under the same rule: a spool without an
   embedded filament gets the cached filament its truthy `filament_id` names.
   */
  function EmbedFilament(filaments: seq<Entry<Filament>>, s: Spool): (r: Spool)
    ensures r.(filament := s.filament) == s
    ensures s.filament.Some? ==> r == s
    ensures r.filament.None? <==>
              s.filament.None? && !(Truthy(s.filamentId) && HasKey(filaments, s.filamentId.value))
    ensures s.filament.None? && r.filament.Some? ==> r.filament == Get(filaments, s.filamentId.value)
  {
    if s.filament.None? && Truthy(s.filamentId) && HasKey(filaments, s.filamentId.value) then
      s.(filament := Get(filaments, s.filamentId.value))
    else s
  }

  /** Resolving twice is resolving once, so re-resolving a stored record changes nothing. */
  lemma EmbedIdempotent(vendors: map<int, Vendor>, filaments: seq<Entry<Filament>>, f: Filament, s: Spool)
    ensures EmbedVendor(vendors, EmbedVendor(vendors, f)) == EmbedVendor(vendors, f)
    ensures EmbedFilament(filaments, EmbedFilament(filaments, s)) == EmbedFilament(filaments, s)
  {
  }

  /** `s.get("filament", {}).get("id") == fid`. */
  predicate Embeds(s: Spool, fid: int) {
    s.filament.Some? && s.filament.value.id == fid
  }

  /** A non-archived spool of filament `fid`. */
  predicate ActiveFor(s: Spool, fid: int) {
    Embeds(s, fid) && !s.archived
  }

  /** Python's `any(...)` over `spools_cache.values()`: some cached spool is an active spool of `fid`. */
  function HasActiveSpool(spools: seq<Entry<Spool>>, fid: int): (b: bool)
    ensures b <==> exists i :: 0 <= i < |spools| && ActiveFor(spools[i].value, fid)
  {
    if |spools| == 0 then false
    else if ActiveFor(spools[0].value, fid) then true
    else
      var b := HasActiveSpool(spools[1..], fid);
      assert b ==> exists i :: 0 <= i < |spools| && ActiveFor(spools[i].value, fid) by {
        if b {
          var i :| 0 <= i < |spools| - 1 && ActiveFor(spools[1..][i].value, fid);
          assert spools[i + 1] == spools[1..][i];
        }
      }
      b
  }

  /**
   The list comprehension over `spools_cache.values()` that collects the
   non-archived spools of filament `fid`, in cache order.
   */
  function ActiveSpools(spools: seq<Entry<Spool>>, fid: int): (r: seq<Spool>)
    ensures forall j :: 0 <= j < |r| ==> ActiveFor(r[j], fid)
    ensures forall j :: 0 <= j < |r| ==> exists i :: 0 <= i < |spools| && spools[i].value == r[j]
    ensures forall i :: 0 <= i < |spools| && ActiveFor(spools[i].value, fid) ==> spools[i].value in r
  {
    if |spools| == 0 then []
    else
      var rest := ActiveSpools(spools[1..], fid);
      var r := if ActiveFor(spools[0].value, fid) then [spools[0].value] + rest else rest;
      assert forall j :: 0 <= j < |rest| ==> exists i :: 0 <= i < |spools| && spools[i].value == rest[j] by {
        forall j | 0 <= j < |rest|
          ensures exists i :: 0 <= i < |spools| && spools[i].value == rest[j]
        {
          var i :| 0 <= i < |spools| - 1 && spools[1..][i].value == rest[j];
          assert spools[i + 1].value == rest[j];
        }
      }
      assert forall i :: 1 <= i < |spools| ==> spools[i] == spools[1..][i - 1];
      r
  }

  /** Every spool in the cache carries an id, the one it is stored under. */
  lemma CachedSpoolsHaveIds(g: Graph, fid: int)
    requires Valid(g)
    ensures forall j :: 0 <= j < |ActiveSpools(g.spools, fid)| ==> ActiveSpools(g.spools, fid)[j].id.Some?
  {
    var r := ActiveSpools(g.spools, fid);
    forall j | 0 <= j < |r|
      ensures r[j].id.Some?
    {
      var i :| 0 <= i < |g.spools| && g.spools[i].value == r[j];
    }
  }

  /** `vendors_cache[v["id"]] = v`. */
  function PutVendor(g: Graph, v: Vendor): (r: Graph)
    requires Valid(g)
    ensures Valid(r)
    ensures r == g.(vendors := g.vendors[v.id := v])
  {
    g.(vendors := g.vendors[v.id := v])
  }

  /** `filaments_cache[f["id"]] = f`. */
  function PutFilament(g: Graph, f: Filament): (r: Graph)
    requires Valid(g)
    ensures Valid(r)
    ensures r.vendors == g.vendors && r.spools == g.spools
    ensures Get(r.filaments, f.id) == Some(f)
    ensures forall k :: k != f.id ==> Get(r.filaments, k) == Get(g.filaments, k)
    ensures HasKey(g.filaments, f.id) ==> Keys(r.filaments) == Keys(g.filaments)
    ensures forall k :: HasKey(g.filaments, k) ==> HasKey(r.filaments, k)
    ensures HasKey(r.filaments, f.id)
  {
    var fs := Put(g.filaments, f.id, f);
    PutKeepsUnique(g.filaments, f.id, f);
    PutKeys(g.filaments, f.id, f);
    forall i | 0 <= i < |fs|
      ensures fs[i].value.id == fs[i].key
    {
      GetAt(fs, i);
      if fs[i].key != f.id {
        GetIn(g.filaments, fs[i].key);
      }
    }
    g.(filaments := fs)
  }

  /** `spools_cache[s["id"]] = s`, for a spool that has an id. */
  function PutSpool(g: Graph, s: Spool): (r: Graph)
    requires Valid(g)
    requires s.id.Some?
    ensures Valid(r)
    ensures r.vendors == g.vendors && r.filaments == g.filaments
    ensures Get(r.spools, s.id.value) == Some(s)
    ensures forall k :: k != s.id.value ==> Get(r.spools, k) == Get(g.spools, k)
    ensures HasKey(g.spools, s.id.value) ==> Keys(r.spools) == Keys(g.spools)
    ensures forall k :: HasKey(g.spools, k) ==> HasKey(r.spools, k)
    ensures HasKey(r.spools, s.id.value)
  {
    var ss := Put(g.spools, s.id.value, s);
    PutKeepsUnique(g.spools, s.id.value, s);
    PutKeys(g.spools, s.id.value, s);
    forall i | 0 <= i < |ss|
      ensures ss[i].value.id == Some(ss[i].key)
    {
      GetAt(ss, i);
      if ss[i].key != s.id.value {
        GetIn(g.spools, ss[i].key);
      }
    }
    g.(spools := ss)
  }

  /** `del vendors_cache[id]` when present; nothing else changes. */
  function DeleteVendor(g: Graph, id: int): (r: Graph)
    requires Valid(g)
    ensures Valid(r)
    ensures r.vendors == g.vendors - {id} && r.filaments == g.filaments && r.spools == g.spools
  {
    g.(vendors := g.vendors - {id})
  }

  /** `del filaments_cache[id]` when present; nothing else changes. */
  function DeleteFilament(g: Graph, id: int): (r: Graph)
    requires Valid(g)
    ensures Valid(r)
    ensures r.vendors == g.vendors && r.spools == g.spools
    ensures Get(r.filaments, id) == None
    ensures forall k :: k != id ==> Get(r.filaments, k) == Get(g.filaments, k)
  {
    var fs := Delete(g.filaments, id);
    DeleteKeepsUnique(g.filaments, id);
    assert forall i :: 0 <= i < |fs| ==> fs[i] in g.filaments;
    g.(filaments := fs)
  }

  /** `del spools_cache[id]` when present; nothing else changes. */
  function DeleteSpool(g: Graph, id: int): (r: Graph)
    requires Valid(g)
    ensures Valid(r)
    ensures r.vendors == g.vendors && r.filaments == g.filaments
    ensures Get(r.spools, id) == None
    ensures forall k :: k != id ==> Get(r.spools, k) == Get(g.spools, k)
  {
    var ss := Delete(g.spools, id);
    DeleteKeepsUnique(g.spools, id);
    assert forall i :: 0 <= i < |ss| ==> ss[i] in g.spools;
    g.(spools := ss)
  }
}

=== FILE: legacy.dfy ===
/**
 The standalone script that predates the processor class: the same output
 caches and file rules, but it writes with `print` (which appends a newline),
 looks up the slicer's suffixes only when it first needs them (refusing
 slic3r then), keeps no entity caches (the entity part of its state is never
 touched), and reacts to events by re-rendering the payload's filament alone.
 */
module Legacy {
  import opened Maybe
  import opened Failures
  import opened OrderedDict
  import opened Entities
  import opened Settings
  import opened Outputs
  import opened Processor
  import opened SpoolUpdate
  import opened Cascades
  import opened VendorCascades
  import opened Snapshot
  import opened Engine

  /** `get_config_suffix` of the script: the core's suffixes, except that slic3r is refused. */
  function LegacySuffixes(s: Slicer): (r: Result<seq<string>, Failure>)
    ensures r.Err? <==> s == Slic3r
    ensures r.Err? ==> r.error == UnsupportedSlicer(SlicerName(Slic3r))
    ensures r.Ok? ==> r.value == Suffixes(s)
  {
    if s == Slic3r then Err(UnsupportedSlicer(SlicerName(s))) else Ok(Suffixes(s))
  }

  /** The failure the script raises for a slicer it has no suffixes for. */
  const SlicerRefused := UnsupportedSlicer(SlicerName(Slic3r))

  /** The event handlers' loops: variants outside, suffixes inside, one record per pair of positions. */
  function EventCombos(cfg: Config, ss: seq<string>): (r: seq<Combo>)
    ensures forall c :: c in r <==> c.suffix in ss && c.variant in Variants(cfg)
    ensures |r| == |ss| * |Variants(cfg)|
    ensures VariantOrder(r, Variants(cfg), ss)
  {
    VariantMajor(Variants(cfg), ss)
  }

  /** The filament of a spool is covered by a filament-keyed pass (no spool bound to the records). */
  predicate FilamentCovered(cfg: Config, out: Caches, s: Spool) {
    s.filament.Some? && Covered(cfg, out, s.filament.value, None)
  }

  predicate EveryFilamentCovered(cfg: Config, out: Caches, spools: seq<Spool>)
    decreases |spools|
  {
    |spools| == 0 || (FilamentCovered(cfg, out, spools[0]) && EveryFilamentCovered(cfg, out, spools[1..]))
  }

  /** `EveryFilamentCovered` spelled out spool by spool. */
  lemma {:induction false} EveryFilamentCoveredAt(cfg: Config, out: Caches, spools: seq<Spool>)
    requires EveryFilamentCovered(cfg, out, spools)
    ensures forall s :: s in spools ==> FilamentCovered(cfg, out, s)
    decreases |spools|
  {
    if |spools| > 0 {
      EveryFilamentCoveredAt(cfg, out, spools[1..]);
      assert forall s :: s in spools ==> s == spools[0] || s in spools[1..];
    }
  }

  /** `key` is a filename key of the filament embedded in `s`, with no spool bound to the records. */
  predicate LegacyKey(cfg: Config, key: string, s: Spool) {
    s.filament.Some? && KeyOfSubject(cfg, key, s.filament.value, None, Expansion(cfg))
  }

  /** Every filename key added is a key of the filament of one of the spools. */
  predicate LegacyKeysOnly(cfg: Config, before: map<string, string>, after: map<string, string>, spools: seq<Spool>) {
    forall key :: key in after && key !in before ==> exists i :: 0 <= i < |spools| && LegacyKey(cfg, key, spools[i])
  }

  /** The keys of the first spool's filament, if committed, followed by those of the others. */
  lemma LegacyKeysCons(cfg: Config, a: map<string, string>, b: map<string, string>, c: map<string, string>,
                       spools: seq<Spool>)
    requires |spools| > 0
    requires forall key :: key in b && key !in a ==> LegacyKey(cfg, key, spools[0])
    requires c == b || LegacyKeysOnly(cfg, b, c, spools[1..])
    ensures LegacyKeysOnly(cfg, a, c, spools)
  {
    forall key | key in c && key !in a
      ensures exists i :: 0 <= i < |spools| && LegacyKey(cfg, key, spools[i])
    {
      if key !in b {
        var i :| 0 <= i < |spools[1..]| && LegacyKey(cfg, key, spools[1..][i]);
        assert spools[1..][i] == spools[i + 1];
      } else {
        assert LegacyKey(cfg, key, spools[0]);
      }
    }
  }

  /**
   The script's `process_filaments_default`: every spool, archived or not, has
   its embedded filament committed with no spool bound, once per spool. A spool
   without a filament fails, and so does the first spool reached when the
   slicer is slic3r.
   */
  function LegacyDefault(cfg: Config, t: Templates, st: State, spools: seq<Spool>): (r: Step)
    ensures r.st.g == st.g
    ensures Good(st) ==> Good(r.st)
    ensures OnlyWrites(r.effects)
    ensures st.out.names.Keys <= r.st.out.names.Keys
    ensures (exists s :: s in spools && s.filament.None?) ==> r.err.Some?
    ensures cfg.slicer == Slic3r && |spools| > 0 ==> r.err.Some? && r.effects == [] && r.st == st
    ensures r.err.None? ==> EveryFilamentCovered(cfg, r.st.out, spools)
    ensures LegacyKeysOnly(cfg, st.out.names, r.st.out.names, spools)
    decreases |spools|
  {
    if |spools| == 0 then Stay(st)
    else
      var s := spools[0];
      assert forall s' :: s' in spools ==> s' == s || s' in spools[1..];
      if s.filament.None? then Step(st, [], Some(MissingField("filament")))
      else if cfg.slicer == Slic3r then Step(st, [], Some(SlicerRefused))
      else
        var r1 := CommitSubject(cfg, t, Printed, st, s.filament.value, None);
        LegacyKeysCons(cfg, st.out.names, r1.st.out.names, r1.st.out.names, spools);
        if r1.err.Some? then r1
        else
          var r2 := LegacyDefault(cfg, t, r1.st, spools[1..]);
          LegacyKeysCons(cfg, st.out.names, r1.st.out.names, r2.st.out.names, spools);
          CoveredGrows(cfg, r1.st.out, r2.st.out, s.filament.value, None);
          Then(r1, r2)
  }

  /** The subject the script's default pass commits for `s`: its embedded filament, with no spool bound. */
  function LegacySubject(s: Spool): Option<Subject> {
    if s.filament.Some? then Some(Subject(s.filament.value, None)) else None
  }

  /** The subjects of the script's default pass, one per spool, in list order. */
  function LegacySubjects(spools: seq<Spool>): (xs: seq<Subject>)
    ensures forall i :: 0 <= i < |spools| && LegacySubject(spools[i]).Some? ==> LegacySubject(spools[i]).value in xs
    ensures forall k :: 0 <= k < |xs| ==> exists i :: 0 <= i < |spools| && LegacySubject(spools[i]) == Some(xs[k])
    decreases |spools|
  {
    if |spools| == 0 then []
    else
      var tail := spools[1..];
      var rest := LegacySubjects(tail);
      assert forall i :: 1 <= i < |spools| ==> spools[i] == tail[i - 1];
      assert forall k :: 0 <= k < |rest| ==> exists i :: 0 <= i < |spools| && LegacySubject(spools[i]) == Some(rest[k]) by {
        forall k | 0 <= k < |rest|
          ensures exists i :: 0 <= i < |spools| && LegacySubject(spools[i]) == Some(rest[k])
        {
          var i :| 0 <= i < |tail| && LegacySubject(tail[i]) == Some(rest[k]);
          assert spools[i + 1] == tail[i];
        }
      }
      match LegacySubject(spools[0])
      case None => rest
      case Some(x) =>
        ConsAt(x, rest);
        [x] + rest
  }

  /** The script's default pass keeps a record current unless one of its subjects shares the record's content key. */
  lemma {:induction false} LegacyDefaultKeeps(cfg: Config, t: Templates, st: State, spools: seq<Spool>, rec: Record)
    requires '-' !in rec.suffix
    requires Spares(cfg.mode, LegacySubjects(spools), ContentKey(cfg.mode, rec))
    ensures Current(cfg, t, st.out, rec) ==> Current(cfg, t, LegacyDefault(cfg, t, st, spools).st.out, rec)
    decreases |spools|
  {
    if |spools| > 0 && spools[0].filament.Some? && cfg.slicer != Slic3r {
      var x := Subject(spools[0].filament.value, None);
      SparesCons(cfg.mode, x, LegacySubjects(spools[1..]), ContentKey(cfg.mode, rec));
      CommitSubjectKeeps(cfg, t, Printed, st, x.filament, x.spool, rec);
      var r1 := CommitSubject(cfg, t, Printed, st, x.filament, x.spool);
      LegacyDefaultKeeps(cfg, t, r1.st, spools[1..], rec);
    }
  }

  /**
   The script's default pass, when it goes through, leaves the filament of the
   last spool of every filament id rendered.
   */
  lemma {:induction false} LegacyDefaultRenders(cfg: Config, t: Templates, st: State, spools: seq<Spool>)
    ensures var r := LegacyDefault(cfg, t, st, spools);
            r.err.None? ==> LastRendered(cfg, t, r.st.out, LegacySubjects(spools))
    decreases |spools|
  {
    if |spools| > 0 && spools[0].filament.Some? && cfg.slicer != Slic3r {
      var x := Subject(spools[0].filament.value, None);
      var rest := LegacySubjects(spools[1..]);
      var r1 := CommitSubject(cfg, t, Printed, st, x.filament, x.spool);
      if r1.err.None? {
        var r2 := LegacyDefault(cfg, t, r1.st, spools[1..]);
        assert LegacyDefault(cfg, t, st, spools) == Then(r1, r2);
        assert LegacySubjects(spools) == [x] + rest;
        LegacyDefaultRenders(cfg, t, r1.st, spools[1..]);
        if Spares(cfg.mode, rest, KeyOf(cfg.mode, x)) {
          LegacyDefaultKeeps(cfg, t, r1.st, spools[1..], LastRecord(cfg, x));
        }
        LastRenderedStep(cfg, t, r1.st.out, r2, x, rest);
      }
    }
  }

  /** A round of `h` uses for one spool, then `h` for each of `m` others, is `m + 1` rounds. */
  lemma MoreSpoolsMoreUses(u0: int, u1: int, u2: int, m: nat, n: nat, h: nat)
    requires n == m + 1
    requires u1 == u0 + h
    requires u2 == u1 + m * h
    ensures u2 == u0 + n * h
  {
  }

  /**
   The default pass does not merge spools of one filament: each spool commits
   its filament again, so after a pass over `n` spools of one filament every
   file of the filament counts `n` uses per record rendering to it. Two spools
   of a filament with one (suffix, variant) record leave its file at 2.
   */
  lemma {:induction false} LegacyDefaultCountsEverySpool(cfg: Config, t: Templates, st: State, spools: seq<Spool>,
                                                         f: Filament, path: string)
    requires forall s :: s in spools ==> s.filament == Some(f)
    ensures var r := LegacyDefault(cfg, t, st, spools);
            r.err == None ==>
              Uses(r.st.out.usage, path) == Uses(st.out.usage, path) + |spools| * Hits(cfg, t, f, None, Expansion(cfg), path)
    decreases |spools|
  {
    var r := LegacyDefault(cfg, t, st, spools);
    if |spools| > 0 && r.err == None {
      assert spools[0] in spools;
      var rest := spools[1..];
      var r1 := CommitSubject(cfg, t, Printed, st, f, None);
      CommitSubjectCounts(cfg, t, st, f, path);
      var r2 := LegacyDefault(cfg, t, r1.st, rest);
      LegacyDefaultCountsEverySpool(cfg, t, r1.st, rest, f, path);
      MoreSpoolsMoreUses(Uses(st.out.usage, path), Uses(r1.st.out.usage, path), Uses(r2.st.out.usage, path),
                         |rest|, |spools|, Hits(cfg, t, f, None, Expansion(cfg), path));
    }
  }

  /** A filament commit that goes through adds one round of uses of each of its files. */
  lemma CommitSubjectCounts(cfg: Config, t: Templates, st: State, f: Filament, path: string)
    ensures var r := CommitSubject(cfg, t, Printed, st, f, None);
            r.err == None ==> Uses(r.st.out.usage, path) == Uses(st.out.usage, path) + Hits(cfg, t, f, None, Expansion(cfg), path)
  {
    CommitPassCounts(cfg, t, Printed, st.out, f, None, Expansion(cfg), path);
  }

  /** What the first non-archived spool of an all-spools pass raises when the slicer is slic3r. */
  function FirstActiveFailure(spools: seq<Spool>): (r: Option<Failure>)
    ensures r.None? <==> forall s :: s in spools ==> s.archived
    ensures r.Some? ==> r.value == MissingField("filament") || r.value == SlicerRefused
    decreases |spools|
  {
    if |spools| == 0 then None
    else
      assert forall s' :: s' in spools ==> s' == spools[0] || s' in spools[1..];
      if spools[0].archived then FirstActiveFailure(spools[1..])
      else if spools[0].filament.None? then Some(MissingField("filament"))
      else Some(SlicerRefused)
  }

  /**
   The script's `load_and_update_all_filaments` after the download: the mode's
   pass over the spools, writing with `print`. With slic3r nothing is written,
   and the pass fails as soon as it reaches a spool it would render.
   */
  function LegacySnapshot(cfg: Config, t: Templates, st: State, spools: seq<Spool>): (r: Step)
    ensures r.st.g == st.g
    ensures Good(st) ==> Good(r.st)
    ensures OnlyWrites(r.effects)
    ensures cfg.slicer == Slic3r ==> r.effects == [] && r.st == st
    ensures cfg.slicer == Slic3r && (exists s :: s in spools && !s.archived) ==> r.err.Some?
    ensures cfg.mode == Default && r.err.None? ==> EveryFilamentCovered(cfg, r.st.out, spools)
    ensures cfg.mode == All && cfg.slicer != Slic3r && r.err.None? ==> SpoolsCovered(cfg, r.st.out, spools)
    ensures cfg.mode == Default ==> LegacyKeysOnly(cfg, st.out.names, r.st.out.names, spools)
    ensures cfg.mode == All ==> AllDone(cfg, st.out.names, r, spools)
    ensures PerFilament(cfg.mode) ==> SelectedDone(cfg, st.out.names, r, spools)
    ensures cfg.mode != Default && (exists s :: s in spools && !s.archived && s.filament.None?) ==> r.err.Some?
    ensures (cfg.mode == LeastLeft || cfg.mode == MostRecent) && (exists s :: s in spools && !s.archived && s.filament.None?) ==>
              r == Step(st, [], Some(MissingField("filament")))
    ensures cfg.mode == Default && r.err.None? ==> LastRendered(cfg, t, r.st.out, LegacySubjects(spools))
    ensures cfg.mode == All && r.err.None? ==> LastRendered(cfg, t, r.st.out, SpoolSubjects(spools))
    ensures cfg.mode == All && DistinctIds(spools) && r.err.None? ==> SpoolsUpToDate(cfg, t, r.st.out, spools)
    ensures PerFilament(cfg.mode) && Gather([], spools).Ok? && r.err.None? ==>
              ChosenUpToDate(cfg, t, r.st.out, Gather([], spools).value)
  {
    match cfg.mode
    case Default =>
      LegacyDefaultRenders(cfg, t, st, spools);
      LegacyDefault(cfg, t, st, spools)
    case All =>
      CommitSpoolsRenders(cfg, t, Printed, st, spools);
      CommitSpoolsCurrent(cfg, t, Printed, st, spools);
      if cfg.slicer == Slic3r then
        match FirstActiveFailure(spools)
        case None =>
          assert CommitSpools(cfg, t, Printed, st, spools) == Stay(st) by {
            assert forall i :: 0 <= i < |spools| ==> spools[i] in spools;
          }
          Stay(st)
        case Some(e) => Step(st, [], Some(e))
      else CommitSpools(cfg, t, Printed, st, spools)
    case _ =>
      if cfg.slicer == Slic3r then
        match Gather([], spools)
        case Err(e) => Step(st, [], Some(e))
        case Ok(gs) =>
          if |gs| == 0 then
            assert forall s :: s in spools ==> s.archived;
            Stay(st)
          else Step(st, [], Some(SlicerRefused))
      else SnapshotSelected(cfg, t, Printed, st, spools)
  }

  /**
   The script's `handle_filament_update`: release (as an update) and commit
   every record of the filament, variants outside and suffixes inside, with no
   spool bound to the records.
   */
  function HandleFilamentUpdate(cfg: Config, t: Templates, st: State, f: Filament): (r: Step)
    ensures r.st.g == st.g
    ensures Good(st) ==> Good(r.st)
    ensures st.out.names.Keys <= r.st.out.names.Keys
    ensures cfg.slicer == Slic3r ==> r == Step(st, [], Some(SlicerRefused))
    ensures cfg.slicer != Slic3r && r.err == None ==>
              Recorded(cfg, r.st.out.names, f, None, EventCombos(cfg, Suffixes(cfg.slicer)))
    ensures cfg.slicer != Slic3r && r.err == None ==>
              UpToDate(cfg, t, r.st.out, f, None, EventCombos(cfg, Suffixes(cfg.slicer)))
  {
    match LegacySuffixes(cfg.slicer)
    case Err(e) => Step(st, [], Some(e))
    case Ok(ss) =>
      assert |EventCombos(cfg, ss)| > 0 by {
        assert |ss| >= 1 && |Variants(cfg)| >= 1;
        assert |ss| * |Variants(cfg)| >= |Variants(cfg)|;
      }
      Reconcile(cfg, t, Printed, st, f, None, EventCombos(cfg, ss), Refresh)
  }

  /**
   The script's event loops list the same (suffix, variant) combinations as
   the core's suffix-major expansion, only in another order.
   */
  lemma EventCombosAreExpansion(cfg: Config)
    requires cfg.slicer != Slic3r
    ensures forall c :: c in EventCombos(cfg, Suffixes(cfg.slicer)) <==> c in Expansion(cfg)
  {
  }

  /**
   A filament update the script handles without failure leaves the filament
   covered exactly as the core's filament-keyed snapshot would: every (suffix,
   variant) record has a remembered filename.
   */
  lemma LegacyUpdateCovers(cfg: Config, t: Templates, st: State, f: Filament)
    ensures var r := HandleFilamentUpdate(cfg, t, st, f);
            r.err == None ==> cfg.slicer != Slic3r && Covered(cfg, r.st.out, f, None)
  {
    var r := HandleFilamentUpdate(cfg, t, st, f);
    if r.err == None {
      EventCombosAreExpansion(cfg);
      RecordedSubset(cfg, r.st.out.names, f, None, EventCombos(cfg, Suffixes(cfg.slicer)), Expansion(cfg));
    }
  }

  /**
   The script's `handle_spool_update_msg`. The payload's `filament` is read
   before the event type is looked at, so a spool without one fails whatever
   the type. An added spool commits its filament's records, an updated one
   refreshes them, a deleted one releases them; spools never key the records.
   */
  function OnLegacySpool(cfg: Config, t: Templates, st: State, k: Kind, s: Spool): (r: Step)
    ensures r.st.g == st.g
    ensures Good(st) ==> Good(r.st)
    ensures st.out.names.Keys <= r.st.out.names.Keys
    ensures s.filament.None? ==> r == Step(st, [], Some(MissingField("filament")))
    ensures s.filament.Some? && k.OtherKind? ==> r == Stay(st)
    ensures s.filament.Some? && !k.OtherKind? && cfg.slicer == Slic3r ==> r == Step(st, [], Some(SlicerRefused))
    ensures k == Added ==> OnlyWrites(r.effects)
    ensures k == Added && r.err == None ==>
              Recorded(cfg, r.st.out.names, s.filament.value, None, EventCombos(cfg, Suffixes(cfg.slicer)))
    ensures k == Updated && s.filament.Some? && cfg.slicer != Slic3r && r.err == None ==>
              Recorded(cfg, r.st.out.names, s.filament.value, None, EventCombos(cfg, Suffixes(cfg.slicer)))
    ensures k == Deleted && s.filament.Some? && cfg.slicer != Slic3r ==>
              OnlyRemoves(r.effects) && r.err == None && r.st.out.names == st.out.names
    ensures k == Deleted && s.filament.Some? && cfg.slicer != Slic3r ==>
              ReleasedFiles(cfg, st.out, s.filament.value, None, EventCombos(cfg, Suffixes(cfg.slicer)), r.effects)
    ensures s.filament.Some? ==>
              OnlyKeysOf(cfg, st.out.names, r.st.out.names, s.filament.value, None, EventCombos(cfg, Suffixes(cfg.slicer)))
  {
    if s.filament.None? then Step(st, [], Some(MissingField("filament")))
    else
      var f := s.filament.value;
      match k
      case Added =>
        (match LegacySuffixes(cfg.slicer)
         case Err(e) => Step(st, [], Some(e))
         case Ok(ss) => Reconcile(cfg, t, Printed, st, f, None, EventCombos(cfg, ss), CommitOnly))
      case Updated => HandleFilamentUpdate(cfg, t, st, f)
      case Deleted =>
        (match LegacySuffixes(cfg.slicer)
         case Err(e) => Step(st, [], Some(e))
         case Ok(ss) => Reconcile(cfg, t, Printed, st, f, None, EventCombos(cfg, ss), ReleaseOnly))
      case OtherKind(_) => Stay(st)
  }

  /** The script's `handle_filament_update_msg`: only an update does anything. */
  function OnLegacyFilament(cfg: Config, t: Templates, st: State, k: Kind, f: Filament): (r: Step)
    ensures r.st.g == st.g
    ensures Good(st) ==> Good(r.st)
    ensures st.out.names.Keys <= r.st.out.names.Keys
    ensures k != Updated ==> r == Stay(st)
    ensures k == Updated && cfg.slicer != Slic3r && r.err == None ==>
              Recorded(cfg, r.st.out.names, f, None, EventCombos(cfg, Suffixes(cfg.slicer)))
  {
    if k == Updated then HandleFilamentUpdate(cfg, t, st, f) else Stay(st)
  }

  /** An event of either of the script's two streams. */
  datatype LegacyEvent = SpoolChange(skind: Kind, spool: Spool) | FilamentChange(fkind: Kind, filament: Filament)

  /** The handler of the event's stream. */
  function OnLegacyEvent(cfg: Config, t: Templates, st: State, e: LegacyEvent): (r: Step)
    ensures r.st.g == st.g
    ensures Good(st) ==> Good(r.st)
    ensures st.out.names.Keys <= r.st.out.names.Keys
    ensures e.FilamentChange? && e.fkind != Updated ==> r == Stay(st)
  {
    match e
    case SpoolChange(k, s) => OnLegacySpool(cfg, t, st, k, s)
    case FilamentChange(k, f) => OnLegacyFilament(cfg, t, st, k, f)
  }

  /**
   The receive loops of the script: events are handled in order and a failure
   ends only the event that raised it.
   */
  function LegacyListen(cfg: Config, t: Templates, st: State, es: seq<LegacyEvent>): (r: Session)
    ensures r.st.g == st.g
    ensures Good(st) ==> Good(r.st)
    ensures st.out.names.Keys <= r.st.out.names.Keys
    ensures |r.failures| <= |es|
    ensures (forall i :: 0 <= i < |es| ==> es[i].FilamentChange? && es[i].fkind != Updated) ==> r == Session(st, [], [])
    decreases |es|
  {
    if |es| == 0 then Session(st, [], [])
    else
      var h := OnLegacyEvent(cfg, t, st, es[0]);
      var rest := LegacyListen(cfg, t, h.st, es[1..]);
      var failed := if h.err.Some? then [h.err.value] else [];
      Session(rest.st, h.effects + rest.effects, failed + rest.failures)
  }

  /** One event alone: its own effects, and its failure, if any, as the only one. */
  lemma LegacyListenOne(cfg: Config, t: Templates, st: State, e: LegacyEvent)
    ensures var h := OnLegacyEvent(cfg, t, st, e);
            LegacyListen(cfg, t, st, [e]) == Session(h.st, h.effects, if h.err.Some? then [h.err.value] else [])
  {
    assert [e][1..] == [];
  }

  /**
   A stream split in two: the second part starts from the state the first left
   behind, whether or not events of the first failed, and the effects and
   failures of the two parts follow each other.
   */
  lemma LegacyListenAppend(cfg: Config, t: Templates, st: State, es1: seq<LegacyEvent>, es2: seq<LegacyEvent>)
    ensures var a := LegacyListen(cfg, t, st, es1);
            var b := LegacyListen(cfg, t, a.st, es2);
            LegacyListen(cfg, t, st, es1 + es2) == Session(b.st, a.effects + b.effects, a.failures + b.failures)
  {
    var a := LegacyListen(cfg, t, st, es1);
    LegacyListenDrives(cfg, t, st, es1 + es2);
    LegacyListenDrives(cfg, t, st, es1);
    LegacyListenDrives(cfg, t, a.st, es2);
    DriveAppend(LegacyHandler(cfg, t), st, es1, es2);
  }

  /** The handler of `OnLegacyEvent` as a value. */
  function LegacyHandler(cfg: Config, t: Templates): (State, LegacyEvent) -> Step {
    (s: State, e: LegacyEvent) => OnLegacyEvent(cfg, t, s, e)
  }

  /** `LegacyListen` is the receive loop over `OnLegacyEvent`. */
  lemma {:induction false} LegacyListenDrives(cfg: Config, t: Templates, st: State, es: seq<LegacyEvent>)
    ensures LegacyListen(cfg, t, st, es) == Drive(LegacyHandler(cfg, t), st, es)
    decreases |es|
  {
    if |es| > 0 {
      var h := OnLegacyEvent(cfg, t, st, es[0]);
      assert LegacyHandler(cfg, t)(st, es[0]) == h;
      LegacyListenDrives(cfg, t, h.st, es[1..]);
    }
  }

}

=== FILE: ordered_dict.dfy ===
/**
 Python dictionaries keyed by integer id, as the engine's entity caches use them:
 lookups, `d[k] = v` and `del d[k]`, with the insertion order that iteration
 over `d.values()` follows. Overwriting a key keeps its position; a new key goes
 to the end.
 */
module OrderedDict {
  import opened Maybe

  /** One key/value pair of a dict. */
  datatype Entry<V> = Entry(key: int, value: V)

  /** The keys in iteration order. */
  function Keys<V>(d: seq<Entry<V>>): (ks: seq<int>)
    ensures |ks| == |d|
    ensures forall i :: 0 <= i < |d| ==> ks[i] == d[i].key
  {
    if |d| == 0 then [] else [d[0].key] + Keys(d[1..])
  }

  /** `k in d`. */
  predicate HasKey<V>(d: seq<Entry<V>>, k: int) {
    k in Keys(d)
  }

  /** No key occurs twice; every dict built with `Put` and `Delete` keeps this. */
  predicate UniqueKeys<V>(d: seq<Entry<V>>)
    decreases |d|
  {
    |d| == 0 || (!HasKey(d[1..], d[0].key) && UniqueKeys(d[1..]))
  }

  /** `d.get(k)`: the value stored under `k`, or `None`. */
  function Get<V>(d: seq<Entry<V>>, k: int): (r: Option<V>)
    ensures r.Some? <==> HasKey(d, k)
  {
    if |d| == 0 then None
    else
      assert Keys(d) == [d[0].key] + Keys(d[1..]);
      if d[0].key == k then Some(d[0].value) else Get(d[1..], k)
  }

  /** What `d.get(k)` finds is an entry of `d`. */
  lemma {:induction false} GetIn<V>(d: seq<Entry<V>>, k: int)
    ensures Get(d, k).Some? ==> Entry(k, Get(d, k).value) in d
  {
    if |d| > 0 && d[0].key != k {
      GetIn(d[1..], k);
      assert forall e :: e in d[1..] ==> e in d;
    }
  }

  /** With unique keys, looking up the key at position `i` finds the value at position `i`. */
  lemma {:induction false} GetAt<V>(d: seq<Entry<V>>, i: int)
    requires UniqueKeys(d)
    requires 0 <= i < |d|
    ensures Get(d, d[i].key) == Some(d[i].value)
  {
    if i > 0 {
      assert d[1..][i - 1] == d[i];
      assert Keys(d[1..])[i - 1] == d[i].key;
      GetAt(d[1..], i - 1);
    }
  }

  /** With unique keys, two positions hold two different keys. */
  lemma {:induction false} KeysDistinct<V>(d: seq<Entry<V>>, i: int, k: int)
    requires UniqueKeys(d)
    requires 0 <= i < |d| && 0 <= k < |d| && i != k
    ensures d[i].key != d[k].key
    decreases |d|
  {
    if i == 0 {
      assert Keys(d[1..])[k - 1] == d[k].key;
    } else if k == 0 {
      assert Keys(d[1..])[i - 1] == d[i].key;
    } else {
      assert d[1..][i - 1] == d[i] && d[1..][k - 1] == d[k];
      KeysDistinct(d[1..], i - 1, k - 1);
    }
  }

  /** `d[k] = v`: overwrites in place when `k` is present and appends otherwise. */
  function Put<V>(d: seq<Entry<V>>, k: int, v: V): (r: seq<Entry<V>>)
    ensures Get(r, k) == Some(v)
    ensures forall k' :: k' != k ==> Get(r, k') == Get(d, k')
  {
    if |d| == 0 then [Entry(k, v)]
    else if d[0].key == k then
      var r := [Entry(k, v)] + d[1..];
      assert r[1..] == d[1..];
      r
    else
      var rest := Put(d[1..], k, v);
      var r := [d[0]] + rest;
      assert r[0] == d[0] && r[1..] == rest;
      r
  }

  /**
   `d[k] = v` keeps the iteration order: an overwrite stays in place, a new key
   goes last, and every key stays present.
   */
  lemma {:induction false} PutKeys<V>(d: seq<Entry<V>>, k: int, v: V)
    ensures HasKey(d, k) ==> Keys(Put(d, k, v)) == Keys(d)
    ensures !HasKey(d, k) ==> Keys(Put(d, k, v)) == Keys(d) + [k]
    ensures forall k' :: HasKey(d, k') ==> HasKey(Put(d, k, v), k')
    ensures HasKey(Put(d, k, v), k)
    decreases |d|
  {
    var r := Put(d, k, v);
    if |d| == 0 {
      assert !HasKey(d, k);
    } else if d[0].key == k {
      assert HasKey(d, k);
      assert r[1..] == d[1..];
      assert Keys(r) == [k] + Keys(d[1..]);
    } else {
      var tail := d[1..];
      var rest := Put(tail, k, v);
      PutKeys(tail, k, v);
      assert r[1..] == rest;
      assert Keys(r) == [d[0].key] + Keys(rest);
      assert Keys(d) == [d[0].key] + Keys(tail);
      assert HasKey(d, k) == HasKey(tail, k);
      if !HasKey(d, k) {
        assert [d[0].key] + (Keys(tail) + [k]) == Keys(d) + [k];
      }
    }
  }

  /** `d[k] = v` keeps keys unique. */
  lemma {:induction false} PutKeepsUnique<V>(d: seq<Entry<V>>, k: int, v: V)
    requires UniqueKeys(d)
    ensures UniqueKeys(Put(d, k, v))
    decreases |d|
  {
    var r := Put(d, k, v);
    if |d| == 0 {
      assert r == [Entry(k, v)];
      assert r[1..] == [];
    } else if d[0].key == k {
      assert r[1..] == d[1..];
    } else {
      var tail := d[1..];
      PutKeepsUnique(tail, k, v);
      PutKeys(tail, k, v);
      assert r[1..] == Put(tail, k, v);
      assert !HasKey(r[1..], d[0].key);
    }
  }

  /** `r` is `d` with some entries left out and the others in their order. */
  ghost predicate Subsequence<V>(r: seq<Entry<V>>, d: seq<Entry<V>>)
    decreases |d|
  {
    if |r| == 0 then true
    else if |d| == 0 then false
    else if r[0] == d[0] then Subsequence(r[1..], d[1..])
    else Subsequence(r, d[1..])
  }

  /**
   `del d[k]`: no entry for `k` is left, every other entry is kept, and the kept
   entries stay in their order.
   */
  function Delete<V>(d: seq<Entry<V>>, k: int): (r: seq<Entry<V>>)
    ensures Get(r, k) == None
    ensures forall k' :: k' != k ==> Get(r, k') == Get(d, k')
    ensures forall e :: e in r ==> e in d
    ensures forall e :: e in d && e.key != k ==> e in r
    ensures Subsequence(r, d)
  {
    if |d| == 0 then []
    else if d[0].key == k then
      var r := Delete(d[1..], k);
      assert forall e :: e in d[1..] ==> e in d;
      assert forall e :: e in d && e.key != k ==> e in d[1..];
      assert |r| > 0 ==> r[0].key != k by {
        if |r| > 0 {
          assert Keys(r)[0] == r[0].key;
          assert r[0].key == k ==> HasKey(r, k);
        }
      }
      r
    else
      var rest := Delete(d[1..], k);
      var r := [d[0]] + rest;
      assert r[0] == d[0] && r[1..] == rest;
      assert forall e :: e in d[1..] ==> e in d;
      assert forall e :: e in d ==> e == d[0] || e in d[1..];
      r
  }

  /** `del d[k]` keeps keys unique. */
  lemma {:induction false} DeleteKeepsUnique<V>(d: seq<Entry<V>>, k: int)
    requires UniqueKeys(d)
    ensures UniqueKeys(Delete(d, k))
    decreases |d|
  {
    if |d| > 0 {
      DeleteKeepsUnique(d[1..], k);
      if d[0].key != k {
        var r := Delete(d, k);
        assert r[1..] == Delete(d[1..], k);
        assert Get(r[1..], d[0].key) == Get(d[1..], d[0].key);
      }
    }
  }

  /** Dicts with the same keys in the same order agree on key uniqueness. */
  lemma {:induction false} UniqueKeysByKeys<V>(a: seq<Entry<V>>, b: seq<Entry<V>>)
    requires Keys(a) == Keys(b)
    ensures UniqueKeys(a) == UniqueKeys(b)
    decreases |a|
  {
    if |a| > 0 {
      assert a[0].key == Keys(a)[0] == Keys(b)[0] == b[0].key;
      assert Keys(a[1..]) == Keys(a)[1..] == Keys(b)[1..] == Keys(b[1..]);
      UniqueKeysByKeys(a[1..], b[1..]);
    }
  }

  /**
   Mutating the value found at position `i` while iterating: the entry keeps its
   key and its position, and every other entry stays as it was.
   */
  function SetAt<V>(d: seq<Entry<V>>, i: int, v: V): (r: seq<Entry<V>>)
    requires 0 <= i < |d|
    ensures |r| == |d| && r[i] == Entry(d[i].key, v)
    ensures forall j :: 0 <= j < |d| && j != i ==> r[j] == d[j]
    ensures Keys(r) == Keys(d)
    ensures UniqueKeys(d) ==> UniqueKeys(r)
  {
    var r := d[i := Entry(d[i].key, v)];
    assert forall j :: 0 <= j < |d| ==> Keys(r)[j] == Keys(d)[j];
    UniqueKeysByKeys(r, d);
    r
  }

  /** The values in iteration order, `list(d.values())`. */
  function Values<V>(d: seq<Entry<V>>): (vs: seq<V>)
    ensures |vs| == |d|
    ensures forall i :: 0 <= i < |d| ==> vs[i] == d[i].value
  {
    if |d| == 0 then [] else [d[0].value] + Values(d[1..])
  }
}

=== FILE: outputs.dfy ===
/**
 The filename/content cache: where a subject's file goes, what it contains,
 when a write can be skipped, and the reference counts that decide when a file
 shared by several subjects may be removed. Template rendering and the
 filesystem stay abstract: rendering is a parameter, and file operations come
 out as a list of effects.
 */
module Outputs {
  import opened Maybe
  import opened Failures
  import opened Text
  import opened Entities
  import opened Settings

  const FilenameTemplateName := "filename.template"
  const FilenameForSpoolTemplateName := "filename_for_spool.template"
  const DefaultTemplatePrefix := "default."
  const DefaultTemplateSuffix := ".template"

  /**
   What a template sees: the filament, with the `spool` field (absent standing
   for the empty dict) and the `sm2s` block's slicer suffix, stripped variant
   and inventory URL. The clock fields of `sm2s` are left out.
   */
  datatype Record = Record(filament: Filament, spool: Option<Spool>, suffix: string, variant: string, url: string)

  /**
   The template collaborator: which template names exist and what each renders
   to. Rendering depends on the template and the record alone; the clock fields
   of the `sm2s` block are not part of the record.
   */
  datatype Templates = Templates(found: string -> bool, render: (string, Record) -> string)

  /** `add_sm2s_to_filament`: the record for one suffix and variant of a subject. */
  function MakeRecord(cfg: Config, f: Filament, spool: Option<Spool>, c: Combo): Record {
    Record(f, spool, c.suffix, Strip(c.variant), cfg.url)
  }

  /** In "all" mode a record bound to a spool with a truthy id is keyed by that spool. */
  predicate SpoolKeyed(mode: Mode, rec: Record) {
    mode == All && rec.spool.Some? && Truthy(rec.spool.value.id)
  }

  /** `get_content_cache_key`. */
  function ContentKey(mode: Mode, rec: Record): string {
    if SpoolKeyed(mode, rec) then "spool-" + IntToString(rec.spool.value.id.value)
    else IntToString(rec.filament.id)
  }

  /** `get_filename_cache_key`. */
  function FilenameKey(mode: Mode, rec: Record): string {
    if SpoolKeyed(mode, rec) then "spool-" + IntToString(rec.spool.value.id.value) + "-" + rec.suffix
    else IntToString(rec.filament.id) + "-" + rec.suffix
  }

  /**
   The key shapes: `spool-<id>` and `spool-<id>-<suffix>` for a record keyed by
   its spool, `<filament id>` and `<filament id>-<suffix>` otherwise; the
   filename key is always the content key followed by `-<suffix>`. Neither
   depends on the variant.
   */
  lemma KeyShapes(mode: Mode, rec: Record)
    ensures FilenameKey(mode, rec) == ContentKey(mode, rec) + "-" + rec.suffix
    ensures SpoolKeyed(mode, rec) ==> ContentKey(mode, rec) == "spool-" + IntToString(rec.spool.value.id.value)
    ensures !SpoolKeyed(mode, rec) ==> ContentKey(mode, rec) == IntToString(rec.filament.id)
    ensures forall v :: ContentKey(mode, rec.(variant := v)) == ContentKey(mode, rec)
    ensures forall v :: FilenameKey(mode, rec.(variant := v)) == FilenameKey(mode, rec)
  {
  }

  /** A spool key starts with a letter, a filament key with a digit or a minus sign. */
  lemma SpoolKeyNotFilamentKey(sid: int, fid: int)
    ensures "spool-" + IntToString(sid) != IntToString(fid)
  {
    assert ("spool-" + IntToString(sid))[0] == 's';
  }

  /** A spool key never looks like a filament key, and equal keys mean equal ids. */
  lemma ContentKeyInjective(mode: Mode, a: Record, b: Record)
    ensures ContentKey(mode, a) == ContentKey(mode, b) <==>
              if SpoolKeyed(mode, a) then SpoolKeyed(mode, b) && a.spool.value.id == b.spool.value.id
              else !SpoolKeyed(mode, b) && a.filament.id == b.filament.id
  {
    var ka, kb := ContentKey(mode, a), ContentKey(mode, b);
    if SpoolKeyed(mode, a) && SpoolKeyed(mode, b) {
      if ka == kb {
        assert ka[6..] == IntToString(a.spool.value.id.value);
        assert kb[6..] == IntToString(b.spool.value.id.value);
        IntToStringInjective(a.spool.value.id.value, b.spool.value.id.value);
      }
    } else if SpoolKeyed(mode, a) {
      SpoolKeyNotFilamentKey(a.spool.value.id.value, b.filament.id);
    } else if SpoolKeyed(mode, b) {
      SpoolKeyNotFilamentKey(b.spool.value.id.value, a.filament.id);
    } else if ka == kb {
      IntToStringInjective(a.filament.id, b.filament.id);
    }
  }

  /** In `k + "-" + s` with a dash-free `s`, the last dash sits right after `k`. */
  lemma LastDash(k: string, s: string)
    requires '-' !in s
    ensures (k + "-" + s)[|k|] == '-'
    ensures forall i :: |k| < i < |k + "-" + s| ==> (k + "-" + s)[i] != '-'
  {
    forall i | |k| < i < |k + "-" + s|
      ensures (k + "-" + s)[i] != '-'
    {
      assert (k + "-" + s)[i] == s[i - |k| - 1];
    }
  }

  /** `k + "-" + s` determines `k` and `s` when `s` has no dash. */
  lemma DashJoinInjective(k1: string, s1: string, k2: string, s2: string)
    requires '-' !in s1 && '-' !in s2
    requires k1 + "-" + s1 == k2 + "-" + s2
    ensures k1 == k2 && s1 == s2
  {
    var w := k1 + "-" + s1;
    LastDash(k1, s1);
    LastDash(k2, s2);
    assert w[|k1|] == '-' && w[|k2|] == '-';
    assert |k1| == |k2|;
    assert k1 == w[..|k1|] == k2;
    assert s1 == w[|k1| + 1..] == s2;
  }

  /** Filename keys collide only for the same subject and the same suffix. */
  lemma FilenameKeyInjective(mode: Mode, a: Record, b: Record)
    requires '-' !in a.suffix && '-' !in b.suffix
    ensures FilenameKey(mode, a) == FilenameKey(mode, b) <==>
              ContentKey(mode, a) == ContentKey(mode, b) && a.suffix == b.suffix
  {
    KeyShapes(mode, a);
    KeyShapes(mode, b);
    if FilenameKey(mode, a) == FilenameKey(mode, b) {
      DashJoinInjective(ContentKey(mode, a), a.suffix, ContentKey(mode, b), b.suffix);
    }
  }

  /** The last filename and text written per key, and how many subjects use each filename. */
  datatype Caches = Caches(
    names: map<string, string>,  // filament_id_to_filename: filename key -> path
    texts: map<string, string>,  // filament_id_to_content: content key -> text
    usage: map<string, int>)     // filename_usage: path -> subject count

  const Fresh := Caches(map[], map[], map[])

  /** Every filename remembered for a key has a usage entry. */
  predicate Consistent(c: Caches) {
    forall k :: k in c.names ==> c.names[k] in c.usage
  }

  /** `filename_usage[path] = filename_usage.get(path, 0) + 1`. */
  function Bump(usage: map<string, int>, path: string): map<string, int> {
    usage[path := if path in usage then usage[path] + 1 else 1]
  }

  function Lookup(m: map<string, string>, k: string): Option<string> {
    if k in m then Some(m[k]) else None
  }

  /** A file operation the engine asks for. */
  datatype Effect = Write(path: string, text: string) | Remove(path: string)

  /** How a write reaches the disk: `atomic_write(path, text)`, or `print(text, file=f)`, which adds a newline. */
  datatype Writer = Atomic | Printed

  function OnDisk(w: Writer, text: string): string {
    if w == Printed then text + "\n" else text
  }

  /** Caches and effects after a sequence of operations, and the failure that stopped it, if any. */
  datatype Run = Run(caches: Caches, effects: seq<Effect>, err: Option<Failure>)

  function FilenameTemplate(mode: Mode): string {
    if mode == All then FilenameForSpoolTemplateName else FilenameTemplateName
  }

  /**
   The output path for a rendered name: the output directory with one trailing
   slash removed, a slash, and the name with surrounding whitespace stripped.
   */
  function OutputPath(dir: string, rendered: string): (p: string)
    ensures EndsWith(dir, "/") ==> p == dir + Strip(rendered)
    ensures !EndsWith(dir, "/") ==> p == dir + "/" + Strip(rendered)
  {
    RemoveSuffix(dir, "/") + "/" + Strip(rendered)
  }

  /** `get_filament_filename`: fails when the filename template is missing. */
  function FileName(cfg: Config, t: Templates, rec: Record): (r: Result<string, Failure>)
    ensures r.Ok? <==> t.found(FilenameTemplate(cfg.mode))
    ensures r.Err? ==> r.error == TemplateNotFound(FilenameTemplate(cfg.mode))
    ensures r.Ok? ==> r.value == OutputPath(cfg.outputDir, t.render(FilenameTemplate(cfg.mode), rec))
  {
    var name := FilenameTemplate(cfg.mode);
    if t.found(name) then Ok(OutputPath(cfg.outputDir, t.render(name, rec)))
    else Err(TemplateNotFound(name))
  }

  function DefaultTemplate(suffix: string): string {
    DefaultTemplatePrefix + suffix + DefaultTemplateSuffix
  }

  function MaterialTemplate(material: string, suffix: string): string {
    material + "." + suffix + DefaultTemplateSuffix
  }

  /**
   The body template: the material's own template when the record has a
   material and that template exists, otherwise the suffix's default template,
   whose absence is an error.
   */
  function BodyTemplate(t: Templates, rec: Record): (r: Result<string, Failure>)
    ensures rec.filament.material.Some? && t.found(MaterialTemplate(rec.filament.material.value, rec.suffix))
            ==> r == Ok(MaterialTemplate(rec.filament.material.value, rec.suffix))
    ensures !(rec.filament.material.Some? && t.found(MaterialTemplate(rec.filament.material.value, rec.suffix)))
            ==> r == if t.found(DefaultTemplate(rec.suffix)) then Ok(DefaultTemplate(rec.suffix))
                     else Err(TemplateNotFound(DefaultTemplate(rec.suffix)))
    ensures r.Ok? ==> t.found(r.value)
  {
    var fallback :=
      if t.found(DefaultTemplate(rec.suffix)) then Ok(DefaultTemplate(rec.suffix))
      else Err(TemplateNotFound(DefaultTemplate(rec.suffix)));
    match rec.filament.material
    case Some(m) => if t.found(MaterialTemplate(m, rec.suffix)) then Ok(MaterialTemplate(m, rec.suffix)) else fallback
    case None => fallback
  }

  /**
   The caches hold what the record renders to now: its output path under its
   filename key and its rendered body under its content key.
   */
  predicate Current(cfg: Config, t: Templates, c: Caches, rec: Record) {
    && FileName(cfg, t, rec).Ok?
    && BodyTemplate(t, rec).Ok?
    && Lookup(c.names, FilenameKey(cfg.mode, rec)) == Some(FileName(cfg, t, rec).value)
    && Lookup(c.texts, ContentKey(cfg.mode, rec)) == Some(t.render(BodyTemplate(t, rec).value, rec))
  }

  /**
   `write_filament`, the commit of one record. With the filename template
   present it always counts one more use of the path and remembers the path
   under the filename key; then it writes, and remembers the text, unless the
   remembered text and path are exactly the new ones. A missing filename
   template fails before anything changes; a missing default body template
   fails after the count and the path are recorded, with nothing written.
   */
  function Commit(cfg: Config, t: Templates, w: Writer, c: Caches, rec: Record): (r: Run)
    ensures |r.effects| <= 1 && OnlyWrites(r.effects)
    ensures Consistent(c) ==> Consistent(r.caches)
    ensures c.names.Keys <= r.caches.names.Keys
    ensures r.err == None ==> FilenameKey(cfg.mode, rec) in r.caches.names
    ensures r.err == None ==> Current(cfg, t, r.caches, rec)
    ensures !t.found(FilenameTemplate(cfg.mode)) ==>
              r == Run(c, [], Some(TemplateNotFound(FilenameTemplate(cfg.mode))))
    ensures t.found(FilenameTemplate(cfg.mode)) ==>
              var path := FileName(cfg, t, rec).value;
              && r.caches.usage == Bump(c.usage, path)
              && r.caches.names == c.names[FilenameKey(cfg.mode, rec) := path]
    ensures t.found(FilenameTemplate(cfg.mode)) && BodyTemplate(t, rec).Err? ==>
              r.caches.texts == c.texts && r.effects == [] && r.err == Some(BodyTemplate(t, rec).error)
    ensures t.found(FilenameTemplate(cfg.mode)) && BodyTemplate(t, rec).Ok? ==>
              var path := FileName(cfg, t, rec).value;
              var text := t.render(BodyTemplate(t, rec).value, rec);
              && r.err == None
              && (Lookup(c.texts, ContentKey(cfg.mode, rec)) == Some(text)
                  && Lookup(c.names, FilenameKey(cfg.mode, rec)) == Some(path)
                  ==> r.effects == [] && r.caches.texts == c.texts)
              && (!(Lookup(c.texts, ContentKey(cfg.mode, rec)) == Some(text)
                    && Lookup(c.names, FilenameKey(cfg.mode, rec)) == Some(path))
                  ==> r.effects == [Write(path, OnDisk(w, text))]
                      && r.caches.texts == c.texts[ContentKey(cfg.mode, rec) := text])
  {
    var name := FileName(cfg, t, rec);
    if name.Err? then Run(c, [], Some(name.error))
    else
      var path := name.value;
      var fk := FilenameKey(cfg.mode, rec);
      var c1 := c.(usage := Bump(c.usage, path), names := c.names[fk := path]);
      var body := BodyTemplate(t, rec);
      if body.Err? then Run(c1, [], Some(body.error))
      else Store(w, c1, ContentKey(cfg.mode, rec), Lookup(c.names, fk), path, t.render(body.value, rec))
  }

  /**
   The tail of a commit: skip the write when both the remembered text and the
   remembered path are the new ones, otherwise write and remember the text.
   */
  function Store(w: Writer, c: Caches, ck: string, oldPath: Option<string>, path: string, text: string): (r: Run)
    ensures r.caches.usage == c.usage && r.caches.names == c.names && r.err == None
    ensures Lookup(c.texts, ck) == Some(text) && oldPath == Some(path) ==> r.effects == [] && r.caches.texts == c.texts
    ensures !(Lookup(c.texts, ck) == Some(text) && oldPath == Some(path)) ==>
              r.effects == [Write(path, OnDisk(w, text))] && r.caches.texts == c.texts[ck := text]
  {
    if Lookup(c.texts, ck) == Some(text) && oldPath == Some(path) then Run(c, [], None)
    else Run(c.(texts := c.texts[ck := text]), [Write(path, OnDisk(w, text))], None)
  }

  /** The record's filename key remembers a path that has a usage entry. */
  predicate Tracked(mode: Mode, c: Caches, rec: Record) {
    FilenameKey(mode, rec) in c.names && c.names[FilenameKey(mode, rec)] in c.usage
  }

  /**
   `delete_filament`, the release of one record. Without a remembered path that
   has a usage entry it does nothing. Otherwise it counts one use less, never
   dropping a map entry, and removes the file only when the count is now at most
   zero and the release is not an update to the very same path. The filename
   and content caches are never touched.
   */
  function Release(cfg: Config, t: Templates, c: Caches, rec: Record, isUpdate: bool): (r: Run)
    ensures |r.effects| <= 1 && OnlyRemoves(r.effects)
    ensures Consistent(c) ==> Consistent(r.caches)
    ensures !isUpdate ==> r.err == None
    ensures r.caches.names == c.names && r.caches.texts == c.texts
    ensures r.caches.usage.Keys == c.usage.Keys
    ensures !Tracked(cfg.mode, c, rec) ==> r == Run(c, [], None)
    ensures Tracked(cfg.mode, c, rec) ==>
              var path := c.names[FilenameKey(cfg.mode, rec)];
              && r.caches.usage == c.usage[path := c.usage[path] - 1]
              && (c.usage[path] > 1 ==> r.effects == [] && r.err == None)
              && (c.usage[path] <= 1 && !isUpdate ==> r.effects == [Remove(path)] && r.err == None)
              && (c.usage[path] <= 1 && isUpdate && FileName(cfg, t, rec).Err? ==>
                    r.effects == [] && r.err == Some(FileName(cfg, t, rec).error))
              && (c.usage[path] <= 1 && isUpdate && FileName(cfg, t, rec).Ok? ==>
                    r.err == None
                    && (r.effects == [] <==> FileName(cfg, t, rec).value == path)
                    && (r.effects != [] ==> r.effects == [Remove(path)]))
  {
    var fk := FilenameKey(cfg.mode, rec);
    if fk !in c.names || c.names[fk] !in c.usage then Run(c, [], None)
    else
      var path := c.names[fk];
      var c1 := c.(usage := c.usage[path := c.usage[path] - 1]);
      if c1.usage[path] > 0 then Run(c1, [], None)
      else if !isUpdate then Run(c1, [Remove(path)], None)
      else match FileName(cfg, t, rec)
        case Err(e) => Run(c1, [], Some(e))
        case Ok(newPath) => if newPath != path then Run(c1, [Remove(path)], None) else Run(c1, [], None)
  }

  /**
   What the engine does with each record of a subject: commit it, release it
   (`is_update=False`), or refresh it (release with `is_update=True`, then commit).
   */
  datatype Action = CommitOnly | ReleaseOnly | Refresh

  /** At most one removal and at most one write, a removal coming first. */
  predicate AtMostOneEach(fx: seq<Effect>) {
    && |fx| <= 2
    && (|fx| == 2 ==> fx[0].Remove? && fx[1].Write?)
  }

  /** No effect of the list is a removal. */
  predicate OnlyWrites(fx: seq<Effect>) {
    forall e :: e in fx ==> e.Write?
  }

  /** No effect of the list is a write. */
  predicate OnlyRemoves(fx: seq<Effect>) {
    forall e :: e in fx ==> e.Remove?
  }

  /** Every record of the subject, one per combination, has a remembered filename. */
  predicate Recorded(cfg: Config, names: map<string, string>, f: Filament, spool: Option<Spool>, combos: seq<Combo>)
    decreases |combos|
  {
    || |combos| == 0
    || (&& FilenameKey(cfg.mode, MakeRecord(cfg, f, spool, combos[0])) in names
        && Recorded(cfg, names, f, spool, combos[1..]))
  }

  /** `Recorded` spelled out position by position. */
  lemma {:induction false} RecordedAt(cfg: Config, names: map<string, string>, f: Filament, spool: Option<Spool>,
                                      combos: seq<Combo>)
    ensures Recorded(cfg, names, f, spool, combos) <==>
              forall i :: 0 <= i < |combos| ==> FilenameKey(cfg.mode, MakeRecord(cfg, f, spool, combos[i])) in names
    decreases |combos|
  {
    if |combos| > 0 {
      var tail := combos[1..];
      RecordedAt(cfg, names, f, spool, tail);
      if Recorded(cfg, names, f, spool, combos) {
        forall i | 0 <= i < |combos|
          ensures FilenameKey(cfg.mode, MakeRecord(cfg, f, spool, combos[i])) in names
        {
          if i > 0 {
            assert combos[i] == tail[i - 1];
          }
        }
      }
      if forall i :: 0 <= i < |combos| ==> FilenameKey(cfg.mode, MakeRecord(cfg, f, spool, combos[i])) in names {
        forall i | 0 <= i < |tail|
          ensures FilenameKey(cfg.mode, MakeRecord(cfg, f, spool, tail[i])) in names
        {
          assert tail[i] == combos[i + 1];
        }
      }
    }
  }

  /** Whether a subject is recorded depends only on which combinations are listed, not on their order. */
  lemma RecordedSubset(cfg: Config, names: map<string, string>, f: Filament, spool: Option<Spool>,
                       a: seq<Combo>, b: seq<Combo>)
    requires forall c :: c in b ==> c in a
    ensures Recorded(cfg, names, f, spool, a) ==> Recorded(cfg, names, f, spool, b)
  {
    RecordedAt(cfg, names, f, spool, a);
    RecordedAt(cfg, names, f, spool, b);
    if Recorded(cfg, names, f, spool, a) {
      forall i | 0 <= i < |b|
        ensures FilenameKey(cfg.mode, MakeRecord(cfg, f, spool, b[i])) in names
      {
        assert b[i] in a;
        var j :| 0 <= j < |a| && a[j] == b[i];
      }
    }
  }

  /** Remembering more filenames keeps every recorded subject recorded. */
  lemma {:induction false} RecordedGrows(cfg: Config, a: map<string, string>, b: map<string, string>, f: Filament,
                                         spool: Option<Spool>, combos: seq<Combo>)
    requires a.Keys <= b.Keys
    ensures Recorded(cfg, a, f, spool, combos) ==> Recorded(cfg, b, f, spool, combos)
    decreases |combos|
  {
    if |combos| > 0 {
      RecordedGrows(cfg, a, b, f, spool, combos[1..]);
    }
  }

  /** `key` is the filename key of the subject's record for one of the combinations. */
  predicate KeyOfSubject(cfg: Config, key: string, f: Filament, spool: Option<Spool>, combos: seq<Combo>) {
    exists i :: 0 <= i < |combos| && key == FilenameKey(cfg.mode, MakeRecord(cfg, f, spool, combos[i]))
  }

  /** Every filename key `after` remembers and `before` did not is a key of the subject's records. */
  predicate OnlyKeysOf(cfg: Config, before: map<string, string>, after: map<string, string>, f: Filament,
                       spool: Option<Spool>, combos: seq<Combo>) {
    forall key :: key in after && key !in before ==> KeyOfSubject(cfg, key, f, spool, combos)
  }

  /** The record's remembered path is down to its last use. */
  predicate LastUse(mode: Mode, c: Caches, rec: Record) {
    Tracked(mode, c, rec) && c.usage[c.names[FilenameKey(mode, rec)]] <= 1
  }

  /**
   What releasing every record of a subject removed: the remembered file of each
   record on its last use, and no file that is not remembered for one of them.
   */
  predicate ReleasedFiles(cfg: Config, c: Caches, f: Filament, spool: Option<Spool>, combos: seq<Combo>,
                          fx: seq<Effect>) {
    && (forall i :: 0 <= i < |combos| && LastUse(cfg.mode, c, MakeRecord(cfg, f, spool, combos[i])) ==>
          Remove(c.names[FilenameKey(cfg.mode, MakeRecord(cfg, f, spool, combos[i]))]) in fx)
    && (forall e :: e in fx ==>
          exists i :: 0 <= i < |combos| && Tracked(cfg.mode, c, MakeRecord(cfg, f, spool, combos[i]))
                      && e == Remove(c.names[FilenameKey(cfg.mode, MakeRecord(cfg, f, spool, combos[i]))]))
  }

  /** A release only lowers counts and keeps the remembered paths: another record keeps its tracking and its last use. */
  lemma ReleaseKeepsOthers(cfg: Config, t: Templates, c: Caches, rec: Record, other: Record)
    ensures var c1 := Release(cfg, t, c, rec, false).caches;
            && c1.names == c.names
            && (Tracked(cfg.mode, c1, other) <==> Tracked(cfg.mode, c, other))
            && (LastUse(cfg.mode, c, other) ==> LastUse(cfg.mode, c1, other))
  {
  }

  /** Releasing the first record and then the others. */
  lemma ReleasedFilesCons(cfg: Config, t: Templates, c: Caches, f: Filament, spool: Option<Spool>,
                          combos: seq<Combo>, fx: seq<Effect>)
    requires |combos| > 0
    requires var r1 := Release(cfg, t, c, MakeRecord(cfg, f, spool, combos[0]), false);
             ReleasedFiles(cfg, r1.caches, f, spool, combos[1..], fx)
    ensures ReleasedFiles(cfg, c, f, spool, combos,
                          Release(cfg, t, c, MakeRecord(cfg, f, spool, combos[0]), false).effects + fx)
  {
    var rec0 := MakeRecord(cfg, f, spool, combos[0]);
    var r1 := Release(cfg, t, c, rec0, false);
    var all := r1.effects + fx;
    var tail := combos[1..];
    forall i | 0 <= i < |combos| && LastUse(cfg.mode, c, MakeRecord(cfg, f, spool, combos[i]))
      ensures Remove(c.names[FilenameKey(cfg.mode, MakeRecord(cfg, f, spool, combos[i]))]) in all
    {
      var rec := MakeRecord(cfg, f, spool, combos[i]);
      ReleaseKeepsOthers(cfg, t, c, rec0, rec);
      if i > 0 {
        assert combos[i] == tail[i - 1];
      }
    }
    forall e | e in all
      ensures exists i :: 0 <= i < |combos| && Tracked(cfg.mode, c, MakeRecord(cfg, f, spool, combos[i]))
                          && e == Remove(c.names[FilenameKey(cfg.mode, MakeRecord(cfg, f, spool, combos[i]))])
    {
      if e in r1.effects {
        assert Tracked(cfg.mode, c, rec0);
      } else {
        var i :| 0 <= i < |tail| && Tracked(cfg.mode, r1.caches, MakeRecord(cfg, f, spool, tail[i]))
                 && e == Remove(r1.caches.names[FilenameKey(cfg.mode, MakeRecord(cfg, f, spool, tail[i]))]);
        ReleaseKeepsOthers(cfg, t, c, rec0, MakeRecord(cfg, f, spool, tail[i]));
        assert tail[i] == combos[i + 1];
      }
    }
  }

  function Apply(cfg: Config, t: Templates, w: Writer, c: Caches, rec: Record, a: Action): (r: Run)
    ensures AtMostOneEach(r.effects)
    ensures Consistent(c) ==> Consistent(r.caches)
    ensures c.names.Keys <= r.caches.names.Keys
    ensures a == ReleaseOnly ==> r.caches.names == c.names && r.caches.texts == c.texts && r.err == None
    ensures a == ReleaseOnly ==> OnlyRemoves(r.effects)
    ensures a == CommitOnly ==> OnlyWrites(r.effects)
    ensures a != ReleaseOnly && r.err == None ==> FilenameKey(cfg.mode, rec) in r.caches.names
    ensures a != ReleaseOnly && r.err == None ==> Current(cfg, t, r.caches, rec)
    ensures forall key :: key in r.caches.names && key !in c.names ==> key == FilenameKey(cfg.mode, rec)
  {
    match a
    case CommitOnly => Commit(cfg, t, w, c, rec)
    case ReleaseOnly => Release(cfg, t, c, rec, false)
    case Refresh =>
      var r1 := Release(cfg, t, c, rec, true);
      if r1.err.Some? then r1
      else
        var r2 := Commit(cfg, t, w, r1.caches, rec);
        Run(r2.caches, r1.effects + r2.effects, r2.err)
  }

  /**
   One action on every (suffix, variant) record of a subject, in the given
   order, stopping at the first failure.
   */
  function ApplyAll(cfg: Config, t: Templates, w: Writer, c: Caches, f: Filament, spool: Option<Spool>,
                    combos: seq<Combo>, a: Action): (r: Run)
    decreases |combos|
    ensures |r.effects| <= 2 * |combos|
    ensures Consistent(c) ==> Consistent(r.caches)
    ensures c.names.Keys <= r.caches.names.Keys
    ensures a == ReleaseOnly ==> r.caches.names == c.names && r.caches.texts == c.texts && r.err == None
    ensures a == ReleaseOnly ==> OnlyRemoves(r.effects)
    ensures a == CommitOnly ==> OnlyWrites(r.effects)
    ensures a != ReleaseOnly && r.err == None ==> Recorded(cfg, r.caches.names, f, spool, combos)
    ensures OnlyKeysOf(cfg, c.names, r.caches.names, f, spool, combos)
    ensures a == ReleaseOnly ==> ReleasedFiles(cfg, c, f, spool, combos, r.effects)
  {
    if |combos| == 0 then Run(c, [], None)
    else
      var r1 := Apply(cfg, t, w, c, MakeRecord(cfg, f, spool, combos[0]), a);
      if r1.err.Some? then
        assert OnlyKeysOf(cfg, c.names, r1.caches.names, f, spool, combos) by {
          assert forall key :: key in r1.caches.names && key !in c.names ==>
                   key == FilenameKey(cfg.mode, MakeRecord(cfg, f, spool, combos[0]));
        }
        r1
      else
        var r2 := ApplyAll(cfg, t, w, r1.caches, f, spool, combos[1..], a);
        assert OnlyKeysOf(cfg, c.names, r2.caches.names, f, spool, combos) by {
          forall key | key in r2.caches.names && key !in c.names
            ensures KeyOfSubject(cfg, key, f, spool, combos)
          {
            if key in r1.caches.names {
              assert key == FilenameKey(cfg.mode, MakeRecord(cfg, f, spool, combos[0]));
            } else {
              var i :| 0 <= i < |combos[1..]| && key == FilenameKey(cfg.mode, MakeRecord(cfg, f, spool, combos[1..][i]));
              assert combos[1..][i] == combos[i + 1];
            }
          }
        }
        if a == ReleaseOnly then
          ReleasedFilesCons(cfg, t, c, f, spool, combos, r2.effects);
          Run(r2.caches, r1.effects + r2.effects, r2.err)
        else Run(r2.caches, r1.effects + r2.effects, r2.err)
  }

  /**
   The subject's last record, which the last commit of a pass renders, is
   current: later records of the same subject share its content key, so only
   the last one's text is sure to stay.
   */
  predicate UpToDate(cfg: Config, t: Templates, c: Caches, f: Filament, spool: Option<Spool>, combos: seq<Combo>) {
    |combos| > 0 && Current(cfg, t, c, MakeRecord(cfg, f, spool, combos[|combos| - 1]))
  }

  /** A commit or refresh pass that goes through leaves the subject's last record current. */
  lemma {:induction false} ApplyAllUpToDate(cfg: Config, t: Templates, w: Writer, c: Caches, f: Filament,
                                            spool: Option<Spool>, combos: seq<Combo>, a: Action)
    ensures var r := ApplyAll(cfg, t, w, c, f, spool, combos, a);
            a != ReleaseOnly && r.err == None && |combos| > 0 ==> UpToDate(cfg, t, r.caches, f, spool, combos)
    decreases |combos|
  {
    if a != ReleaseOnly && |combos| > 0 {
      var r1 := Apply(cfg, t, w, c, MakeRecord(cfg, f, spool, combos[0]), a);
      if r1.err.None? {
        ApplyAllStep(cfg, t, w, c, f, spool, combos, a);
        if |combos| == 1 {
          UpToDateLast(cfg, t, r1.caches, f, spool, combos[0], combos);
        } else {
          ApplyAllUpToDate(cfg, t, w, r1.caches, f, spool, combos[1..], a);
          LastOfTail(combos);
          UpToDateLast(cfg, t, ApplyAll(cfg, t, w, r1.caches, f, spool, combos[1..], a).caches, f, spool,
                       combos[|combos| - 1], combos[1..]);
        }
      }
    }
  }

  /** A pass whose first commit goes through ends where the rest of the pass ends. */
  lemma ApplyAllStep(cfg: Config, t: Templates, w: Writer, c: Caches, f: Filament, spool: Option<Spool>,
                     combos: seq<Combo>, a: Action)
    requires |combos| > 0
    ensures var r1 := Apply(cfg, t, w, c, MakeRecord(cfg, f, spool, combos[0]), a);
            var r := ApplyAll(cfg, t, w, c, f, spool, combos, a);
            r1.err == None ==>
              if |combos| == 1 then r.caches == r1.caches && r.err == None
              else var rest := ApplyAll(cfg, t, w, r1.caches, f, spool, combos[1..], a);
                   r.caches == rest.caches && r.err == rest.err
  {
  }

  /** Dropping the head keeps the last element. */
  lemma LastOfTail<T>(s: seq<T>)
    requires |s| > 1
    ensures s[1..][|s| - 2] == s[|s| - 1]
  {
  }

  /** Being up to date depends on the last combination only. */
  lemma UpToDateLast(cfg: Config, t: Templates, c: Caches, f: Filament, spool: Option<Spool>, last: Combo,
                     combos: seq<Combo>)
    requires |combos| > 0 && combos[|combos| - 1] == last
    ensures UpToDate(cfg, t, c, f, spool, combos) <==> Current(cfg, t, c, MakeRecord(cfg, f, spool, last))
  {
  }

  /** The content key every record of a subject shares. */
  function SubjectKey(mode: Mode, f: Filament, spool: Option<Spool>): (k: string)
    ensures forall c: Combo, url :: ContentKey(mode, Record(f, spool, c.suffix, c.variant, url)) == k
  {
    ContentKey(mode, Record(f, spool, "", "", ""))
  }

  /**
   A commit touches only its record's two keys, so another record with another
   content key (and dash-free suffixes) stays current.
   */
  lemma CommitKeeps(cfg: Config, t: Templates, w: Writer, c: Caches, rec: Record, other: Record)
    requires '-' !in rec.suffix && '-' !in other.suffix
    requires ContentKey(cfg.mode, rec) != ContentKey(cfg.mode, other)
    ensures Current(cfg, t, c, other) ==> Current(cfg, t, Commit(cfg, t, w, c, rec).caches, other)
  {
    FilenameKeyInjective(cfg.mode, rec, other);
  }

  /** Any action on a record keeps another record with another content key current. */
  lemma ApplyKeeps(cfg: Config, t: Templates, w: Writer, c: Caches, rec: Record, a: Action, other: Record)
    requires '-' !in rec.suffix && '-' !in other.suffix
    requires ContentKey(cfg.mode, rec) != ContentKey(cfg.mode, other)
    ensures Current(cfg, t, c, other) ==> Current(cfg, t, Apply(cfg, t, w, c, rec, a).caches, other)
  {
    match a
    case CommitOnly => CommitKeeps(cfg, t, w, c, rec, other);
    case ReleaseOnly =>
    case Refresh => CommitKeeps(cfg, t, w, Release(cfg, t, c, rec, true).caches, rec, other);
  }

  /** A pass over one subject keeps every record of another subject current. */
  lemma {:induction false} ApplyAllKeeps(cfg: Config, t: Templates, w: Writer, c: Caches, f: Filament,
                                         spool: Option<Spool>, combos: seq<Combo>, a: Action, other: Record)
    requires '-' !in other.suffix
    requires forall i :: 0 <= i < |combos| ==> '-' !in combos[i].suffix
    requires ContentKey(cfg.mode, other) != SubjectKey(cfg.mode, f, spool)
    ensures Current(cfg, t, c, other) ==> Current(cfg, t, ApplyAll(cfg, t, w, c, f, spool, combos, a).caches, other)
    decreases |combos|
  {
    if |combos| > 0 {
      var rec := MakeRecord(cfg, f, spool, combos[0]);
      ApplyKeeps(cfg, t, w, c, rec, a, other);
      var r1 := Apply(cfg, t, w, c, rec, a);
      if r1.err.None? {
        ApplyAllKeeps(cfg, t, w, r1.caches, f, spool, combos[1..], a, other);
      }
    }
  }

  /**
   Committing the same record again right after a successful commit writes
   nothing and changes neither the filename nor the content cache, but it
   still counts one more use of the path.
   */
  lemma CommitAgainWritesNothing(cfg: Config, t: Templates, w: Writer, c: Caches, rec: Record)
    requires Commit(cfg, t, w, c, rec).err == None
    ensures var r1 := Commit(cfg, t, w, c, rec);
            var r2 := Commit(cfg, t, w, r1.caches, rec);
            var path := FileName(cfg, t, rec).value;
            && r2.err == None && r2.effects == []
            && r2.caches.names == r1.caches.names && r2.caches.texts == r1.caches.texts
            && path in r1.caches.usage && r2.caches.usage == r1.caches.usage[path := r1.caches.usage[path] + 1]
  {
    var r1 := Commit(cfg, t, w, c, rec);
    var ck := ContentKey(cfg.mode, rec);
    var text := t.render(BodyTemplate(t, rec).value, rec);
    assert t.found(FilenameTemplate(cfg.mode)) && BodyTemplate(t, rec).Ok?;
    assert Lookup(r1.caches.texts, ck) == Some(text);
  }

  /**
   Refreshing a record whose filename has not changed never removes its file,
   whatever the count, and leaves the count where it was.
   */
  lemma RefreshInPlaceKeepsFile(cfg: Config, t: Templates, w: Writer, c: Caches, rec: Record)
    requires Tracked(cfg.mode, c, rec)
    requires FileName(cfg, t, rec) == Ok(c.names[FilenameKey(cfg.mode, rec)])
    ensures var r := Apply(cfg, t, w, c, rec, Refresh);
            && OnlyWrites(r.effects)
            && r.caches.usage == c.usage
  {
    var path := c.names[FilenameKey(cfg.mode, rec)];
    var r1 := Release(cfg, t, c, rec, true);
    assert r1.effects == [] && r1.err == None;
    var r2 := Commit(cfg, t, w, r1.caches, rec);
    assert r2.caches.usage == Bump(r1.caches.usage, path);
    assert Bump(r1.caches.usage, path) == c.usage by {
      assert r1.caches.usage == c.usage[path := c.usage[path] - 1];
    }
    assert r2.effects == [] || r2.effects == [Write(path, r2.effects[0].text)];
  }

  /**
   Refreshing the last user of a file whose name has changed removes the old
   file before writing the new one.
   */
  lemma RefreshMovesFile(cfg: Config, t: Templates, w: Writer, c: Caches, rec: Record)
    requires Tracked(cfg.mode, c, rec)
    requires c.usage[c.names[FilenameKey(cfg.mode, rec)]] == 1
    requires FileName(cfg, t, rec).Ok? && FileName(cfg, t, rec).value != c.names[FilenameKey(cfg.mode, rec)]
    requires BodyTemplate(t, rec).Ok?
    ensures Apply(cfg, t, w, c, rec, Refresh).effects ==
              [Remove(c.names[FilenameKey(cfg.mode, rec)]),
               Write(FileName(cfg, t, rec).value, OnDisk(w, t.render(BodyTemplate(t, rec).value, rec)))]
    ensures Apply(cfg, t, w, c, rec, Refresh).err == None
  {
    var r1 := Release(cfg, t, c, rec, true);
    assert r1.caches.names == c.names;
    assert Lookup(r1.caches.names, FilenameKey(cfg.mode, rec)) != Some(FileName(cfg, t, rec).value);
  }

  /**
   Two subjects whose records render to the same path share one file: the
   first release keeps it and the second removes it.
   */
  lemma SharedFileRemovedByLastRelease(cfg: Config, t: Templates, w: Writer, c: Caches, a: Record, b: Record)
    requires t.found(FilenameTemplate(cfg.mode))
    requires FileName(cfg, t, a) == FileName(cfg, t, b)
    requires FilenameKey(cfg.mode, a) != FilenameKey(cfg.mode, b)
    requires FileName(cfg, t, a).value !in c.usage
    ensures var path := FileName(cfg, t, a).value;
            var r1 := Commit(cfg, t, w, c, a);
            var r2 := Commit(cfg, t, w, r1.caches, b);
            var r3 := Release(cfg, t, r2.caches, a, false);
            var r4 := Release(cfg, t, r3.caches, b, false);
            && r3.effects == [] && r4.effects == [Remove(path)]
            && r4.caches.usage[path] == 0
  {
    var path := FileName(cfg, t, a).value;
    var r1 := Commit(cfg, t, w, c, a);
    var r2 := Commit(cfg, t, w, r1.caches, b);
    assert r2.caches.usage[path] == 2;
    assert r2.caches.names[FilenameKey(cfg.mode, a)] == path;
    var r3 := Release(cfg, t, r2.caches, a, false);
    assert r3.caches.usage[path] == 1;
  }

  /**
   Releases are not guarded against repetition: after one commit, two plain
   releases of the same record both ask for the file's removal and drive the
   count to -1. On disk the second removal names a file that is already gone,
   which makes `os.remove` raise; the model records the effect and does not
   model that failure.
   */
  lemma DoubleReleaseRemovesTwice(cfg: Config, t: Templates, w: Writer, c: Caches, rec: Record)
    requires t.found(FilenameTemplate(cfg.mode))
    requires FileName(cfg, t, rec).value !in c.usage
    ensures var path := FileName(cfg, t, rec).value;
            var r1 := Commit(cfg, t, w, c, rec);
            var r2 := Release(cfg, t, r1.caches, rec, false);
            var r3 := Release(cfg, t, r2.caches, rec, false);
            && r2.effects == [Remove(path)] && r3.effects == [Remove(path)]
            && r3.caches.usage[path] == -1
  {
    var path := FileName(cfg, t, rec).value;
    var r1 := Commit(cfg, t, w, c, rec);
    assert r1.caches.usage[path] == 1;
  }

  /** `filename_usage.get(path, 0)`: how many tracked records share the file `path`. */
  function Uses(usage: map<string, int>, path: string): int {
    if path in usage then usage[path] else 0
  }

  /** How many of a subject's records render to the file `path`. */
  function Hits(cfg: Config, t: Templates, f: Filament, spool: Option<Spool>, combos: seq<Combo>, path: string): nat
    decreases |combos|
  {
    if |combos| == 0 then 0
    else (if FileName(cfg, t, MakeRecord(cfg, f, spool, combos[0])) == Ok(path) then 1 else 0)
         + Hits(cfg, t, f, spool, combos[1..], path)
  }

  /**
   A commit pass over a subject that goes through counts one more use of a file
   for every record that renders to it: commits are not deduplicated, so the
   count says how often the file was committed, not how many subjects use it.
   */
  lemma {:induction false} CommitPassCounts(cfg: Config, t: Templates, w: Writer, c: Caches, f: Filament,
                                            spool: Option<Spool>, combos: seq<Combo>, path: string)
    ensures var r := ApplyAll(cfg, t, w, c, f, spool, combos, CommitOnly);
            r.err == None ==> Uses(r.caches.usage, path) == Uses(c.usage, path) + Hits(cfg, t, f, spool, combos, path)
    decreases |combos|
  {
    if |combos| > 0 {
      var rec := MakeRecord(cfg, f, spool, combos[0]);
      var r1 := Commit(cfg, t, w, c, rec);
      assert r1 == Apply(cfg, t, w, c, rec, CommitOnly);
      if r1.err.None? {
        assert t.found(FilenameTemplate(cfg.mode));
        assert r1.caches.usage == Bump(c.usage, FileName(cfg, t, rec).value);
        assert Uses(r1.caches.usage, path) == Uses(c.usage, path) + (if FileName(cfg, t, rec) == Ok(path) then 1 else 0);
        CommitPassCounts(cfg, t, w, r1.caches, f, spool, combos[1..], path);
      }
    }
  }
}

=== FILE: selection.dfy ===
/**
 The two spool selectors of the per-filament modes: the spool with the least
 filament left, and the most recently used spool. Both are Python `min`/`max`
 over a key tuple, which scan left to right and keep the first extreme element.
 */
module Selection {
  import opened Maybe
  import opened Text
  import opened Entities
  import opened Settings

  /**
   `s["id"]`. Spools from the engine's spool cache always have one; a spool
   without one, which the script's selected pass can meet in a downloaded list,
   is ranked as id 0 where the script would fail on the missing key.
   */
  function IdOf(s: Spool): int {
    s.id.GetOr(0)
  }

  /** No two spools of the list share an id, as for the values of the spool cache. */
  predicate DistinctIds(spools: seq<Spool>) {
    forall i, j :: 0 <= i < j < |spools| ==> IdOf(spools[i]) != IdOf(spools[j])
  }

  /** `a < b` on spool weights, an absent weight standing for infinity. */
  predicate WeightBelow(a: Option<int>, b: Option<int>) {
    a.Some? && (b.None? || a.value < b.value)
  }

  /** The least-left key of `a` is smaller than that of `b`: (weight, id) compared in order. */
  predicate LeftBefore(a: Spool, b: Spool) {
    WeightBelow(a.spoolWeight, b.spoolWeight)
    || (a.spoolWeight == b.spoolWeight && IdOf(a) < IdOf(b))
  }

  /**
   The most-recent key of `a` is larger than that of `b`. The key is
   `("", id)` for an empty `last_used` and `(last_used, -id)` otherwise, so
   equal non-empty dates prefer the smaller id and empty ones the larger id.
   */
  predicate RecentAfter(a: Spool, b: Spool) {
    if a.lastUsed != b.lastUsed then LexLess(b.lastUsed, a.lastUsed)
    else if a.lastUsed == "" then IdOf(a) > IdOf(b)
    else IdOf(a) < IdOf(b)
  }

  lemma RecentAfterTransitive(a: Spool, b: Spool, c: Spool)
    ensures RecentAfter(a, b) && RecentAfter(b, c) ==> RecentAfter(a, c)
  {
    if RecentAfter(a, b) && RecentAfter(b, c) {
      if a.lastUsed != b.lastUsed && b.lastUsed != c.lastUsed {
        LexLessTransitive(c.lastUsed, b.lastUsed, a.lastUsed);
        if a.lastUsed == c.lastUsed {
          LexLessIrreflexive(a.lastUsed);
        }
      }
    }
  }

  /** Not being after is transitive too: a key above `c` is above `b` or `b` is above `c`. */
  lemma RecentAfterSplit(a: Spool, b: Spool, c: Spool)
    ensures RecentAfter(a, c) ==> RecentAfter(a, b) || RecentAfter(b, c)
  {
    if RecentAfter(a, c) && b.lastUsed != a.lastUsed && b.lastUsed != c.lastUsed {
      LexLessTotal(a.lastUsed, b.lastUsed);
      if a.lastUsed != c.lastUsed && LexLess(a.lastUsed, b.lastUsed) {
        LexLessTransitive(c.lastUsed, a.lastUsed, b.lastUsed);
      }
    }
  }

  /** The scan of `min(spools, key=...)`: a later spool replaces the best one only with a smaller key. */
  function MinFrom(best: Spool, rest: seq<Spool>): (r: Spool)
    ensures r == best || r in rest
    ensures !LeftBefore(best, r)
    ensures forall s :: s in rest ==> !LeftBefore(s, r)
    decreases |rest|
  {
    if |rest| == 0 then best
    else
      var next := if LeftBefore(rest[0], best) then rest[0] else best;
      assert forall s :: s in rest ==> s == rest[0] || s in rest[1..];
      MinFrom(next, rest[1..])
  }

  /** The scan of `max(spools, key=...)`: a later spool replaces the best one only with a larger key. */
  function MaxFrom(best: Spool, rest: seq<Spool>): (r: Spool)
    ensures r == best || r in rest
    ensures !RecentAfter(best, r)
    ensures forall s :: s in rest ==> !RecentAfter(s, r)
    decreases |rest|
  {
    if |rest| == 0 then best
    else
      var next := if RecentAfter(rest[0], best) then rest[0] else best;
      assert forall s :: s in rest ==> s == rest[0] || s in rest[1..];
      var r := MaxFrom(next, rest[1..]);
      RecentAfterTransitive(rest[0], best, r);
      RecentAfterSplit(rest[0], best, r);
      r
  }

  /** `select_spool_by_least_left`: no spool of the list has a smaller (weight, id) key. */
  function SelectLeastLeft(spools: seq<Spool>): (r: Spool)
    requires |spools| > 0
    ensures r in spools
    ensures forall s :: s in spools ==> !LeftBefore(s, r)
  {
    assert forall s :: s in spools ==> s == spools[0] || s in spools[1..];
    MinFrom(spools[0], spools[1..])
  }

  /** `select_spool_by_most_recent`: no spool of the list has a larger most-recent key. */
  function SelectMostRecent(spools: seq<Spool>): (r: Spool)
    requires |spools| > 0
    ensures r in spools
    ensures forall s :: s in spools ==> !RecentAfter(s, r)
  {
    assert forall s :: s in spools ==> s == spools[0] || s in spools[1..];
    MaxFrom(spools[0], spools[1..])
  }

  /**
   The least-left choice in plain terms: its weight is the lowest (absent
   counting as highest), and among spools of that weight its id is the lowest.
   */
  lemma LeastLeftWins(spools: seq<Spool>)
    requires |spools| > 0
    ensures var r := SelectLeastLeft(spools);
            forall s :: s in spools ==>
              && !WeightBelow(s.spoolWeight, r.spoolWeight)
              && (s.spoolWeight == r.spoolWeight ==> IdOf(r) <= IdOf(s))
  {
  }

  /**
   The most-recent choice in plain terms: a spool with a non-empty `last_used`
   beats every spool without one; among non-empty dates the largest wins, ties
   going to the smaller id; when no spool has a date, the largest id wins.
   */
  lemma MostRecentWins(spools: seq<Spool>)
    requires |spools| > 0
    ensures var r := SelectMostRecent(spools);
            && ((exists s :: s in spools && s.lastUsed != "") ==> r.lastUsed != "")
            && (forall s :: s in spools && s.lastUsed != r.lastUsed ==> LexLess(s.lastUsed, r.lastUsed))
            && (forall s :: s in spools && s.lastUsed == r.lastUsed && r.lastUsed != "" ==> IdOf(r) <= IdOf(s))
            && (r.lastUsed == "" ==> forall s :: s in spools ==> s.lastUsed == "" && IdOf(s) <= IdOf(r))
  {
    var r := SelectMostRecent(spools);
    forall s | s in spools && s.lastUsed != r.lastUsed
      ensures LexLess(s.lastUsed, r.lastUsed)
    {
      LexLessTotal(s.lastUsed, r.lastUsed);
    }
  }

  /**
   With distinct ids the least-left key orders the spools strictly, so the
   choice is the one spool of the list that beats every other one.
   */
  lemma LeastLeftUnique(spools: seq<Spool>, c: Spool)
    requires |spools| > 0
    requires DistinctIds(spools)
    ensures c == SelectLeastLeft(spools) <==>
              c in spools && forall s :: s in spools && s != c ==> LeftBefore(c, s)
  {
    var r := SelectLeastLeft(spools);
    forall s | s in spools && s != r
      ensures LeftBefore(r, s)
    {
      var i :| 0 <= i < |spools| && spools[i] == s;
      var j :| 0 <= j < |spools| && spools[j] == r;
      assert IdOf(s) != IdOf(r) by {
        if i < j {} else {}
      }
    }
  }

  /**
   With distinct ids the most-recent key orders the spools strictly, so the
   choice is the one spool of the list that beats every other one.
   */
  lemma MostRecentUnique(spools: seq<Spool>, c: Spool)
    requires |spools| > 0
    requires DistinctIds(spools)
    ensures c == SelectMostRecent(spools) <==>
              c in spools && forall s :: s in spools && s != c ==> RecentAfter(c, s)
  {
    var r := SelectMostRecent(spools);
    forall s | s in spools && s != r
      ensures RecentAfter(r, s)
    {
      var i :| 0 <= i < |spools| && spools[i] == s;
      var j :| 0 <= j < |spools| && spools[j] == r;
      assert IdOf(s) != IdOf(r) by {
        if i < j {} else {}
      }
      if s.lastUsed != r.lastUsed {
        LexLessTotal(s.lastUsed, r.lastUsed);
      }
    }
  }

  /** The selector of a per-filament mode; `least-left` unless the mode is `most-recent`. */
  function Choose(mode: Mode, spools: seq<Spool>): (r: Spool)
    requires |spools| > 0
    ensures r in spools
    ensures mode == MostRecent ==> forall s :: s in spools ==> !RecentAfter(s, r)
    ensures mode != MostRecent ==> forall s :: s in spools ==> !LeftBefore(s, r)
  {
    if mode == MostRecent then SelectMostRecent(spools) else SelectLeastLeft(spools)
  }
}

=== FILE: settings.dfy ===
/**
 The run configuration: target slicer, per-spool selection mode, output
 directory and variant list, with the validation done when it is built and
 the file suffixes each slicer uses.
 */
module Settings {
  import opened Maybe
  import opened Failures
  import Text

  datatype Slicer = OrcaSlicer | PrusaSlicer | Slic3r | SuperSlicer

  /** The `create_per_spool` setting; `Default` is "not set" (one file per filament). */
  datatype Mode = Default | All | LeastLeft | MostRecent

  /** The two modes that keep one file per filament, fed by a chosen spool. */
  predicate PerFilament(m: Mode) {
    m == LeastLeft || m == MostRecent
  }

  datatype Config = Config(
    outputDir: string,
    slicer: Slicer,
    url: string,       // spoolman_url, handed to the templates
    variants: string,  // comma-separated variant labels
    mode: Mode)

  function SlicerName(s: Slicer): string {
    match s
    case OrcaSlicer => "orcaslicer"
    case PrusaSlicer => "prusaslicer"
    case Slic3r => "slic3r"
    case SuperSlicer => "superslicer"
  }

  function ModeName(m: Mode): Option<string> {
    match m
    case Default => None
    case All => Some("all")
    case LeastLeft => Some("least-left")
    case MostRecent => Some("most-recent")
  }

  function SlicerNamed(name: string): Option<Slicer> {
    if name == "orcaslicer" then Some(OrcaSlicer)
    else if name == "prusaslicer" then Some(PrusaSlicer)
    else if name == "slic3r" then Some(Slic3r)
    else if name == "superslicer" then Some(SuperSlicer)
    else None
  }

  /**
   Builds a configuration the way the dataclass validates itself: an unknown
   slicer is refused first, then a truthy mode other than the three known ones.
   An empty mode string is falsy and means the default mode.
   */
  function MakeConfig(outputDir: string, slicer: string, url: string, variants: string,
                      perSpool: Option<string>): (r: Result<Config, Failure>)
    ensures r.Ok? <==>
              && (exists s :: SlicerName(s) == slicer)
              && (perSpool.None? || perSpool.value == "" || exists m :: ModeName(m) == perSpool)
    ensures r.Ok? ==> SlicerName(r.value.slicer) == slicer
    ensures r.Ok? ==> ModeName(r.value.mode) == (if perSpool == Some("") then None else perSpool)
    ensures r.Ok? ==> r.value.outputDir == outputDir && r.value.url == url && r.value.variants == variants
    ensures (forall s :: SlicerName(s) != slicer) ==> r == Err(UnsupportedSlicer(slicer))
  {
    match SlicerNamed(slicer)
    case None => Err(UnsupportedSlicer(slicer))
    case Some(s) =>
      assert SlicerName(s) == slicer;
      assert perSpool.Some? && perSpool.value !in ["", "all", "least-left", "most-recent"] ==>
               forall m :: ModeName(m) != perSpool;
      if perSpool.None? || perSpool.value == "" then Ok(Config(outputDir, s, url, variants, Default))
      else if perSpool.value == "all" then
        assert ModeName(All) == perSpool;
        Ok(Config(outputDir, s, url, variants, All))
      else if perSpool.value == "least-left" then
        assert ModeName(LeastLeft) == perSpool;
        Ok(Config(outputDir, s, url, variants, LeastLeft))
      else if perSpool.value == "most-recent" then
        assert ModeName(MostRecent) == perSpool;
        Ok(Config(outputDir, s, url, variants, MostRecent))
      else Err(InvalidMode(perSpool.value))
  }

  /** Every configuration is the validated form of its own names. */
  lemma MakeConfigOfNames(c: Config)
    ensures MakeConfig(c.outputDir, SlicerName(c.slicer), c.url, c.variants, ModeName(c.mode)) == Ok(c)
  {
  }

  /** The file suffixes written for the slicer: one `.ini`, or OrcaSlicer's `.json` plus `.info`. */
  function Suffixes(s: Slicer): (r: seq<string>)
    ensures s == OrcaSlicer ==> r == ["json", "info"]
    ensures s != OrcaSlicer ==> r == ["ini"]
  {
    match s
    case Slic3r | SuperSlicer | PrusaSlicer => ["ini"]
    case OrcaSlicer => ["json", "info"]
  }

  /** Suffixes are distinct and free of the `-` that separates them from the cache key. */
  lemma SuffixesWellFormed(s: Slicer)
    ensures |Suffixes(s)| >= 1
    ensures forall i, j :: 0 <= i < j < |Suffixes(s)| ==> Suffixes(s)[i] != Suffixes(s)[j]
    ensures forall i :: 0 <= i < |Suffixes(s)| ==> '-' !in Suffixes(s)[i]
  {
  }

  /** `variants.split(",")`: at least one label, the empty string giving the single label "". */
  function Variants(c: Config): (r: seq<string>)
    ensures |r| >= 1
    ensures Text.Join(r, ',') == c.variants
    ensures forall i :: 0 <= i < |r| ==> ',' !in r[i]
  {
    Text.Split(c.variants, ',')
  }

  /** One (suffix, variant) combination of the per-subject expansion. */
  datatype Combo = Combo(suffix: string, variant: string)

  function WithSuffix(s: string, vs: seq<string>): seq<Combo> {
    seq(|vs|, j requires 0 <= j < |vs| => Combo(s, vs[j]))
  }

  function WithVariant(v: string, ss: seq<string>): seq<Combo> {
    seq(|ss|, j requires 0 <= j < |ss| => Combo(ss[j], v))
  }

  /** Position of cell `j` of row `i` in a table laid out row by row, with rows of `n` cells. */
  function Cell(i: int, n: int, j: int): int {
    i * n + j
  }

  /** Row `i` starts one row after row `i - 1`. */
  lemma NextRow(i: int, n: int, j: int)
    ensures Cell(i, n, j) == n + Cell(i - 1, n, j)
  {
  }

  /** The pair of the `i`-th suffix and the `j`-th variant sits in cell `j` of row `i`. */
  predicate SuffixOrder(r: seq<Combo>, ss: seq<string>, vs: seq<string>) {
    forall i, j :: 0 <= i < |ss| && 0 <= j < |vs| ==> Cell(i, |vs|, j) < |r| && r[Cell(i, |vs|, j)] == Combo(ss[i], vs[j])
  }

  /** The pair of the `j`-th suffix and the `i`-th variant sits in cell `j` of row `i`. */
  predicate VariantOrder(r: seq<Combo>, vs: seq<string>, ss: seq<string>) {
    forall i, j :: 0 <= i < |vs| && 0 <= j < |ss| ==> Cell(i, |ss|, j) < |r| && r[Cell(i, |ss|, j)] == Combo(ss[j], vs[i])
  }

  /** The first suffix's row in front of the table of the other suffixes. */
  lemma SuffixOrderCons(ss: seq<string>, vs: seq<string>, rest: seq<Combo>)
    requires |ss| > 0 && SuffixOrder(rest, ss[1..], vs)
    ensures SuffixOrder(WithSuffix(ss[0], vs) + rest, ss, vs)
  {
    var r := WithSuffix(ss[0], vs) + rest;
    forall i, j | 0 <= i < |ss| && 0 <= j < |vs|
      ensures Cell(i, |vs|, j) < |r| && r[Cell(i, |vs|, j)] == Combo(ss[i], vs[j])
    {
      if i > 0 {
        assert ss[1..][i - 1] == ss[i];
        NextRow(i, |vs|, j);
        var a := Cell(i - 1, |vs|, j);
        assert a < |rest| && rest[a] == Combo(ss[1..][i - 1], vs[j]);
        assert r[|vs| + a] == rest[a];
      }
    }
  }

  /** The first variant's row in front of the table of the other variants. */
  lemma VariantOrderCons(vs: seq<string>, ss: seq<string>, rest: seq<Combo>)
    requires |vs| > 0 && VariantOrder(rest, vs[1..], ss)
    ensures VariantOrder(WithVariant(vs[0], ss) + rest, vs, ss)
  {
    var r := WithVariant(vs[0], ss) + rest;
    forall i, j | 0 <= i < |vs| && 0 <= j < |ss|
      ensures Cell(i, |ss|, j) < |r| && r[Cell(i, |ss|, j)] == Combo(ss[j], vs[i])
    {
      if i > 0 {
        assert vs[1..][i - 1] == vs[i];
        NextRow(i, |ss|, j);
        var a := Cell(i - 1, |ss|, j);
        assert a < |rest| && rest[a] == Combo(ss[j], vs[1..][i - 1]);
        assert r[|ss| + a] == rest[a];
      }
    }
  }

  /**
   `for suffix in suffixes: for variant in variants:` — every pair, in
   suffix-major order.
   */
  function SuffixMajor(ss: seq<string>, vs: seq<string>): (r: seq<Combo>)
    ensures forall c :: c in r <==> c.suffix in ss && c.variant in vs
    ensures |r| == |ss| * |vs|
    ensures SuffixOrder(r, ss, vs)
  {
    if |ss| == 0 then []
    else
      var rest := SuffixMajor(ss[1..], vs);
      assert forall c: Combo :: c.suffix in ss <==> c.suffix == ss[0] || c.suffix in ss[1..];
      assert forall c: Combo :: c in WithSuffix(ss[0], vs) <==> c.suffix == ss[0] && c.variant in vs by {
        forall c: Combo | c.suffix == ss[0] && c.variant in vs
          ensures c in WithSuffix(ss[0], vs)
        {
          var j :| 0 <= j < |vs| && vs[j] == c.variant;
          assert WithSuffix(ss[0], vs)[j] == c;
        }
      }
      assert |ss| * |vs| == |vs| + (|ss| - 1) * |vs|;
      SuffixOrderCons(ss, vs, rest);
      WithSuffix(ss[0], vs) + rest
  }

  /**
   `for variant in variants: for suffix in suffixes:` — every pair, in
   variant-major order.
   */
  function VariantMajor(vs: seq<string>, ss: seq<string>): (r: seq<Combo>)
    ensures forall c :: c in r <==> c.suffix in ss && c.variant in vs
    ensures |r| == |ss| * |vs|
    ensures VariantOrder(r, vs, ss)
  {
    if |vs| == 0 then []
    else
      var rest := VariantMajor(vs[1..], ss);
      assert forall c: Combo :: c.variant in vs <==> c.variant == vs[0] || c.variant in vs[1..];
      assert forall c: Combo :: c in WithVariant(vs[0], ss) <==> c.variant == vs[0] && c.suffix in ss by {
        forall c: Combo | c.variant == vs[0] && c.suffix in ss
          ensures c in WithVariant(vs[0], ss)
        {
          var j :| 0 <= j < |ss| && ss[j] == c.suffix;
          assert WithVariant(vs[0], ss)[j] == c;
        }
      }
      assert |ss| * |vs| == |ss| + |ss| * (|vs| - 1);
      VariantOrderCons(vs, ss, rest);
      WithVariant(vs[0], ss) + rest
  }

  /** The core's expansion of one subject: configured suffixes times configured variants. */
  function Expansion(c: Config): (r: seq<Combo>)
    ensures |r| >= 1
    ensures SuffixOrder(r, Suffixes(c.slicer), Variants(c))
  {
    SuffixMajor(Suffixes(c.slicer), Variants(c))
  }

  /** Every combination of the expansion carries a dash-free suffix. */
  lemma ExpansionDashFree(c: Config)
    ensures forall i :: 0 <= i < |Expansion(c)| ==> '-' !in Expansion(c)[i].suffix
  {
    SuffixesWellFormed(c.slicer);
    var r := Expansion(c);
    forall i | 0 <= i < |r|
      ensures '-' !in r[i].suffix
    {
      assert r[i] in r;
      var k :| 0 <= k < |Suffixes(c.slicer)| && Suffixes(c.slicer)[k] == r[i].suffix;
    }
  }
}

=== FILE: snapshot.dfy ===
/**
 The start-up snapshot: filling the entity caches from the inventory's three
 lists, then writing the files of the configured mode — one per filament with
 an active spool, one per active spool, or one per filament for the spool its
 selector picks. A snapshot only ever writes; it never removes a file.
 */
module Snapshot {
  import opened Maybe
  import opened Failures
  import opened Text
  import opened OrderedDict
  import opened Entities
  import opened Settings
  import opened Outputs
  import opened Selection
  import opened Processor

  /** `{vendor["id"]: vendor for vendor in vendors_list}`. */
  function VendorsById(vs: seq<Vendor>): (m: map<int, Vendor>)
    ensures forall k :: k in m <==> exists i :: 0 <= i < |vs| && vs[i].id == k
    ensures forall k :: k in m ==> m[k].id == k
    decreases |vs|
  {
    if |vs| == 0 then map[]
    else
      var init := vs[..|vs| - 1];
      assert forall i :: 0 <= i < |vs| - 1 ==> init[i] == vs[i];
      VendorsById(init)[vs[|vs| - 1].id := vs[|vs| - 1]]
  }

  /** No vendor after position `i` has the id of the vendor at `i`. */
  predicate LastVendor(vs: seq<Vendor>, i: int)
    requires 0 <= i < |vs|
  {
    forall j :: i < j < |vs| ==> vs[j].id != vs[i].id
  }

  /** The vendor cached under an id is the last one listed with that id. */
  lemma {:induction false} VendorsByIdLastWins(vs: seq<Vendor>, i: int)
    requires 0 <= i < |vs| && LastVendor(vs, i)
    ensures VendorsById(vs)[vs[i].id] == vs[i]
    decreases |vs|
  {
    var init := vs[..|vs| - 1];
    if i < |vs| - 1 {
      assert init[i] == vs[i];
      assert LastVendor(init, i) by {
        forall j | i < j < |init|
          ensures init[j].id != init[i].id
        {
          assert init[j] == vs[j];
        }
      }
      VendorsByIdLastWins(init, i);
    }
  }

  /** The ids of a filament list, in order. */
  function FilamentIds(fs: seq<Filament>): (ids: seq<int>)
    ensures |ids| == |fs|
    ensures forall i :: 0 <= i < |fs| ==> ids[i] == fs[i].id
  {
    if |fs| == 0 then [] else [fs[0].id] + FilamentIds(fs[1..])
  }

  /**
   The filament list of the snapshot: each filament gets its vendor resolved
   and overwrites the cache entry under its id.
   */
  function LoadFilaments(g: Graph, fs: seq<Filament>): (r: Graph)
    requires Valid(g)
    ensures Valid(r)
    ensures r.vendors == g.vendors && r.spools == g.spools
    ensures forall k :: HasKey(g.filaments, k) ==> HasKey(r.filaments, k)
    ensures forall k :: k in FilamentIds(fs) ==> HasKey(r.filaments, k)
    ensures forall k :: k !in FilamentIds(fs) ==> Get(r.filaments, k) == Get(g.filaments, k)
    decreases |fs|
  {
    if |fs| == 0 then g
    else
      var g1 := PutFilament(g, EmbedVendor(g.vendors, fs[0]));
      assert FilamentIds(fs) == [fs[0].id] + FilamentIds(fs[1..]);
      LoadFilaments(g1, fs[1..])
  }

  /** No filament after position `i` has the id of the filament at `i`. */
  predicate LastFilament(fs: seq<Filament>, i: int)
    requires 0 <= i < |fs|
  {
    fs[i].id !in FilamentIds(fs[i + 1..])
  }

  /** The filament cached under an id is the last one listed with that id, its vendor resolved. */
  lemma {:induction false} LoadFilamentsLastWins(g: Graph, fs: seq<Filament>, i: int)
    requires Valid(g)
    requires 0 <= i < |fs| && LastFilament(fs, i)
    ensures Get(LoadFilaments(g, fs).filaments, fs[i].id) == Some(EmbedVendor(g.vendors, fs[i]))
    decreases |fs|
  {
    var g1 := PutFilament(g, EmbedVendor(g.vendors, fs[0]));
    var rest := fs[1..];
    assert LoadFilaments(g, fs) == LoadFilaments(g1, rest);
    if i > 0 {
      assert rest[i - 1] == fs[i];
      assert rest[i..] == fs[i + 1..];
      LoadFilamentsLastWins(g1, rest, i - 1);
    }
  }

  /** The cache's outcome of a load, and the failure that stopped it, if any. */
  datatype Load = Load(g: Graph, err: Option<Failure>)

  /**
   The spool as cached by the snapshot: an embedded filament gets its vendor
   resolved in place; a spool without one gets the cached filament its
   `filament_id` names.
   */
  function StoredSpool(g: Graph, s: Spool): (r: Spool)
    ensures r.id == s.id && r.archived == s.archived
    ensures s.filament.Some? ==> r.filament == Some(EmbedVendor(g.vendors, s.filament.value))
    ensures s.filament.None? ==> r == EmbedFilament(g.filaments, s)
  {
    if s.filament.Some? then s.(filament := Some(EmbedVendor(g.vendors, s.filament.value)))
    else EmbedFilament(g.filaments, s)
  }

  /**
   One spool of the snapshot. Its embedded filament overwrites the filament
   cache entry before the spool itself is cached; a spool without an id fails
   at that point, leaving the filament stored.
   */
  function LoadSpool(g: Graph, s: Spool): (r: Load)
    requires Valid(g)
    ensures Valid(r.g) && r.g.vendors == g.vendors
    ensures s.filament.Some? ==> Get(r.g.filaments, s.filament.value.id) == Some(EmbedVendor(g.vendors, s.filament.value))
    ensures s.filament.None? ==> r.g.filaments == g.filaments
    ensures forall k :: HasKey(g.filaments, k) ==> HasKey(r.g.filaments, k)
    ensures r.err.Some? <==> s.id.None?
    ensures r.err.Some? ==> r.err == Some(MissingField("id")) && r.g.spools == g.spools
    ensures r.err.None? ==> Get(r.g.spools, s.id.value) == Some(StoredSpool(g, s))
    ensures forall k :: s.id != Some(k) ==> Get(r.g.spools, k) == Get(g.spools, k)
  {
    var stored := StoredSpool(g, s);
    var g1 := if s.filament.Some? then PutFilament(g, stored.filament.value) else g;
    if s.id.None? then Load(g1, Some(MissingField("id")))
    else Load(PutSpool(g1, stored), None)
  }

  /** The spool list of the snapshot, stopping at the first spool without an id. */
  function LoadSpools(g: Graph, ss: seq<Spool>): (r: Load)
    requires Valid(g)
    ensures Valid(r.g) && r.g.vendors == g.vendors
    ensures r.err.Some? <==> exists s :: s in ss && s.id.None?
    ensures r.err.Some? ==> r.err == Some(MissingField("id"))
    ensures forall k :: HasKey(g.filaments, k) ==> HasKey(r.g.filaments, k)
    ensures forall k :: HasKey(g.spools, k) ==> HasKey(r.g.spools, k)
    ensures r.err.None? ==> forall s :: s in ss ==> s.id.Some? && HasKey(r.g.spools, s.id.value)
    decreases |ss|
  {
    if |ss| == 0 then Load(g, None)
    else
      var r1 := LoadSpool(g, ss[0]);
      if r1.err.Some? then
        assert ss[0] in ss;
        r1
      else
        var r2 := LoadSpools(r1.g, ss[1..]);
        assert forall s :: s in ss <==> s == ss[0] || s in ss[1..];
        assert HasKey(r1.g.spools, ss[0].id.value);
        r2
  }

  /**
   `load_and_cache_data`: the vendor cache is replaced by the listed vendors,
   then the filaments and the spools are stored in turn.
   */
  function LoadCaches(g: Graph, vs: seq<Vendor>, fs: seq<Filament>, ss: seq<Spool>): (r: Load)
    requires Valid(g)
    ensures Valid(r.g)
    ensures r.g.vendors == VendorsById(vs)
    ensures r.err.Some? <==> exists s :: s in ss && s.id.None?
    ensures forall k :: k in FilamentIds(fs) ==> HasKey(r.g.filaments, k)
    ensures r.err.None? ==> forall s :: s in ss ==> s.id.Some? && HasKey(r.g.spools, s.id.value)
  {
    var g1 := g.(vendors := VendorsById(vs));
    var g2 := LoadFilaments(g1, fs);
    LoadSpools(g2, ss)
  }

  /** Every (suffix, variant) record of a subject has a remembered filename. */
  predicate Covered(cfg: Config, out: Caches, f: Filament, spool: Option<Spool>) {
    Recorded(cfg, out.names, f, spool, Expansion(cfg))
  }

  /** Remembering more filenames keeps a covered subject covered. */
  lemma CoveredGrows(cfg: Config, a: Caches, b: Caches, f: Filament, spool: Option<Spool>)
    requires a.names.Keys <= b.names.Keys
    ensures Covered(cfg, a, f, spool) ==> Covered(cfg, b, f, spool)
  {
    RecordedGrows(cfg, a.names, b.names, f, spool, Expansion(cfg));
  }

  /**
   A commit pass over one subject: filename keys only grow, and the keys added
   are the subject's own.
   */
  function CommitSubject(cfg: Config, t: Templates, w: Writer, st: State, f: Filament, spool: Option<Spool>): (r: Step)
    ensures r.st.g == st.g
    ensures Good(st) ==> Good(r.st)
    ensures OnlyWrites(r.effects)
    ensures st.out.names.Keys <= r.st.out.names.Keys
    ensures r.err.None? ==> Covered(cfg, r.st.out, f, spool)
    ensures OnlyKeysOf(cfg, st.out.names, r.st.out.names, f, spool, Expansion(cfg))
    ensures r.err.None? ==> UpToDate(cfg, t, r.st.out, f, spool, Expansion(cfg))
  {
    Reconcile(cfg, t, w, st, f, spool, Expansion(cfg), CommitOnly)
  }

  /** A commit of one subject keeps a dash-free record under another content key current. */
  lemma CommitSubjectKeeps(cfg: Config, t: Templates, w: Writer, st: State, f: Filament, spool: Option<Spool>,
                           other: Record)
    requires '-' !in other.suffix
    requires ContentKey(cfg.mode, other) != SubjectKey(cfg.mode, f, spool)
    ensures Current(cfg, t, st.out, other) ==> Current(cfg, t, CommitSubject(cfg, t, w, st, f, spool).st.out, other)
  {
    ExpansionDashFree(cfg);
    ReconcileKeeps(cfg, t, w, st, f, spool, Expansion(cfg), CommitOnly, other);
  }

  /** What a snapshot pass commits: a filament, and the spool bound to its records if any. */
  datatype Subject = Subject(filament: Filament, spool: Option<Spool>)

  /** The content key every record of the subject is cached under. */
  function KeyOf(mode: Mode, x: Subject): string {
    SubjectKey(mode, x.filament, x.spool)
  }

  /** The last record of the subject's expansion: the one whose text stays cached. */
  function LastRecord(cfg: Config, x: Subject): (rec: Record)
    ensures '-' !in rec.suffix
    ensures ContentKey(cfg.mode, rec) == KeyOf(cfg.mode, x)
  {
    ExpansionDashFree(cfg);
    var ex := Expansion(cfg);
    MakeRecord(cfg, x.filament, x.spool, ex[|ex| - 1])
  }

  /** No subject of `xs` is cached under `k`. */
  predicate Spares(mode: Mode, xs: seq<Subject>, k: string) {
    forall j :: 0 <= j < |xs| ==> KeyOf(mode, xs[j]) != k
  }

  lemma SparesCons(mode: Mode, x: Subject, xs: seq<Subject>, k: string)
    ensures Spares(mode, [x] + xs, k) <==> KeyOf(mode, x) != k && Spares(mode, xs, k)
  {
    var ys := [x] + xs;
    assert ys[0] == x;
    assert forall j :: 0 <= j < |xs| ==> ys[j + 1] == xs[j];
  }

  /** The subjects have pairwise different content keys. */
  predicate Distinct(mode: Mode, xs: seq<Subject>) {
    forall i, j :: 0 <= i < j < |xs| ==> KeyOf(mode, xs[i]) != KeyOf(mode, xs[j])
  }

  lemma DistinctCons(mode: Mode, x: Subject, xs: seq<Subject>)
    requires Spares(mode, xs, KeyOf(mode, x)) && Distinct(mode, xs)
    ensures Distinct(mode, [x] + xs)
  {
    var ys := [x] + xs;
    forall i, j | 0 <= i < j < |ys|
      ensures KeyOf(mode, ys[i]) != KeyOf(mode, ys[j])
    {
      assert ys[j] == xs[j - 1];
      if i > 0 {
        assert ys[i] == xs[i - 1];
      }
    }
  }

  /** No subject after position `i` is cached under the key of the one at `i`. */
  predicate LastOfKey(mode: Mode, xs: seq<Subject>, i: int)
    requires 0 <= i < |xs|
  {
    forall j :: i < j < |xs| ==> KeyOf(mode, xs[j]) != KeyOf(mode, xs[i])
  }

  /** Every subject that no later subject overwrites satisfies `ok`. */
  predicate LastHold(mode: Mode, ok: Subject -> bool, xs: seq<Subject>) {
    forall i :: 0 <= i < |xs| && LastOfKey(mode, xs, i) ==> ok(xs[i])
  }

  /** Behind a new head, a subject stays the last of its key exactly when it was; the head is the last of its key when the rest spares it. */
  lemma LastOfKeyCons(mode: Mode, x: Subject, xs: seq<Subject>)
    ensures LastOfKey(mode, [x] + xs, 0) <==> Spares(mode, xs, KeyOf(mode, x))
    ensures forall i :: 0 <= i < |xs| ==> (LastOfKey(mode, [x] + xs, i + 1) <==> LastOfKey(mode, xs, i))
  {
    var ys := [x] + xs;
    assert forall j :: 0 <= j < |xs| ==> ys[j + 1] == xs[j];
  }

  /** A subject ahead of the others keeps the property when they spare its key or it holds of it. */
  lemma LastHoldCons(mode: Mode, ok: Subject -> bool, x: Subject, xs: seq<Subject>)
    requires Spares(mode, xs, KeyOf(mode, x)) ==> ok(x)
    requires LastHold(mode, ok, xs)
    ensures LastHold(mode, ok, [x] + xs)
  {
    var ys := [x] + xs;
    LastOfKeyCons(mode, x, xs);
    forall i | 0 <= i < |ys| && LastOfKey(mode, ys, i)
      ensures ok(ys[i])
    {
      if i > 0 {
        assert ys[i] == xs[i - 1];
        assert LastOfKey(mode, xs, i - 1);
      }
    }
  }

  /** With pairwise different keys, every subject is the last of its key. */
  lemma LastHoldDistinct(mode: Mode, ok: Subject -> bool, xs: seq<Subject>)
    requires Distinct(mode, xs) && LastHold(mode, ok, xs)
    ensures forall i :: 0 <= i < |xs| ==> ok(xs[i])
  {
    assert forall i :: 0 <= i < |xs| ==> LastOfKey(mode, xs, i);
  }

  /** What holds of every element holds of each member. */
  lemma HoldsOfMember(ok: Subject -> bool, xs: seq<Subject>, x: Subject)
    requires forall i :: 0 <= i < |xs| ==> ok(xs[i])
    requires x in xs
    ensures ok(x)
  {
    var i :| 0 <= i < |xs| && xs[i] == x;
  }

  /** The subject's last record holds the text it renders to now. */
  function SubjectCurrent(cfg: Config, t: Templates, out: Caches): Subject -> bool {
    (x: Subject) => UpToDate(cfg, t, out, x.filament, x.spool, Expansion(cfg))
  }

  /**
   What a commit pass over `xs` leaves when it goes through: every subject
   that no later subject overwrites has its last record current, holding the
   text it renders to now.
   */
  predicate LastRendered(cfg: Config, t: Templates, out: Caches, xs: seq<Subject>) {
    LastHold(cfg.mode, SubjectCurrent(cfg, t, out), xs)
  }

  /** A strictly increasing list of ids. */
  predicate Increasing(xs: seq<int>) {
    forall i, j :: 0 <= i < j < |xs| ==> xs[i] < xs[j]
  }

  lemma IncreasingCons(a: int, xs: seq<int>)
    requires Increasing(xs)
    requires |xs| == 0 || a < xs[0]
    ensures Increasing([a] + xs)
  {
    var r := [a] + xs;
    forall i, j | 0 <= i < j < |r|
      ensures r[i] < r[j]
    {
      assert r[j] == xs[j - 1];
      if i > 0 {
        assert r[i] == xs[i - 1];
      } else if j > 1 {
        assert xs[0] < xs[j - 1];
      }
    }
  }

  lemma IncreasingTail(xs: seq<int>)
    requires Increasing(xs) && |xs| > 0
    ensures Increasing(xs[1..])
  {
    var t := xs[1..];
    forall i, j | 0 <= i < j < |t|
      ensures t[i] < t[j]
    {
      assert t[i] == xs[i + 1] && t[j] == xs[j + 1];
    }
  }

  /** Adds `x` to an ascending list of distinct ids, keeping it ascending and distinct. */
  function InsertSorted(xs: seq<int>, x: int): (r: seq<int>)
    requires Increasing(xs)
    ensures Increasing(r)
    ensures forall y :: y in r <==> y in xs || y == x
    ensures |r| > 0 && (r[0] == x || (|xs| > 0 && r[0] == xs[0]))
    decreases |xs|
  {
    if |xs| == 0 then [x]
    else if x < xs[0] then
      IncreasingCons(x, xs);
      [x] + xs
    else if x == xs[0] then xs
    else
      var tail := xs[1..];
      IncreasingTail(xs);
      var rest := InsertSorted(tail, x);
      assert |tail| > 0 ==> xs[0] < tail[0];
      IncreasingCons(xs[0], rest);
      assert forall y :: y in xs <==> y == xs[0] || y in tail;
      [xs[0]] + rest
  }

  /** A spool counted by the default mode: not archived and carrying a filament. */
  predicate Contributes(s: Spool) {
    !s.archived && s.filament.Some?
  }

  /**
   `filament_ids_with_spools`: the ids of the filaments of contributing spools,
   each once, in ascending order.
   */
  function FilamentIdsWithSpools(spools: seq<Spool>): (ids: seq<int>)
    ensures Increasing(ids)
    ensures forall k :: k in ids <==> exists i :: 0 <= i < |spools| && Contributes(spools[i]) && spools[i].filament.value.id == k
    decreases |spools|
  {
    if |spools| == 0 then []
    else
      var rest := FilamentIdsWithSpools(spools[1..]);
      assert forall i :: 1 <= i < |spools| ==> spools[i] == spools[1..][i - 1];
      if Contributes(spools[0]) then InsertSorted(rest, spools[0].filament.value.id) else rest
  }

  /** Every listed filament found in the cache is covered. */
  predicate FilamentsCovered(cfg: Config, out: Caches, g: Graph, ids: seq<int>)
    decreases |ids|
  {
    || |ids| == 0
    || (&& (HasKey(g.filaments, ids[0]) ==> Covered(cfg, out, Get(g.filaments, ids[0]).value, None))
        && FilamentsCovered(cfg, out, g, ids[1..]))
  }

  lemma {:induction false} FilamentsCoveredAt(cfg: Config, out: Caches, g: Graph, ids: seq<int>)
    requires FilamentsCovered(cfg, out, g, ids)
    ensures forall k :: k in ids && HasKey(g.filaments, k) ==> Covered(cfg, out, Get(g.filaments, k).value, None)
    decreases |ids|
  {
    if |ids| > 0 {
      FilamentsCoveredAt(cfg, out, g, ids[1..]);
      assert forall k :: k in ids ==> k == ids[0] || k in ids[1..];
    }
  }

  lemma {:induction false} FilamentsCoveredGrows(cfg: Config, a: Caches, b: Caches, g: Graph, ids: seq<int>)
    requires a.names.Keys <= b.names.Keys
    ensures FilamentsCovered(cfg, a, g, ids) ==> FilamentsCovered(cfg, b, g, ids)
    decreases |ids|
  {
    if |ids| > 0 {
      FilamentsCoveredGrows(cfg, a, b, g, ids[1..]);
      if HasKey(g.filaments, ids[0]) {
        CoveredGrows(cfg, a, b, Get(g.filaments, ids[0]).value, None);
      }
    }
  }

  /** `key` is a filename key of the cached filament `id`, bound to no spool. */
  predicate FilamentKey(cfg: Config, key: string, g: Graph, id: int) {
    HasKey(g.filaments, id) && KeyOfSubject(cfg, key, Get(g.filaments, id).value, None, Expansion(cfg))
  }

  /** Every filename key added is a key of one of the listed filaments found in the cache. */
  predicate FilamentKeysOnly(cfg: Config, before: map<string, string>, after: map<string, string>, g: Graph, ids: seq<int>) {
    forall key :: key in after && key !in before ==> exists i :: 0 <= i < |ids| && FilamentKey(cfg, key, g, ids[i])
  }

  /** The keys of the first listed filament, if cached, followed by the keys of the others. */
  lemma FilamentKeysCons(cfg: Config, a: map<string, string>, b: map<string, string>, c: map<string, string>,
                         g: Graph, ids: seq<int>)
    requires |ids| > 0
    requires forall key :: key in b && key !in a ==> FilamentKey(cfg, key, g, ids[0])
    requires c == b || FilamentKeysOnly(cfg, b, c, g, ids[1..])
    ensures FilamentKeysOnly(cfg, a, c, g, ids)
  {
    forall key | key in c && key !in a
      ensures exists i :: 0 <= i < |ids| && FilamentKey(cfg, key, g, ids[i])
    {
      if key !in b {
        var i :| 0 <= i < |ids[1..]| && FilamentKey(cfg, key, g, ids[1..][i]);
        assert ids[1..][i] == ids[i + 1];
      } else {
        assert FilamentKey(cfg, key, g, ids[0]);
      }
    }
  }

  /**
   The second loop of `process_filaments_default`: commit each listed filament
   found in the cache, and skip the ids the cache does not hold.
   */
  function CommitFilaments(cfg: Config, t: Templates, st: State, ids: seq<int>): (r: Step)
    ensures r.st.g == st.g
    ensures Good(st) ==> Good(r.st)
    ensures OnlyWrites(r.effects)
    ensures st.out.names.Keys <= r.st.out.names.Keys
    ensures r.err.None? ==> FilamentsCovered(cfg, r.st.out, st.g, ids)
    ensures FilamentKeysOnly(cfg, st.out.names, r.st.out.names, st.g, ids)
    ensures (forall i :: 0 <= i < |ids| ==> !HasKey(st.g.filaments, ids[i])) ==> r == Stay(st)
    decreases |ids|
  {
    if |ids| == 0 then Stay(st)
    else
      var found := HasKey(st.g.filaments, ids[0]);
      var r1 := if found
                then CommitSubject(cfg, t, Atomic, st, Get(st.g.filaments, ids[0]).value, None)
                else Stay(st);
      FilamentKeysCons(cfg, st.out.names, r1.st.out.names, r1.st.out.names, st.g, ids);
      if r1.err.Some? then r1
      else
        var r2 := CommitFilaments(cfg, t, r1.st, ids[1..]);
        FilamentKeysCons(cfg, st.out.names, r1.st.out.names, r2.st.out.names, st.g, ids);
        assert (forall i :: 0 <= i < |ids| ==> !HasKey(st.g.filaments, ids[i])) ==> r2 == Stay(st) by {
          if forall i :: 0 <= i < |ids| ==> !HasKey(st.g.filaments, ids[i]) {
            assert forall i :: 0 <= i < |ids[1..]| ==> ids[1..][i] == ids[i + 1];
          }
        }
        if found then
          CoveredGrows(cfg, r1.st.out, r2.st.out, Get(st.g.filaments, ids[0]).value, None);
          Then(r1, r2)
        else Then(r1, r2)
  }

  /** The elements behind the head of `[x] + xs` are those of `xs`, one place on. */
  lemma ConsAt<T>(x: T, xs: seq<T>)
    ensures forall k :: 1 <= k < |[x] + xs| ==> ([x] + xs)[k] == xs[k - 1]
  {
  }

  /** The subject the default pass commits for id `k`: the cached filament, if any, with no spool. */
  function CachedSubject(g: Graph, k: int): Option<Subject> {
    if HasKey(g.filaments, k) then Some(Subject(Get(g.filaments, k).value, None)) else None
  }

  /** The subjects of the default pass: each listed id the cache holds, as the cached filament with no spool. */
  function FilamentSubjects(g: Graph, ids: seq<int>): (xs: seq<Subject>)
    ensures forall i :: 0 <= i < |ids| && CachedSubject(g, ids[i]).Some? ==> CachedSubject(g, ids[i]).value in xs
    ensures forall k :: 0 <= k < |xs| ==> exists i :: 0 <= i < |ids| && CachedSubject(g, ids[i]) == Some(xs[k])
    decreases |ids|
  {
    if |ids| == 0 then []
    else
      var rest := FilamentSubjects(g, ids[1..]);
      assert forall i :: 1 <= i < |ids| ==> ids[i] == ids[1..][i - 1];
      match CachedSubject(g, ids[0])
      case None => rest
      case Some(x) =>
        ConsAt(x, rest);
        [x] + rest
  }

  /** The default pass keeps a record current unless one of its subjects shares the record's content key. */
  lemma {:induction false} CommitFilamentsKeeps(cfg: Config, t: Templates, st: State, ids: seq<int>, rec: Record)
    requires '-' !in rec.suffix
    requires Spares(cfg.mode, FilamentSubjects(st.g, ids), ContentKey(cfg.mode, rec))
    ensures Current(cfg, t, st.out, rec) ==> Current(cfg, t, CommitFilaments(cfg, t, st, ids).st.out, rec)
    decreases |ids|
  {
    if |ids| > 0 {
      var rest := FilamentSubjects(st.g, ids[1..]);
      if HasKey(st.g.filaments, ids[0]) {
        var x := Subject(Get(st.g.filaments, ids[0]).value, None);
        SparesCons(cfg.mode, x, rest, ContentKey(cfg.mode, rec));
        CommitSubjectKeeps(cfg, t, Atomic, st, x.filament, x.spool, rec);
        var r1 := CommitSubject(cfg, t, Atomic, st, x.filament, x.spool);
        CommitFilamentsKeeps(cfg, t, r1.st, ids[1..], rec);
      } else {
        CommitFilamentsKeeps(cfg, t, st, ids[1..], rec);
      }
    }
  }

  /** The default pass, when it goes through, leaves the last subject of every content key rendered. */
  lemma {:induction false} CommitFilamentsRenders(cfg: Config, t: Templates, st: State, ids: seq<int>)
    ensures var r := CommitFilaments(cfg, t, st, ids);
            r.err.None? ==> LastRendered(cfg, t, r.st.out, FilamentSubjects(st.g, ids))
    decreases |ids|
  {
    if |ids| > 0 {
      var rest := FilamentSubjects(st.g, ids[1..]);
      if !HasKey(st.g.filaments, ids[0]) {
        CommitFilamentsRenders(cfg, t, st, ids[1..]);
      } else {
        var x := Subject(Get(st.g.filaments, ids[0]).value, None);
        var r1 := CommitSubject(cfg, t, Atomic, st, x.filament, x.spool);
        if r1.err.None? {
          var r2 := CommitFilaments(cfg, t, r1.st, ids[1..]);
          assert CommitFilaments(cfg, t, st, ids) == Then(r1, r2);
          assert FilamentSubjects(st.g, ids) == [x] + rest;
          CommitFilamentsRenders(cfg, t, r1.st, ids[1..]);
          if Spares(cfg.mode, rest, KeyOf(cfg.mode, x)) {
            CommitFilamentsKeeps(cfg, t, r1.st, ids[1..], LastRecord(cfg, x));
          }
          LastRenderedStep(cfg, t, r1.st.out, r2, x, rest);
        }
      }
    }
  }

  /** A filament the cache holds under `k` carries id `k`. */
  lemma CachedFilamentId(g: Graph, k: int)
    requires Valid(g) && HasKey(g.filaments, k)
    ensures Get(g.filaments, k).value.id == k
  {
    GetIn(g.filaments, k);
    var i :| 0 <= i < |g.filaments| && g.filaments[i] == Entry(k, Get(g.filaments, k).value);
  }

  /** Subjects without a spool are keyed by filament id, so ascending ids give distinct keys. */
  lemma {:induction false} FilamentSubjectsDistinct(mode: Mode, g: Graph, ids: seq<int>)
    requires Valid(g) && Increasing(ids)
    ensures Distinct(mode, FilamentSubjects(g, ids))
    decreases |ids|
  {
    if |ids| > 0 {
      var rest := FilamentSubjects(g, ids[1..]);
      IncreasingTail(ids);
      FilamentSubjectsDistinct(mode, g, ids[1..]);
      if HasKey(g.filaments, ids[0]) {
        var x := Subject(Get(g.filaments, ids[0]).value, None);
        CachedFilamentId(g, ids[0]);
        forall k | 0 <= k < |rest|
          ensures KeyOf(mode, rest[k]) != KeyOf(mode, x)
        {
          var i :| 0 <= i < |ids[1..]| && CachedSubject(g, ids[1..][i]) == Some(rest[k]);
          assert ids[1..][i] == ids[i + 1];
          CachedFilamentId(g, ids[i + 1]);
          ContentKeyInjective(mode, Record(rest[k].filament, None, "", "", ""), Record(x.filament, None, "", "", ""));
        }
        DistinctCons(mode, x, rest);
      }
    }
  }

  /** The cached filament of every contributing spool has its last record holding the text it renders to now. */
  predicate FilamentsUpToDate(cfg: Config, t: Templates, out: Caches, g: Graph, spools: seq<Spool>) {
    forall i :: 0 <= i < |spools| && Contributes(spools[i]) && HasKey(g.filaments, spools[i].filament.value.id) ==>
      UpToDate(cfg, t, out, Get(g.filaments, spools[i].filament.value.id).value, None, Expansion(cfg))
  }

  /**
   Every filename key added is a key of the cached filament of a contributing
   spool, bound to no spool.
   */
  predicate DefaultKeysOnly(cfg: Config, before: map<string, string>, after: map<string, string>, g: Graph,
                            spools: seq<Spool>) {
    forall key :: key in after && key !in before ==>
      exists i :: 0 <= i < |spools| && Contributes(spools[i]) && HasKey(g.filaments, spools[i].filament.value.id)
                  && KeyOfSubject(cfg, key, Get(g.filaments, spools[i].filament.value.id).value, None, Expansion(cfg))
  }

  /**
   `process_filaments_default`: the cached filament of every contributing spool
   is covered, and no other subject gets a file.
   */
  function SnapshotDefault(cfg: Config, t: Templates, st: State, spools: seq<Spool>): (r: Step)
    ensures r.st.g == st.g
    ensures Good(st) ==> Good(r.st)
    ensures OnlyWrites(r.effects)
    ensures st.out.names.Keys <= r.st.out.names.Keys
    ensures r.err.None? ==> forall i :: 0 <= i < |spools| && Contributes(spools[i]) && HasKey(st.g.filaments, spools[i].filament.value.id) ==>
              Covered(cfg, r.st.out, Get(st.g.filaments, spools[i].filament.value.id).value, None)
    ensures DefaultKeysOnly(cfg, st.out.names, r.st.out.names, st.g, spools)
    ensures r.err.None? ==> LastRendered(cfg, t, r.st.out, FilamentSubjects(st.g, FilamentIdsWithSpools(spools)))
    ensures Valid(st.g) && r.err.None? ==> FilamentsUpToDate(cfg, t, r.st.out, st.g, spools)
  {
    var ids := FilamentIdsWithSpools(spools);
    var r := CommitFilaments(cfg, t, st, ids);
    CommitFilamentsRenders(cfg, t, st, ids);
    DefaultRendersAll(cfg, t, r, st.g, spools);
    assert DefaultKeysOnly(cfg, st.out.names, r.st.out.names, st.g, spools) by {
      forall key | key in r.st.out.names && key !in st.out.names
        ensures exists i :: 0 <= i < |spools| && Contributes(spools[i]) && HasKey(st.g.filaments, spools[i].filament.value.id)
                            && KeyOfSubject(cfg, key, Get(st.g.filaments, spools[i].filament.value.id).value, None, Expansion(cfg))
      {
        var n :| 0 <= n < |ids| && FilamentKey(cfg, key, st.g, ids[n]);
        assert ids[n] in ids;
      }
    }
    if r.err.None? then
      FilamentsCoveredAt(cfg, r.st.out, st.g, ids);
      assert forall i :: 0 <= i < |spools| && Contributes(spools[i]) ==> spools[i].filament.value.id in ids;
      r
    else r
  }

  /** The cached filament of a contributing spool is a subject of the default pass. */
  lemma DefaultSubjectAt(g: Graph, spools: seq<Spool>, i: int)
    requires 0 <= i < |spools| && Contributes(spools[i])
    ensures CachedSubject(g, spools[i].filament.value.id).Some? ==>
              CachedSubject(g, spools[i].filament.value.id).value in FilamentSubjects(g, FilamentIdsWithSpools(spools))
  {
    var ids := FilamentIdsWithSpools(spools);
    var id := spools[i].filament.value.id;
    assert id in ids;
    var n :| 0 <= n < |ids| && ids[n] == id;
  }

  /** With a valid cache, every subject of the default pass is up to date, whichever spool brought its id. */
  lemma DefaultRendersAll(cfg: Config, t: Templates, r: Step, g: Graph, spools: seq<Spool>)
    requires r.err.None? ==> LastRendered(cfg, t, r.st.out, FilamentSubjects(g, FilamentIdsWithSpools(spools)))
    ensures Valid(g) && r.err.None? ==> FilamentsUpToDate(cfg, t, r.st.out, g, spools)
  {
    if Valid(g) && r.err.None? {
      var ids := FilamentIdsWithSpools(spools);
      var xs := FilamentSubjects(g, ids);
      FilamentSubjectsDistinct(cfg.mode, g, ids);
      LastHoldDistinct(cfg.mode, SubjectCurrent(cfg, t, r.st.out), xs);
      forall i | 0 <= i < |spools| && Contributes(spools[i]) && HasKey(g.filaments, spools[i].filament.value.id)
        ensures UpToDate(cfg, t, r.st.out, Get(g.filaments, spools[i].filament.value.id).value, None, Expansion(cfg))
      {
        DefaultSubjectAt(g, spools, i);
        var k :| 0 <= k < |xs| && Some(xs[k]) == CachedSubject(g, spools[i].filament.value.id);
        assert SubjectCurrent(cfg, t, r.st.out)(xs[k]);
      }
    }
  }

  /** A spool the all-spools mode covers: not archived, so committed with its own filament. */
  predicate SpoolCovered(cfg: Config, out: Caches, s: Spool) {
    !s.archived ==> s.filament.Some? && Covered(cfg, out, s.filament.value, Some(s))
  }

  predicate SpoolsCovered(cfg: Config, out: Caches, spools: seq<Spool>)
    decreases |spools|
  {
    |spools| == 0 || (SpoolCovered(cfg, out, spools[0]) && SpoolsCovered(cfg, out, spools[1..]))
  }

  lemma {:induction false} SpoolsCoveredAt(cfg: Config, out: Caches, spools: seq<Spool>)
    requires SpoolsCovered(cfg, out, spools)
    ensures forall s :: s in spools ==> SpoolCovered(cfg, out, s)
    decreases |spools|
  {
    if |spools| > 0 {
      SpoolsCoveredAt(cfg, out, spools[1..]);
      assert forall s :: s in spools ==> s == spools[0] || s in spools[1..];
    }
  }

  lemma SpoolCoveredGrows(cfg: Config, a: Caches, b: Caches, s: Spool)
    requires a.names.Keys <= b.names.Keys
    ensures SpoolCovered(cfg, a, s) ==> SpoolCovered(cfg, b, s)
  {
    if !s.archived && s.filament.Some? {
      CoveredGrows(cfg, a, b, s.filament.value, Some(s));
    }
  }

  /** `key` is a filename key of the non-archived spool `s`, bound to it and its own filament. */
  predicate SpoolKey(cfg: Config, key: string, s: Spool) {
    !s.archived && s.filament.Some? && KeyOfSubject(cfg, key, s.filament.value, Some(s), Expansion(cfg))
  }

  /** Every filename key added is a key of one of the spools. */
  predicate SpoolKeysOnly(cfg: Config, before: map<string, string>, after: map<string, string>, spools: seq<Spool>) {
    forall key :: key in after && key !in before ==> exists i :: 0 <= i < |spools| && SpoolKey(cfg, key, spools[i])
  }

  /** The keys of the first spool, if committed, followed by the keys of the others. */
  lemma SpoolKeysCons(cfg: Config, a: map<string, string>, b: map<string, string>, c: map<string, string>,
                      spools: seq<Spool>)
    requires |spools| > 0
    requires forall key :: key in b && key !in a ==> SpoolKey(cfg, key, spools[0])
    requires c == b || SpoolKeysOnly(cfg, b, c, spools[1..])
    ensures SpoolKeysOnly(cfg, a, c, spools)
  {
    forall key | key in c && key !in a
      ensures exists i :: 0 <= i < |spools| && SpoolKey(cfg, key, spools[i])
    {
      if key !in b {
        var i :| 0 <= i < |spools[1..]| && SpoolKey(cfg, key, spools[1..][i]);
        assert spools[1..][i] == spools[i + 1];
      } else {
        assert SpoolKey(cfg, key, spools[0]);
      }
    }
  }

  /**
   `process_filaments_per_spool_all`: every non-archived spool is committed
   with its own filament and archived ones are skipped; one without a filament
   fails with a missing field.
   */
  function CommitSpools(cfg: Config, t: Templates, w: Writer, st: State, spools: seq<Spool>): (r: Step)
    ensures r.st.g == st.g
    ensures Good(st) ==> Good(r.st)
    ensures OnlyWrites(r.effects)
    ensures st.out.names.Keys <= r.st.out.names.Keys
    ensures (exists s :: s in spools && !s.archived && s.filament.None?) ==> r.err.Some?
    ensures r.err.None? ==> SpoolsCovered(cfg, r.st.out, spools)
    ensures SpoolKeysOnly(cfg, st.out.names, r.st.out.names, spools)
    ensures (forall i :: 0 <= i < |spools| ==> spools[i].archived) ==> r == Stay(st)
    decreases |spools|
  {
    if |spools| == 0 then Stay(st)
    else
      var s := spools[0];
      var r1 := if s.archived then Stay(st)
                else if s.filament.None? then Step(st, [], Some(MissingField("filament")))
                else CommitSubject(cfg, t, w, st, s.filament.value, Some(s));
      SpoolKeysCons(cfg, st.out.names, r1.st.out.names, r1.st.out.names, spools);
      if r1.err.Some? then r1
      else
        var r2 := CommitSpools(cfg, t, w, r1.st, spools[1..]);
        assert forall s' :: s' in spools ==> s' == s || s' in spools[1..];
        SpoolKeysCons(cfg, st.out.names, r1.st.out.names, r2.st.out.names, spools);
        assert (forall i :: 0 <= i < |spools| ==> spools[i].archived) ==> r2 == Stay(st) by {
          if forall i :: 0 <= i < |spools| ==> spools[i].archived {
            assert forall i :: 0 <= i < |spools[1..]| ==> spools[1..][i] == spools[i + 1];
          }
        }
        SpoolCoveredGrows(cfg, r1.st.out, r2.st.out, s);
        Then(r1, r2)
  }

  /**
   One subject committed ahead of a pass over the others: with it in front the
   last subjects of every key are still rendered when the pass keeps the
   subject's last record current.
   */
  lemma LastRenderedStep(cfg: Config, t: Templates, out: Caches, r: Step, x: Subject, rest: seq<Subject>)
    requires UpToDate(cfg, t, out, x.filament, x.spool, Expansion(cfg))
    requires r.err.None? ==> LastRendered(cfg, t, r.st.out, rest)
    requires Spares(cfg.mode, rest, KeyOf(cfg.mode, x)) ==>
               Current(cfg, t, out, LastRecord(cfg, x)) ==> Current(cfg, t, r.st.out, LastRecord(cfg, x))
    ensures r.err.None? ==> LastRendered(cfg, t, r.st.out, [x] + rest)
  {
    if r.err.None? {
      if Spares(cfg.mode, rest, KeyOf(cfg.mode, x)) {
        SubjectCurrentIsLast(cfg, t, out, x);
        SubjectCurrentIsLast(cfg, t, r.st.out, x);
      }
      LastHoldCons(cfg.mode, SubjectCurrent(cfg, t, r.st.out), x, rest);
    }
  }

  /** A subject is up to date exactly when its last record is current. */
  lemma SubjectCurrentIsLast(cfg: Config, t: Templates, out: Caches, x: Subject)
    ensures SubjectCurrent(cfg, t, out)(x) ==> Current(cfg, t, out, LastRecord(cfg, x))
    ensures Current(cfg, t, out, LastRecord(cfg, x)) ==> SubjectCurrent(cfg, t, out)(x)
  {
    LastRecordOfExpansion(cfg, x);
  }

  lemma LastRecordOfExpansion(cfg: Config, x: Subject)
    ensures |Expansion(cfg)| > 0
    ensures LastRecord(cfg, x) == MakeRecord(cfg, x.filament, x.spool, Expansion(cfg)[|Expansion(cfg)| - 1])
  {
  }

  /** The subject the all-spools pass commits for `s`: a contributing spool, bound to its own filament. */
  function SpoolSubject(s: Spool): Option<Subject> {
    if Contributes(s) then Some(Subject(s.filament.value, Some(s))) else None
  }

  /** The subjects of the all-spools pass, in list order. */
  function SpoolSubjects(spools: seq<Spool>): (xs: seq<Subject>)
    ensures forall i :: 0 <= i < |spools| && SpoolSubject(spools[i]).Some? ==> SpoolSubject(spools[i]).value in xs
    ensures forall k :: 0 <= k < |xs| ==> exists i :: 0 <= i < |spools| && SpoolSubject(spools[i]) == Some(xs[k])
    decreases |spools|
  {
    if |spools| == 0 then []
    else
      var tail := spools[1..];
      var rest := SpoolSubjects(tail);
      assert forall i :: 1 <= i < |spools| ==> spools[i] == tail[i - 1];
      assert forall k :: 0 <= k < |rest| ==> exists i :: 0 <= i < |spools| && SpoolSubject(spools[i]) == Some(rest[k]) by {
        forall k | 0 <= k < |rest|
          ensures exists i :: 0 <= i < |spools| && SpoolSubject(spools[i]) == Some(rest[k])
        {
          var i :| 0 <= i < |tail| && SpoolSubject(tail[i]) == Some(rest[k]);
          assert spools[i + 1] == tail[i];
        }
      }
      match SpoolSubject(spools[0])
      case None => rest
      case Some(x) =>
        ConsAt(x, rest);
        [x] + rest
  }

  /** The all-spools pass keeps a record current unless one of its subjects shares the record's content key. */
  lemma {:induction false} CommitSpoolsKeeps(cfg: Config, t: Templates, w: Writer, st: State, spools: seq<Spool>,
                                             rec: Record)
    requires '-' !in rec.suffix
    requires Spares(cfg.mode, SpoolSubjects(spools), ContentKey(cfg.mode, rec))
    ensures Current(cfg, t, st.out, rec) ==> Current(cfg, t, CommitSpools(cfg, t, w, st, spools).st.out, rec)
    decreases |spools|
  {
    if |spools| > 0 {
      var s := spools[0];
      var rest := SpoolSubjects(spools[1..]);
      if Contributes(s) {
        var x := Subject(s.filament.value, Some(s));
        SparesCons(cfg.mode, x, rest, ContentKey(cfg.mode, rec));
        CommitSubjectKeeps(cfg, t, w, st, x.filament, x.spool, rec);
        var r1 := CommitSubject(cfg, t, w, st, x.filament, x.spool);
        CommitSpoolsKeeps(cfg, t, w, r1.st, spools[1..], rec);
      } else if s.archived {
        CommitSpoolsKeeps(cfg, t, w, st, spools[1..], rec);
      }
    }
  }

  /** The all-spools pass, when it goes through, leaves the last spool of every content key rendered. */
  lemma {:induction false} CommitSpoolsRenders(cfg: Config, t: Templates, w: Writer, st: State, spools: seq<Spool>)
    ensures var r := CommitSpools(cfg, t, w, st, spools);
            r.err.None? ==> LastRendered(cfg, t, r.st.out, SpoolSubjects(spools))
    decreases |spools|
  {
    if |spools| > 0 {
      var s := spools[0];
      var rest := SpoolSubjects(spools[1..]);
      if s.archived {
        CommitSpoolsRenders(cfg, t, w, st, spools[1..]);
      } else if s.filament.Some? {
        var x := Subject(s.filament.value, Some(s));
        var r1 := CommitSubject(cfg, t, w, st, x.filament, x.spool);
        if r1.err.None? {
          var r2 := CommitSpools(cfg, t, w, r1.st, spools[1..]);
          assert CommitSpools(cfg, t, w, st, spools) == Then(r1, r2);
          assert SpoolSubjects(spools) == [x] + rest;
          CommitSpoolsRenders(cfg, t, w, r1.st, spools[1..]);
          if Spares(cfg.mode, rest, KeyOf(cfg.mode, x)) {
            CommitSpoolsKeeps(cfg, t, w, r1.st, spools[1..], LastRecord(cfg, x));
          }
          LastRenderedStep(cfg, t, r1.st.out, r2, x, rest);
        }
      }
    }
  }

  /** Every spool carries an id and no two share one, as the values of a valid spool cache do. */
  predicate DistinctIds(spools: seq<Spool>) {
    && (forall i :: 0 <= i < |spools| ==> spools[i].id.Some?)
    && (forall i, j :: 0 <= i < j < |spools| ==> spools[i].id != spools[j].id)
  }

  /** Every contributing spool has its last record holding the text it renders to now. */
  predicate SpoolsUpToDate(cfg: Config, t: Templates, out: Caches, spools: seq<Spool>) {
    forall i :: 0 <= i < |spools| && Contributes(spools[i]) ==>
      UpToDate(cfg, t, out, spools[i].filament.value, Some(spools[i]), Expansion(cfg))
  }

  /**
   In the all-spools mode spools with distinct ids have distinct content keys:
   at most one of them can carry the falsy id 0 and fall back to its filament's key.
   */
  lemma {:induction false} SpoolSubjectsDistinct(spools: seq<Spool>)
    requires DistinctIds(spools)
    ensures Distinct(All, SpoolSubjects(spools))
    decreases |spools|
  {
    if |spools| > 0 {
      var tail := spools[1..];
      assert forall i :: 0 <= i < |tail| ==> tail[i] == spools[i + 1];
      SpoolSubjectsDistinct(tail);
      var rest := SpoolSubjects(tail);
      if Contributes(spools[0]) {
        var x := Subject(spools[0].filament.value, Some(spools[0]));
        forall k | 0 <= k < |rest|
          ensures KeyOf(All, rest[k]) != KeyOf(All, x)
        {
          var i :| 0 <= i < |tail| && SpoolSubject(tail[i]) == Some(rest[k]);
          assert spools[0].id != spools[i + 1].id;
          ContentKeyInjective(All, Record(rest[k].filament, rest[k].spool, "", "", ""), Record(x.filament, x.spool, "", "", ""));
        }
        DistinctCons(All, x, rest);
      }
    }
  }

  /** In the all-spools mode, a pass over spools with distinct ids that goes through leaves every one rendered. */
  lemma CommitSpoolsCurrent(cfg: Config, t: Templates, w: Writer, st: State, spools: seq<Spool>)
    ensures var r := CommitSpools(cfg, t, w, st, spools);
            cfg.mode == All && DistinctIds(spools) && r.err.None? ==> SpoolsUpToDate(cfg, t, r.st.out, spools)
  {
    var r := CommitSpools(cfg, t, w, st, spools);
    if cfg.mode == All && DistinctIds(spools) && r.err.None? {
      var xs := SpoolSubjects(spools);
      CommitSpoolsRenders(cfg, t, w, st, spools);
      SpoolSubjectsDistinct(spools);
      LastHoldDistinct(cfg.mode, SubjectCurrent(cfg, t, r.st.out), xs);
      forall i | 0 <= i < |spools| && Contributes(spools[i])
        ensures UpToDate(cfg, t, r.st.out, spools[i].filament.value, Some(spools[i]), Expansion(cfg))
      {
        var k :| 0 <= k < |xs| && Some(xs[k]) == SpoolSubject(spools[i]);
        assert SubjectCurrent(cfg, t, r.st.out)(xs[k]);
      }
    }
  }

  /** The spools of a valid cache carry their distinct keys as ids. */
  lemma CachedSpoolIds(g: Graph)
    requires Valid(g)
    ensures DistinctIds(Values(g.spools))
  {
    var vs := Values(g.spools);
    forall i, j | 0 <= i < j < |vs|
      ensures vs[i].id != vs[j].id
    {
      KeysDistinct(g.spools, i, j);
    }
  }

  /** Non-empty groups of active spools, each stored under the id of their filament. */
  ghost predicate Grouped(gs: seq<Entry<seq<Spool>>>) {
    && UniqueKeys(gs)
    && forall k :: HasKey(gs, k) ==>
         && |Get(gs, k).value| > 0
         && forall s :: s in Get(gs, k).value ==> ActiveFor(s, k)
  }

  /** `s` is in the group stored under `k`. */
  predicate InGroup(gs: seq<Entry<seq<Spool>>>, k: int, s: Spool) {
    HasKey(gs, k) && s in Get(gs, k).value
  }

  /** `spools_by_filament.setdefault(fid, []).append(spool)` for an active spool. */
  function AddToGroup(acc: seq<Entry<seq<Spool>>>, s: Spool): (r: seq<Entry<seq<Spool>>>)
    requires Grouped(acc)
    requires !s.archived && s.filament.Some?
    ensures Grouped(r)
    ensures InGroup(r, s.filament.value.id, s)
    ensures forall k, s' :: InGroup(acc, k, s') ==> InGroup(r, k, s')
    ensures forall k, s' :: InGroup(r, k, s') ==> InGroup(acc, k, s') || s' == s
  {
    var k := s.filament.value.id;
    var group := Get(acc, k).GetOr([]) + [s];
    var r := Put(acc, k, group);
    PutKeepsUnique(acc, k, group);
    assert Grouped(r) by {
      forall k' | HasKey(r, k')
        ensures |Get(r, k').value| > 0
        ensures forall s' :: s' in Get(r, k').value ==> ActiveFor(s', k')
      {
        if k' != k {
          assert Get(r, k') == Get(acc, k');
        }
      }
    }
    r
  }

  /**
   The grouping loop of `process_filaments_per_spool_selected`: non-archived
   spools appended to the list of their filament id, groups in order of first
   appearance. A non-archived spool without a filament fails.
   */
  function Gather(acc: seq<Entry<seq<Spool>>>, rest: seq<Spool>): (r: Result<seq<Entry<seq<Spool>>>, Failure>)
    requires Grouped(acc)
    ensures r.Err? <==> exists s :: s in rest && !s.archived && s.filament.None?
    ensures r.Err? ==> r.error == MissingField("filament")
    ensures r.Ok? ==> Grouped(r.value)
    ensures r.Ok? ==> forall s :: s in rest && !s.archived ==> InGroup(r.value, s.filament.value.id, s)
    ensures r.Ok? ==> forall k, s :: InGroup(acc, k, s) ==> InGroup(r.value, k, s)
    ensures r.Ok? ==> forall k, s :: InGroup(r.value, k, s) ==> InGroup(acc, k, s) || s in rest
    decreases |rest|
  {
    if |rest| == 0 then Ok(acc)
    else
      var s := rest[0];
      assert forall s' :: s' in rest <==> s' == s || s' in rest[1..];
      if s.archived then Gather(acc, rest[1..])
      else if s.filament.None? then Err(MissingField("filament"))
      else Gather(AddToGroup(acc, s), rest[1..])
  }

  /** The chosen spool of every non-empty group is covered with its filament. */
  predicate ChosenCovered(cfg: Config, out: Caches, gs: seq<Entry<seq<Spool>>>)
    decreases |gs|
  {
    || |gs| == 0
    || (&& (|gs[0].value| > 0 ==>
              var c := Choose(cfg.mode, gs[0].value);
              c.filament.Some? && Covered(cfg, out, c.filament.value, Some(c)))
        && ChosenCovered(cfg, out, gs[1..]))
  }

  /** Every group is non-empty and holds only active spools of the filament it is stored under. */
  predicate GroupsActive(gs: seq<Entry<seq<Spool>>>) {
    forall i :: 0 <= i < |gs| ==> |gs[i].value| > 0 && forall s :: s in gs[i].value ==> ActiveFor(s, gs[i].key)
  }

  /** `key` is a filename key of the chosen spool of group `g`, bound to that spool and its own filament. */
  predicate ChosenKey(cfg: Config, key: string, g: Entry<seq<Spool>>) {
    && |g.value| > 0
    && var c := Choose(cfg.mode, g.value);
       c.filament.Some? && KeyOfSubject(cfg, key, c.filament.value, Some(c), Expansion(cfg))
  }

  /** Every filename key added is a key of the chosen spool of a non-empty group. */
  predicate ChosenKeysOnly(cfg: Config, before: map<string, string>, after: map<string, string>,
                           gs: seq<Entry<seq<Spool>>>) {
    forall key :: key in after && key !in before ==> exists i :: 0 <= i < |gs| && ChosenKey(cfg, key, gs[i])
  }

  /** The keys of the first group's chosen spool followed by the keys of the other groups. */
  lemma ChosenKeysCons(cfg: Config, a: map<string, string>, b: map<string, string>, c: map<string, string>,
                       gs: seq<Entry<seq<Spool>>>)
    requires |gs| > 0
    requires forall key :: key in b && key !in a ==> ChosenKey(cfg, key, gs[0])
    requires c == b || ChosenKeysOnly(cfg, b, c, gs[1..])
    ensures ChosenKeysOnly(cfg, a, c, gs)
  {
    forall key | key in c && key !in a
      ensures exists i :: 0 <= i < |gs| && ChosenKey(cfg, key, gs[i])
    {
      if key !in b {
        var i :| 0 <= i < |gs[1..]| && ChosenKey(cfg, key, gs[1..][i]);
        assert gs[1..][i] == gs[i + 1];
      } else {
        assert ChosenKey(cfg, key, gs[0]);
      }
    }
  }

  lemma GroupsActiveTail(gs: seq<Entry<seq<Spool>>>)
    requires |gs| > 0 && GroupsActive(gs)
    ensures GroupsActive(gs[1..])
  {
    assert forall i :: 1 <= i < |gs| ==> gs[i] == gs[1..][i - 1];
  }

  /** Commit the chosen spool of one group of active spools of its filament. */
  function CommitGroup(cfg: Config, t: Templates, w: Writer, st: State, g: Entry<seq<Spool>>): (r: Step)
    requires |g.value| > 0 && forall s :: s in g.value ==> ActiveFor(s, g.key)
    ensures Choose(cfg.mode, g.value).filament.Some?
    ensures r.st.g == st.g
    ensures Good(st) ==> Good(r.st)
    ensures OnlyWrites(r.effects)
    ensures st.out.names.Keys <= r.st.out.names.Keys
    ensures r.err.None? ==> var c := Choose(cfg.mode, g.value); Covered(cfg, r.st.out, c.filament.value, Some(c))
    ensures forall key :: key in r.st.out.names && key !in st.out.names ==> ChosenKey(cfg, key, g)
  {
    var c := Choose(cfg.mode, g.value);
    assert ActiveFor(c, g.key);
    CommitSubject(cfg, t, w, st, c.filament.value, Some(c))
  }

  /**
   The second loop of `process_filaments_per_spool_selected`: commit each
   group's chosen spool, and no other spool.
   */
  function CommitChosen(cfg: Config, t: Templates, w: Writer, st: State, gs: seq<Entry<seq<Spool>>>): (r: Step)
    requires GroupsActive(gs)
    ensures r.st.g == st.g
    ensures Good(st) ==> Good(r.st)
    ensures OnlyWrites(r.effects)
    ensures st.out.names.Keys <= r.st.out.names.Keys
    ensures r.err.None? ==> ChosenCovered(cfg, r.st.out, gs)
    ensures ChosenKeysOnly(cfg, st.out.names, r.st.out.names, gs)
    decreases |gs|
  {
    if |gs| == 0 then Stay(st)
    else
      var r1 := CommitGroup(cfg, t, w, st, gs[0]);
      ChosenKeysCons(cfg, st.out.names, r1.st.out.names, r1.st.out.names, gs);
      if r1.err.Some? then r1
      else
        GroupsActiveTail(gs);
        var r2 := CommitChosen(cfg, t, w, r1.st, gs[1..]);
        ChosenKeysCons(cfg, st.out.names, r1.st.out.names, r2.st.out.names, gs);
        var c := Choose(cfg.mode, gs[0].value);
        CoveredGrows(cfg, r1.st.out, r2.st.out, c.filament.value, Some(c));
        Then(r1, r2)
  }

  /** The subject the per-filament pass commits for group `g`: its chosen spool, bound to that spool's filament. */
  function ChosenOf(mode: Mode, g: Entry<seq<Spool>>): Option<Subject> {
    if |g.value| == 0 then None
    else
      var c := Choose(mode, g.value);
      if c.filament.Some? then Some(Subject(c.filament.value, Some(c))) else None
  }

  /** The subjects of the per-filament pass, in group order. */
  function ChosenSubjects(mode: Mode, gs: seq<Entry<seq<Spool>>>): (xs: seq<Subject>)
    ensures forall i :: 0 <= i < |gs| && ChosenOf(mode, gs[i]).Some? ==> ChosenOf(mode, gs[i]).value in xs
    ensures forall k :: 0 <= k < |xs| ==> exists i :: 0 <= i < |gs| && ChosenOf(mode, gs[i]) == Some(xs[k])
    decreases |gs|
  {
    if |gs| == 0 then []
    else
      var tail := gs[1..];
      var rest := ChosenSubjects(mode, tail);
      assert forall i :: 1 <= i < |gs| ==> gs[i] == tail[i - 1];
      assert forall k :: 0 <= k < |rest| ==> exists i :: 0 <= i < |gs| && ChosenOf(mode, gs[i]) == Some(rest[k]) by {
        forall k | 0 <= k < |rest|
          ensures exists i :: 0 <= i < |gs| && ChosenOf(mode, gs[i]) == Some(rest[k])
        {
          var i :| 0 <= i < |tail| && ChosenOf(mode, tail[i]) == Some(rest[k]);
          assert gs[i + 1] == tail[i];
        }
      }
      match ChosenOf(mode, gs[0])
      case None => rest
      case Some(x) =>
        ConsAt(x, rest);
        [x] + rest
  }

  /** The per-filament pass keeps a record current unless one of its subjects shares the record's content key. */
  lemma {:induction false} CommitChosenKeeps(cfg: Config, t: Templates, w: Writer, st: State, gs: seq<Entry<seq<Spool>>>,
                                             rec: Record)
    requires GroupsActive(gs)
    requires '-' !in rec.suffix
    requires Spares(cfg.mode, ChosenSubjects(cfg.mode, gs), ContentKey(cfg.mode, rec))
    ensures Current(cfg, t, st.out, rec) ==> Current(cfg, t, CommitChosen(cfg, t, w, st, gs).st.out, rec)
    decreases |gs|
  {
    if |gs| > 0 {
      var c := Choose(cfg.mode, gs[0].value);
      assert ActiveFor(c, gs[0].key);
      var x := Subject(c.filament.value, Some(c));
      SparesCons(cfg.mode, x, ChosenSubjects(cfg.mode, gs[1..]), ContentKey(cfg.mode, rec));
      CommitSubjectKeeps(cfg, t, w, st, x.filament, x.spool, rec);
      var r1 := CommitGroup(cfg, t, w, st, gs[0]);
      GroupsActiveTail(gs);
      CommitChosenKeeps(cfg, t, w, r1.st, gs[1..], rec);
    }
  }

  /** The per-filament pass, when it goes through, leaves the last subject of every content key rendered. */
  lemma {:induction false} CommitChosenRenders(cfg: Config, t: Templates, w: Writer, st: State, gs: seq<Entry<seq<Spool>>>)
    requires GroupsActive(gs)
    ensures var r := CommitChosen(cfg, t, w, st, gs);
            r.err.None? ==> LastRendered(cfg, t, r.st.out, ChosenSubjects(cfg.mode, gs))
    decreases |gs|
  {
    if |gs| > 0 {
      var c := Choose(cfg.mode, gs[0].value);
      assert ActiveFor(c, gs[0].key);
      var x := Subject(c.filament.value, Some(c));
      var rest := ChosenSubjects(cfg.mode, gs[1..]);
      var r1 := CommitGroup(cfg, t, w, st, gs[0]);
      if r1.err.None? {
        GroupsActiveTail(gs);
        var r2 := CommitChosen(cfg, t, w, r1.st, gs[1..]);
        assert CommitChosen(cfg, t, w, st, gs) == Then(r1, r2);
        assert ChosenSubjects(cfg.mode, gs) == [x] + rest;
        CommitChosenRenders(cfg, t, w, r1.st, gs[1..]);
        if Spares(cfg.mode, rest, KeyOf(cfg.mode, x)) {
          CommitChosenKeeps(cfg, t, w, r1.st, gs[1..], LastRecord(cfg, x));
        }
        LastRenderedStep(cfg, t, r1.st.out, r2, x, rest);
      }
    }
  }

  /** Outside the all-spools mode, the choice of a group of active spools is keyed by the group's filament id. */
  lemma ChoiceKeyedByGroup(mode: Mode, g: Entry<seq<Spool>>)
    requires mode != All
    requires |g.value| > 0 && forall s :: s in g.value ==> ActiveFor(s, g.key)
    ensures ChosenOf(mode, g).Some? && KeyOf(mode, ChosenOf(mode, g).value) == IntToString(g.key)
  {
    assert ActiveFor(Choose(mode, g.value), g.key);
  }

  /** Outside the all-spools mode, groups under distinct filament ids give subjects with distinct keys. */
  lemma {:induction false} ChosenSubjectsDistinct(mode: Mode, gs: seq<Entry<seq<Spool>>>)
    requires mode != All && UniqueKeys(gs) && GroupsActive(gs)
    ensures Distinct(mode, ChosenSubjects(mode, gs))
    decreases |gs|
  {
    if |gs| > 0 {
      var tail := gs[1..];
      GroupsActiveTail(gs);
      ChosenSubjectsDistinct(mode, tail);
      var rest := ChosenSubjects(mode, tail);
      ChoiceKeyedByGroup(mode, gs[0]);
      var x := ChosenOf(mode, gs[0]).value;
      forall k | 0 <= k < |rest|
        ensures KeyOf(mode, rest[k]) != KeyOf(mode, x)
      {
        var i :| 0 <= i < |tail| && ChosenOf(mode, tail[i]) == Some(rest[k]);
        assert tail[i] == gs[i + 1];
        ChoiceKeyedByGroup(mode, gs[i + 1]);
        KeysDistinct(gs, 0, i + 1);
        if KeyOf(mode, rest[k]) == KeyOf(mode, x) {
          IntToStringInjective(gs[0].key, gs[i + 1].key);
        }
      }
      assert ChosenSubjects(mode, gs) == [x] + rest;
      DistinctCons(mode, x, rest);
    }
  }

  /** The chosen spool of every group has its last record holding the text it renders to now. */
  predicate ChosenUpToDate(cfg: Config, t: Templates, out: Caches, gs: seq<Entry<seq<Spool>>>) {
    forall i :: 0 <= i < |gs| && ChosenOf(cfg.mode, gs[i]).Some? ==>
      UpToDate(cfg, t, out, ChosenOf(cfg.mode, gs[i]).value.filament, ChosenOf(cfg.mode, gs[i]).value.spool, Expansion(cfg))
  }

  /** Outside the all-spools mode, group keys differ, so every group's choice is rendered, not only the last of a key. */
  lemma ChosenRendersAll(cfg: Config, t: Templates, r: Step, gs: seq<Entry<seq<Spool>>>)
    requires UniqueKeys(gs) && GroupsActive(gs)
    requires r.err.None? ==> LastRendered(cfg, t, r.st.out, ChosenSubjects(cfg.mode, gs))
    ensures cfg.mode != All && r.err.None? ==> ChosenUpToDate(cfg, t, r.st.out, gs)
  {
    if cfg.mode != All && r.err.None? {
      var xs := ChosenSubjects(cfg.mode, gs);
      ChosenSubjectsDistinct(cfg.mode, gs);
      LastHoldDistinct(cfg.mode, SubjectCurrent(cfg, t, r.st.out), xs);
      forall i | 0 <= i < |gs| && ChosenOf(cfg.mode, gs[i]).Some?
        ensures UpToDate(cfg, t, r.st.out, ChosenOf(cfg.mode, gs[i]).value.filament, ChosenOf(cfg.mode, gs[i]).value.spool,
                         Expansion(cfg))
      {
        HoldsOfMember(SubjectCurrent(cfg, t, r.st.out), xs, ChosenOf(cfg.mode, gs[i]).value);
      }
    }
  }

  lemma GroupedByIndex(gs: seq<Entry<seq<Spool>>>)
    requires Grouped(gs)
    ensures GroupsActive(gs)
  {
    forall i | 0 <= i < |gs|
      ensures |gs[i].value| > 0 && forall s :: s in gs[i].value ==> ActiveFor(s, gs[i].key)
    {
      GetAt(gs, i);
      assert HasKey(gs, gs[i].key);
    }
  }

  /**
   What the per-filament snapshot leaves: when the spools group, the chosen
   spool of every group is covered on success and no other spool gets a file.
   */
  predicate SelectedDone(cfg: Config, before: map<string, string>, r: Step, spools: seq<Spool>) {
    Gather([], spools).Ok? ==>
      && (r.err.None? ==> ChosenCovered(cfg, r.st.out, Gather([], spools).value))
      && ChosenKeysOnly(cfg, before, r.st.out.names, Gather([], spools).value)
  }

  /**
   `process_filaments_per_spool_selected`: the non-archived spools are grouped
   by filament, in order of first appearance, and each group's chosen spool is
   committed.
   */
  function SnapshotSelected(cfg: Config, t: Templates, w: Writer, st: State, spools: seq<Spool>): (r: Step)
    ensures r.st.g == st.g
    ensures Good(st) ==> Good(r.st)
    ensures OnlyWrites(r.effects)
    ensures st.out.names.Keys <= r.st.out.names.Keys
    ensures (exists s :: s in spools && !s.archived && s.filament.None?) ==>
              r == Step(st, [], Some(MissingField("filament")))
    ensures SelectedDone(cfg, st.out.names, r, spools)
    ensures Gather([], spools).Ok? && r.err.None? ==>
              LastRendered(cfg, t, r.st.out, ChosenSubjects(cfg.mode, Gather([], spools).value))
    ensures cfg.mode != All && Gather([], spools).Ok? && r.err.None? ==>
              ChosenUpToDate(cfg, t, r.st.out, Gather([], spools).value)
  {
    match Gather([], spools)
    case Err(e) => Step(st, [], Some(e))
    case Ok(gs) =>
      GroupedByIndex(gs);
      CommitChosenRenders(cfg, t, w, st, gs);
      ChosenRendersAll(cfg, t, CommitChosen(cfg, t, w, st, gs), gs);
      CommitChosen(cfg, t, w, st, gs)
  }

  /** What the all-spools snapshot leaves: every active spool covered on success, and no other spool with a file. */
  predicate AllDone(cfg: Config, before: map<string, string>, r: Step, spools: seq<Spool>) {
    && (r.err.None? ==> SpoolsCovered(cfg, r.st.out, spools))
    && SpoolKeysOnly(cfg, before, r.st.out.names, spools)
  }

  /** What the default snapshot leaves: the filament of every contributing spool covered on success, and nothing else. */
  predicate DefaultDone(cfg: Config, before: map<string, string>, r: Step, g: Graph, spools: seq<Spool>) {
    && (r.err.None? ==>
          forall i :: 0 <= i < |spools| && Contributes(spools[i]) && HasKey(g.filaments, spools[i].filament.value.id) ==>
            Covered(cfg, r.st.out, Get(g.filaments, spools[i].filament.value.id).value, None))
    && DefaultKeysOnly(cfg, before, r.st.out.names, g, spools)
  }

  /**
   The mode dispatch of `load_and_update_all_filaments`: the mode's pass over
   the cached spools, in cache order.
   */
  function ProcessCached(cfg: Config, t: Templates, st: State): (r: Step)
    requires Good(st)
    ensures Good(r.st) && r.st.g == st.g
    ensures OnlyWrites(r.effects)
    ensures st.out.names.Keys <= r.st.out.names.Keys
    ensures cfg.mode == All ==> AllDone(cfg, st.out.names, r, Values(st.g.spools))
    ensures cfg.mode == Default ==> DefaultDone(cfg, st.out.names, r, st.g, Values(st.g.spools))
    ensures PerFilament(cfg.mode) ==> SelectedDone(cfg, st.out.names, r, Values(st.g.spools))
    ensures cfg.mode == All && r.err.None? ==> SpoolsUpToDate(cfg, t, r.st.out, Values(st.g.spools))
    ensures cfg.mode == Default && r.err.None? ==> FilamentsUpToDate(cfg, t, r.st.out, st.g, Values(st.g.spools))
    ensures PerFilament(cfg.mode) && r.err.None? && Gather([], Values(st.g.spools)).Ok? ==>
              ChosenUpToDate(cfg, t, r.st.out, Gather([], Values(st.g.spools)).value)
  {
    var spools := Values(st.g.spools);
    match cfg.mode
    case All =>
      CachedSpoolIds(st.g);
      CommitSpoolsCurrent(cfg, t, Atomic, st, spools);
      CommitSpools(cfg, t, Atomic, st, spools)
    case LeastLeft => SnapshotSelected(cfg, t, Atomic, st, spools)
    case MostRecent => SnapshotSelected(cfg, t, Atomic, st, spools)
    case Default => SnapshotDefault(cfg, t, st, spools)
  }

  /**
   `load_and_update_all_filaments`: load the caches, then run the mode's
   processor over the cached spools in cache order.
   */
  function Run(cfg: Config, t: Templates, st: State, vs: seq<Vendor>, fs: seq<Filament>, ss: seq<Spool>): (r: Step)
    requires Good(st)
    ensures Good(r.st)
    ensures OnlyWrites(r.effects)
    ensures st.out.names.Keys <= r.st.out.names.Keys
    ensures r.st.g == LoadCaches(st.g, vs, fs, ss).g
    ensures LoadCaches(st.g, vs, fs, ss).err.Some? ==> r.st.out == st.out && r.effects == [] && r.err.Some?
    ensures var load := LoadCaches(st.g, vs, fs, ss);
            load.err.None? ==>
              var spools := Values(load.g.spools);
              && (cfg.mode == All ==> AllDone(cfg, st.out.names, r, spools))
              && (cfg.mode == Default ==> DefaultDone(cfg, st.out.names, r, load.g, spools))
              && (PerFilament(cfg.mode) ==> SelectedDone(cfg, st.out.names, r, spools))
    ensures var load := LoadCaches(st.g, vs, fs, ss);
            cfg.mode == All && load.err.None? && r.err.None? ==> SpoolsUpToDate(cfg, t, r.st.out, Values(load.g.spools))
    ensures var load := LoadCaches(st.g, vs, fs, ss);
            cfg.mode == Default && load.err.None? && r.err.None? ==>
              FilamentsUpToDate(cfg, t, r.st.out, load.g, Values(load.g.spools))
    ensures var load := LoadCaches(st.g, vs, fs, ss);
            var spools := Values(load.g.spools);
            PerFilament(cfg.mode) && load.err.None? && r.err.None? && Gather([], spools).Ok? ==>
              ChosenUpToDate(cfg, t, r.st.out, Gather([], spools).value)
  {
    var load := LoadCaches(st.g, vs, fs, ss);
    var st1 := st.(g := load.g);
    if load.err.Some? then Step(st1, [], load.err)
    else ProcessCached(cfg, t, st1)
  }
}

=== FILE: spool_update.dfy ===
/**
 What one spool change does to the output files under each mode: the plan
 `handle_spool_update` draws up for a spool, and carrying it out.
 */
module SpoolUpdate {
  import opened Maybe
  import opened Failures
  import opened Text
  import opened OrderedDict
  import opened Entities
  import opened Settings
  import opened Outputs
  import opened Selection
  import opened Processor

  /** A cached, active spool of `fid` that no other cached active spool of `fid` beats under the mode's order. */
  predicate BestActive(mode: Mode, spools: seq<Entry<Spool>>, fid: int, c: Spool) {
    && (exists i :: 0 <= i < |spools| && spools[i].value == c)
    && ActiveFor(c, fid)
    && (forall i :: 0 <= i < |spools| && ActiveFor(spools[i].value, fid) ==>
          if mode == MostRecent then !RecentAfter(spools[i].value, c) else !LeftBefore(spools[i].value, c))
  }

  /** What one spool change asks of the output files: nothing, or one action on the records of one subject. */
  datatype Plan = Skip | Act(filament: Filament, spool: Option<Spool>, action: Action)

  /**
   The per-filament branch of `handle_spool_update` for a spool of `f`: refresh
   the files of the best active cached spool of the filament, with that spool's
   own embedded filament, or drop the filament's files when no cached spool of
   it is active.
   */
  function PlanPerFilament(mode: Mode, g: Graph, f: Filament): (p: Plan)
    ensures p.Act? && p.action != CommitOnly
    ensures p.action == Refresh <==> exists i :: 0 <= i < |g.spools| && ActiveFor(g.spools[i].value, f.id)
    ensures p.action == ReleaseOnly ==> p == Act(f, None, ReleaseOnly)
    ensures p.action == Refresh ==>
              && p.spool.Some?
              && BestActive(mode, g.spools, f.id, p.spool.value)
              && p.filament == p.spool.value.filament.value
  {
    var active := ActiveSpools(g.spools, f.id);
    if |active| == 0 then Act(f, None, ReleaseOnly)
    else
      var c := Choose(mode, active);
      var j :| 0 <= j < |active| && active[j] == c;
      Act(c.filament.value, Some(c), Refresh)
  }

  /**
   The decision of `handle_spool_update` for a spool whose filament reference is
   already resolved. `all` refreshes the spool's own files unless it is archived;
   the per-filament modes refresh the file of the best active cached spool of the
   filament and drop the filament's files when there is none; the default mode
   refreshes the filament's files while some cached spool of it is active, or
   while the spool cache is empty, and drops them otherwise.
   */
  function PlanSpoolUpdate(cfg: Config, g: Graph, s: Spool): (p: Plan)
    ensures p.Skip? <==> s.filament.None? || (cfg.mode == All && s.archived)
    ensures p.Act? ==> p.action != CommitOnly
    ensures p.Act? && cfg.mode == All ==> p == Act(s.filament.value, Some(s), Refresh)
    ensures p.Act? && cfg.mode == Default ==>
              && p.filament == s.filament.value && p.spool == None
              && (p.action == Refresh <==>
                    |g.spools| == 0
                    || exists i :: 0 <= i < |g.spools| && ActiveFor(g.spools[i].value, s.filament.value.id))
    ensures p.Act? && PerFilament(cfg.mode) ==>
              (p.action == Refresh <==>
                 exists i :: 0 <= i < |g.spools| && ActiveFor(g.spools[i].value, s.filament.value.id))
    ensures p.Act? && PerFilament(cfg.mode) && p.action == ReleaseOnly ==>
              p == Act(s.filament.value, None, ReleaseOnly)
    ensures p.Act? && PerFilament(cfg.mode) && p.action == Refresh ==>
              && p.spool.Some?
              && BestActive(cfg.mode, g.spools, s.filament.value.id, p.spool.value)
              && p.filament == p.spool.value.filament.value
  {
    if s.filament.None? then Skip
    else
      var f := s.filament.value;
      match cfg.mode
      case All => if s.archived then Skip else Act(f, Some(s), Refresh)
      case Default =>
        if |g.spools| == 0 || HasActiveSpool(g.spools, f.id) then Act(f, None, Refresh)
        else Act(f, None, ReleaseOnly)
      case _ => PlanPerFilament(cfg.mode, g, f)
  }

  /**
   A plan carried out from the output state `out`: a skip touches nothing; a
   release only removes, never fails, forgets no filename, removes the file of
   every record of its subject on its last use and no file of another record; a
   refresh that succeeds leaves every record of its subject remembered and the
   subject's last record current.
   */
  predicate Handled(cfg: Config, t: Templates, out: Caches, r: Step, p: Plan) {
    && (p.Skip? ==> r.effects == [] && r.err == None && r.st.out == out)
    && (p.Act? && p.action == ReleaseOnly ==>
          && OnlyRemoves(r.effects) && r.err == None && r.st.out.names == out.names
          && ReleasedFiles(cfg, out, p.filament, p.spool, Expansion(cfg), r.effects))
    && (p.Act? && p.action == Refresh && r.err == None ==>
          && Recorded(cfg, r.st.out.names, p.filament, p.spool, Expansion(cfg))
          && UpToDate(cfg, t, r.st.out, p.filament, p.spool, Expansion(cfg)))
  }

  /**
   `handle_spool_update`: resolve the spool's filament from the cache, then carry
   out the plan on every (suffix, variant) record. The entity caches are left as
   they are, a release never writes and never fails, and a refresh that
   succeeds leaves a file name remembered for every record of its subject and
   the subject's last record current.
   */
  function HandleSpoolUpdate(cfg: Config, t: Templates, st: State, s: Spool): (r: Step)
    ensures r.st.g == st.g
    ensures Good(st) ==> Good(r.st)
    ensures st.out.names.Keys <= r.st.out.names.Keys
    ensures EmbedFilament(st.g.filaments, s).filament.None? ==> r == Stay(st)
    ensures var p := PlanSpoolUpdate(cfg, st.g, EmbedFilament(st.g.filaments, s));
            && (p.Skip? ==> r == Stay(st))
            && (p.Act? && p.action == ReleaseOnly ==>
                  OnlyRemoves(r.effects) && r.err == None && r.st.out.names == st.out.names)
            && (p.Act? && p.action == Refresh && r.err == None ==>
                  Recorded(cfg, r.st.out.names, p.filament, p.spool, Expansion(cfg)))
    ensures Handled(cfg, t, st.out, r, PlanSpoolUpdate(cfg, st.g, EmbedFilament(st.g.filaments, s)))
  {
    match PlanSpoolUpdate(cfg, st.g, EmbedFilament(st.g.filaments, s))
    case Skip => Stay(st)
    case Act(f, spool, a) => Reconcile(cfg, t, Atomic, st, f, spool, Expansion(cfg), a)
  }
}

=== FILE: state.dfy ===
/**
 The processor's whole state — the entity caches and the output caches — and
 the result of one step of the engine: the new state, the file operations it
 asked for in order, and the failure that cut it short, if any.
 */
module Processor {
  import opened Maybe
  import opened Failures
  import opened Entities
  import opened Settings
  import opened Outputs

  datatype State = State(g: Graph, out: Caches)

  /** A freshly constructed processor: every cache empty. */
  const Initial := State(Empty, Fresh)

  /** The invariants every step keeps. */
  predicate Good(st: State) {
    Valid(st.g) && Consistent(st.out)
  }

  lemma InitialGood()
    ensures Good(Initial)
  {
  }

  /**
   A step's outcome. A failure is an exception escaping the handler: the state
   is the one the handler had reached, and the effects are those already done.
   */
  datatype Step = Step(st: State, effects: seq<Effect>, err: Option<Failure>)

  function Stay(st: State): Step {
    Step(st, [], None)
  }

  /** The second step after the first: effects in order, the second's outcome. */
  function Then(a: Step, b: Step): Step {
    Step(b.st, a.effects + b.effects, b.err)
  }

  lemma ThenKeeps(a: Step, b: Step)
    ensures OnlyWrites(a.effects) && OnlyWrites(b.effects) ==> OnlyWrites(Then(a, b).effects)
    ensures OnlyRemoves(a.effects) && OnlyRemoves(b.effects) ==> OnlyRemoves(Then(a, b).effects)
  {
  }

  /**
   One action on every (suffix, variant) record of one subject. The entity
   caches are untouched; the only filename keys added are the subject's own; a
   commit-only pass never removes, and a release-only pass never writes, never
   fails, removes the file of every record on its last use and removes no file
   that is not remembered for one of the subject's records.
   */
  function Reconcile(cfg: Config, t: Templates, w: Writer, st: State, f: Filament, spool: Option<Spool>,
                     combos: seq<Combo>, a: Action): (r: Step)
    ensures r.st.g == st.g
    ensures Good(st) ==> Good(r.st)
    ensures |r.effects| <= 2 * |combos|
    ensures st.out.names.Keys <= r.st.out.names.Keys
    ensures a == CommitOnly ==> OnlyWrites(r.effects)
    ensures a == ReleaseOnly ==> OnlyRemoves(r.effects) && r.err == None
    ensures a == ReleaseOnly ==> r.st.out.names == st.out.names && r.st.out.texts == st.out.texts
    ensures a != ReleaseOnly && r.err == None ==> Recorded(cfg, r.st.out.names, f, spool, combos)
    ensures OnlyKeysOf(cfg, st.out.names, r.st.out.names, f, spool, combos)
    ensures a == ReleaseOnly ==> ReleasedFiles(cfg, st.out, f, spool, combos, r.effects)
    ensures a != ReleaseOnly && r.err == None && |combos| > 0 ==> UpToDate(cfg, t, r.st.out, f, spool, combos)
  {
    var run := ApplyAll(cfg, t, w, st.out, f, spool, combos, a);
    ApplyAllUpToDate(cfg, t, w, st.out, f, spool, combos, a);
    Step(st.(out := run.caches), run.effects, run.err)
  }

  /** A pass over one subject keeps every record of another subject current. */
  lemma ReconcileKeeps(cfg: Config, t: Templates, w: Writer, st: State, f: Filament, spool: Option<Spool>,
                       combos: seq<Combo>, a: Action, other: Record)
    requires '-' !in other.suffix
    requires forall i :: 0 <= i < |combos| ==> '-' !in combos[i].suffix
    requires ContentKey(cfg.mode, other) != SubjectKey(cfg.mode, f, spool)
    ensures Current(cfg, t, st.out, other) ==> Current(cfg, t, Reconcile(cfg, t, w, st, f, spool, combos, a).st.out, other)
  {
    ApplyAllKeeps(cfg, t, w, st.out, f, spool, combos, a, other);
  }
}

=== FILE: text.dfy ===
/**
 The handful of Python string operations the engine relies on: `strip`,
 `removesuffix`, `split`, `str(int)` and the ordering `<` on strings.
 */
module Text {

  /** Python's `str.isspace` for a single character. */
  predicate IsSpace(c: char) {
    || '\t' <= c <= '\r'
    || '\U{1c}' <= c <= ' '
    || c == '\U{85}' || c == '\U{a0}' || c == '\U{1680}'
    || '\U{2000}' <= c <= '\U{200a}'
    || c == '\U{2028}' || c == '\U{2029}' || c == '\U{202f}' || c == '\U{205f}'
    || c == '\U{3000}'
  }

  /** The characters `s[lo..hi]` are all whitespace. */
  predicate SpaceBetween(s: string, lo: int, hi: int) {
    forall k :: lo <= k < hi && 0 <= k < |s| ==> IsSpace(s[k])
  }

  /** Where `s[i..].lstrip()` begins: the first non-whitespace position from `i` on. */
  function SpanStart(s: string, i: nat): (n: nat)
    requires i <= |s|
    ensures i <= n <= |s|
    ensures SpaceBetween(s, i, n)
    ensures n == |s| || !IsSpace(s[n])
    decreases |s| - i
  {
    if i < |s| && IsSpace(s[i]) then SpanStart(s, i + 1) else i
  }

  /** Where `s[lo..j].rstrip()` ends: the position after the last non-whitespace one. */
  function SpanEnd(s: string, lo: nat, j: nat): (m: nat)
    requires lo <= j <= |s|
    ensures lo <= m <= j
    ensures SpaceBetween(s, m, j)
    ensures m == lo || !IsSpace(s[m - 1])
    decreases j
  {
    if j > lo && IsSpace(s[j - 1]) then SpanEnd(s, lo, j - 1) else j
  }

  /**
   `s.strip()`: the result is a slice of `s` that neither starts nor ends with
   whitespace, and everything cut off on either side is whitespace.
   */
  function Strip(s: string): (r: string)
    ensures r == [] || (!IsSpace(r[0]) && !IsSpace(r[|r| - 1]))
    ensures exists i :: StrippedAt(s, r, i)
  {
    var i := SpanStart(s, 0);
    var j := SpanEnd(s, i, |s|);
    assert StrippedAt(s, s[i..j], i);
    s[i..j]
  }

  /** `r` is `s` with the whitespace `s[..i]` cut off in front and only whitespace cut off behind. */
  predicate StrippedAt(s: string, r: string, i: int) {
    && 0 <= i <= |s| - |r|
    && r == s[i..i + |r|]
    && SpaceBetween(s, 0, i)
    && SpaceBetween(s, i + |r|, |s|)
  }

  /** Stripping twice is stripping once. */
  lemma StripIdempotent(s: string)
    ensures Strip(Strip(s)) == Strip(s)
  {
    var r := Strip(s);
    assert SpanStart(r, 0) == 0;
    assert SpanEnd(r, 0, |r|) == |r|;
    assert r[0..|r|] == r;
  }

  predicate EndsWith(s: string, suffix: string) {
    |suffix| <= |s| && s[|s| - |suffix|..] == suffix
  }

  /** Python's `s.removesuffix(suffix)`: removes one copy of a non-empty suffix, if present. */
  function RemoveSuffix(s: string, suffix: string): (r: string)
    ensures suffix != [] && EndsWith(s, suffix) ==> r + suffix == s
    ensures !(suffix != [] && EndsWith(s, suffix)) ==> r == s
  {
    if suffix != [] && EndsWith(s, suffix) then s[..|s| - |suffix|] else s
  }

  /** Python's `sep.join(parts)`. */
  function Join(parts: seq<string>, sep: char): string
  {
    if |parts| == 0 then ""
    else if |parts| == 1 then parts[0]
    else parts[0] + [sep] + Join(parts[1..], sep)
  }

  /**
   Python's `s.split(sep)` for a one-character separator. It never returns the
   empty list: `"".split(",")` is `[""]`.
   */
  function Split(s: string, sep: char): (parts: seq<string>)
    ensures |parts| >= 1
    ensures Join(parts, sep) == s
    ensures forall i :: 0 <= i < |parts| ==> sep !in parts[i]
  {
    if |s| == 0 then [""]
    else
      var rest := Split(s[1..], sep);
      assert s == [s[0]] + s[1..];
      if s[0] == sep then
        JoinEmptyHead(rest, sep);
        [""] + rest
      else
        JoinConsHead(s[0], rest, sep);
        var parts := [[s[0]] + rest[0]] + rest[1..];
        assert forall i :: 1 <= i < |parts| ==> parts[i] == rest[i];
        parts
  }

  lemma JoinEmptyHead(parts: seq<string>, sep: char)
    requires |parts| >= 1
    ensures Join([""] + parts, sep) == [sep] + Join(parts, sep)
  {
    assert ([""] + parts)[1..] == parts;
  }

  lemma JoinConsHead(c: char, parts: seq<string>, sep: char)
    requires |parts| >= 1
    ensures Join([[c] + parts[0]] + parts[1..], sep) == [c] + Join(parts, sep)
  {
    var q := [[c] + parts[0]] + parts[1..];
    assert q[1..] == parts[1..];
    if |parts| > 1 {
      assert Join(q, sep) == ([c] + parts[0]) + [sep] + Join(parts[1..], sep);
      assert Join(parts, sep) == parts[0] + [sep] + Join(parts[1..], sep);
    }
  }

  /** Splitting a separator-free prefix onto whatever follows. */
  lemma {:induction false} SplitPrefix(p: string, t: string, sep: char)
    requires sep !in p
    ensures Split(p + t, sep) == [p + Split(t, sep)[0]] + Split(t, sep)[1..]
    decreases |p|
  {
    var x := Split(t, sep);
    if |p| > 0 {
      var q := p + t;
      assert q[0] == p[0] && q[1..] == p[1..] + t;
      SplitPrefix(p[1..], t, sep);
      var y := Split(q[1..], sep);
      assert y[0] == p[1..] + x[0] && y[1..] == x[1..];
      assert Split(q, sep) == [[q[0]] + y[0]] + y[1..];
      assert [p[0]] + (p[1..] + x[0]) == p + x[0];
    } else {
      assert p + t == t;
      assert p + x[0] == x[0];
      assert [x[0]] + x[1..] == x;
    }
  }

  /** The other round trip: splitting a join of separator-free parts gives the parts back. */
  lemma {:induction false} SplitJoin(parts: seq<string>, sep: char)
    requires |parts| >= 1
    requires forall i :: 0 <= i < |parts| ==> sep !in parts[i]
    ensures Split(Join(parts, sep), sep) == parts
  {
    if |parts| == 1 {
      assert Split("", sep) == [""];
      SplitPrefix(parts[0], "", sep);
      assert parts[0] + "" == parts[0];
      assert Join(parts, sep) == parts[0];
      assert [parts[0]] == parts;
    } else {
      var tail := Join(parts[1..], sep);
      var u := [sep] + tail;
      assert Join(parts, sep) == parts[0] + u;
      SplitJoin(parts[1..], sep);
      assert u[0] == sep && u[1..] == tail;
      assert Split(u, sep) == [""] + parts[1..];
      SplitPrefix(parts[0], u, sep);
      assert parts[0] + "" == parts[0];
      assert [parts[0]] + parts[1..] == parts;
    }
  }

  predicate IsDigit(c: char) {
    '0' <= c <= '9'
  }

  function DigitChar(d: nat): (c: char)
    requires d < 10
    ensures IsDigit(c)
  {
    ('0' as int + d) as char
  }

  /** Decimal digits of a natural number, most significant first, as `str(n)` prints them. */
  function NatToString(n: nat): (r: string)
    ensures |r| >= 1
    ensures |r| == 1 <==> n < 10
    ensures forall i :: 0 <= i < |r| ==> IsDigit(r[i])
  {
    if n < 10 then [DigitChar(n)] else NatToString(n / 10) + [DigitChar(n % 10)]
  }

  /** Different naturals print differently. */
  lemma {:induction false} NatToStringInjective(a: nat, b: nat)
    requires NatToString(a) == NatToString(b)
    ensures a == b
    decreases a
  {
    var sa, sb := NatToString(a), NatToString(b);
    if a < 10 {
      assert b < 10;
      assert DigitChar(a) == DigitChar(b);
    } else {
      assert b >= 10;
      assert sa[|sa| - 1] == DigitChar(a % 10) && sb[|sb| - 1] == DigitChar(b % 10);
      assert sa[..|sa| - 1] == NatToString(a / 10);
      assert sb[..|sb| - 1] == NatToString(b / 10);
      NatToStringInjective(a / 10, b / 10);
    }
  }

  /** Python's `str(n)` for an integer. */
  function IntToString(n: int): (r: string)
    ensures |r| >= 1
    ensures r[0] == '-' <==> n < 0
    ensures n >= 0 ==> IsDigit(r[0])
    ensures forall i :: 0 < i < |r| ==> IsDigit(r[i])
  {
    if n < 0 then "-" + NatToString(-n) else NatToString(n)
  }

  /** Different integers print differently. */
  lemma IntToStringInjective(a: int, b: int)
    requires IntToString(a) == IntToString(b)
    ensures a == b
  {
    var sa := IntToString(a);
    if a < 0 {
      assert b < 0;
      assert sa[1..] == NatToString(-a);
      assert sa[1..] == NatToString(-b);
      NatToStringInjective(-a, -b);
    } else {
      assert b >= 0;
      NatToStringInjective(a, b);
    }
  }

  /** Python's `<` on strings: lexicographic comparison of code points. */
  predicate LexLess(a: string, b: string) {
    if |a| == 0 then |b| > 0
    else |b| > 0 && (a[0] < b[0] || (a[0] == b[0] && LexLess(a[1..], b[1..])))
  }

  lemma {:induction false} LexLessIrreflexive(a: string)
    ensures !LexLess(a, a)
  {
    if |a| > 0 {
      LexLessIrreflexive(a[1..]);
    }
  }

  lemma {:induction false} LexLessTransitive(a: string, b: string, c: string)
    requires LexLess(a, b) && LexLess(b, c)
    ensures LexLess(a, c)
  {
    if |a| > 0 && a[0] == b[0] && b[0] == c[0] {
      LexLessTransitive(a[1..], b[1..], c[1..]);
    }
  }

  lemma {:induction false} LexLessTotal(a: string, b: string)
    requires a != b
    ensures LexLess(a, b) || LexLess(b, a)
  {
    if |a| > 0 && |b| > 0 && a[0] == b[0] {
      assert a == [a[0]] + a[1..] && b == [b[0]] + b[1..];
      LexLessTotal(a[1..], b[1..]);
    }
  }
}

=== FILE: vendor_cascades.dfy ===
/**
 The in-place cascade that follows a vendor change: the loop over the
 filament cache that re-embeds the vendor and refreshes each filament's
 spools, and what it leaves current.
 */
module VendorCascades {
  import opened Maybe
  import opened Failures
  import opened Text
  import opened OrderedDict
  import opened Entities
  import opened Settings
  import opened Outputs
  import opened Selection
  import opened Processor
  import opened SpoolUpdate
  import opened Cascades

  /** The filament's embedded vendor has id `vid`. */
  predicate HasVendor(f: Filament, vid: int) {
    f.vendor.Some? && f.vendor.value.id == vid
  }

  /** `filament["vendor"] = v` on a filament of the vendor `v` replaces. */
  function Revend(f: Filament, v: Vendor): Filament {
    f.(vendor := Some(v))
  }

  /**
   `c` is the filament cache `a` after the vendor loop from position `i` on:
   the same length, and each entry unchanged or, from `i` on, a filament of the
   vendor now embedding `v`.
   */
  predicate RevendedFrom(a: seq<Entry<Filament>>, c: seq<Entry<Filament>>, v: Vendor, i: nat) {
    && |c| == |a|
    && forall k :: 0 <= k < |a| ==>
         || c[k] == a[k]
         || (i <= k && HasVendor(a[k].value, v.id) && c[k] == Entry(a[k].key, Revend(a[k].value, v)))
  }

  /** From position `i` on, every filament of the vendor embeds `v`. */
  predicate AllRevended(a: seq<Entry<Filament>>, c: seq<Entry<Filament>>, v: Vendor, i: nat)
    requires |c| == |a|
  {
    forall k :: i <= k < |a| && HasVendor(a[k].value, v.id) ==> c[k] == Entry(a[k].key, Revend(a[k].value, v))
  }

  /** One turn of the vendor loop followed by the rest of it is the loop from that turn on. */
  lemma RevendedCompose(a: seq<Entry<Filament>>, b: seq<Entry<Filament>>, c: seq<Entry<Filament>>, v: Vendor, i: nat)
    requires i < |a| && HasVendor(a[i].value, v.id)
    requires b == SetAt(a, i, Revend(a[i].value, v))
    requires RevendedFrom(b, c, v, i + 1)
    ensures RevendedFrom(a, c, v, i)
    ensures AllRevended(b, c, v, i + 1) ==> AllRevended(a, c, v, i)
  {
    forall k | 0 <= k < |a|
      ensures || c[k] == a[k]
              || (i <= k && HasVendor(a[k].value, v.id) && c[k] == Entry(a[k].key, Revend(a[k].value, v)))
    {
      if k == i {
        assert Revend(Revend(a[k].value, v), v) == Revend(a[k].value, v);
      } else {
        assert b[k] == a[k];
      }
    }
    if AllRevended(b, c, v, i + 1) {
      forall k | i <= k < |a| && HasVendor(a[k].value, v.id)
        ensures c[k] == Entry(a[k].key, Revend(a[k].value, v))
      {
        if k == i {
          assert HasVendor(b[i].value, v.id);
        } else {
          assert b[k] == a[k];
        }
      }
    }
  }

  /** Skipping a filament of another vendor. */
  lemma RevendedSkip(a: seq<Entry<Filament>>, c: seq<Entry<Filament>>, v: Vendor, i: nat)
    requires i < |a| && !HasVendor(a[i].value, v.id)
    requires RevendedFrom(a, c, v, i + 1)
    ensures RevendedFrom(a, c, v, i)
    ensures AllRevended(a, c, v, i + 1) ==> AllRevended(a, c, v, i)
  {
  }

  /**
   One turn of the vendor loop, for a cached filament of the vendor: `v` is
   embedded in place and the spools of the filament are refreshed.
   */
  function VendorAt(cfg: Config, t: Templates, st: State, v: Vendor, i: nat): (r: Step)
    requires Valid(st.g)
    requires i < |st.g.filaments| && HasVendor(st.g.filaments[i].value, v.id)
    ensures Valid(r.st.g)
    ensures Good(st) ==> Good(r.st)
    ensures st.out.names.Keys <= r.st.out.names.Keys
    ensures r.st.g.vendors == st.g.vendors
    ensures r.st.g.filaments == SetAt(st.g.filaments, i, Revend(st.g.filaments[i].value, v))
    ensures Keys(r.st.g.spools) == Keys(st.g.spools)
    ensures RefreshedFrom(st.g.spools, r.st.g.spools, Revend(st.g.filaments[i].value, v), 0)
    ensures r.err == None ==> AllReembedded(st.g.spools, r.st.g.spools, Revend(st.g.filaments[i].value, v), 0)
    ensures r.err == None ==> Settled(cfg, r.st.out.names, r.st.g.spools, Revend(st.g.filaments[i].value, v))
    ensures r.err == None ==> Rendered(cfg, t, r.st.out, r.st.g.spools, Revend(st.g.filaments[i].value, v))
  {
    var f1 := Revend(st.g.filaments[i].value, v);
    var st1 := st.(g := st.g.(filaments := SetAt(st.g.filaments, i, f1)));
    assert Valid(st1.g) by {
      forall k | 0 <= k < |st1.g.filaments|
        ensures st1.g.filaments[k].value.id == st1.g.filaments[k].key
      {
        if k != i {
          assert st1.g.filaments[k] == st.g.filaments[k];
        }
      }
    }
    var r := RefreshSpools(cfg, t, st1, f1, 0);
    RefreshSpoolsModes(cfg, t, st1, f1, 0);
    RefreshSettles(cfg, st1, r, f1);
    RefreshSpoolsRenders(cfg, t, st1, f1, 0);
    RefreshRenders(cfg, t, st1, r, f1);
    r
  }

  /** One turn of the vendor loop keeps current every record under a content key no spool of its filament writes under. */
  lemma VendorAtKeeps(cfg: Config, t: Templates, st: State, v: Vendor, i: nat, rec: Record)
    requires Valid(st.g)
    requires i < |st.g.filaments| && HasVendor(st.g.filaments[i].value, v.id)
    requires '-' !in rec.suffix
    requires Untouched(cfg.mode, ContentKey(cfg.mode, rec), st.g.spools, st.g.filaments[i].key, 0)
    ensures Current(cfg, t, st.out, rec) ==> Current(cfg, t, VendorAt(cfg, t, st, v, i).st.out, rec)
  {
    var f1 := Revend(st.g.filaments[i].value, v);
    var st1 := st.(g := st.g.(filaments := SetAt(st.g.filaments, i, f1)));
    assert Valid(st1.g) by {
      forall k | 0 <= k < |st1.g.filaments|
        ensures st1.g.filaments[k].value.id == st1.g.filaments[k].key
      {
        if k != i {
          assert st1.g.filaments[k] == st.g.filaments[k];
        }
      }
    }
    assert VendorAt(cfg, t, st, v, i) == RefreshSpools(cfg, t, st1, f1, 0);
    RefreshSpoolsKeeps(cfg, t, st1, f1, 0, rec);
  }

  /**
   `e2` is the cached spool `e` re-embedding, with `v` embedded, the filament of
   the vendor at some position from `i` on of the filament cache `fs` that `e`
   embeds.
   */
  predicate VendorReembed(fs: seq<Entry<Filament>>, e: Entry<Spool>, e2: Entry<Spool>, v: Vendor, i: nat) {
    exists k :: i <= k < |fs| && HasVendor(fs[k].value, v.id) && Embeds(e.value, fs[k].key)
                && e2 == Entry(e.key, Reembed(e.value, Revend(fs[k].value, v)))
  }

  /**
   `c` is the spool cache `a` after the vendor loop from position `i` of the
   filament cache `fs` on: the same length, and each entry unchanged or
   re-embedding its filament, now embedding `v`.
   */
  predicate SpoolsRevended(fs: seq<Entry<Filament>>, a: seq<Entry<Spool>>, c: seq<Entry<Spool>>, v: Vendor, i: nat) {
    && |c| == |a|
    && forall p :: 0 <= p < |a| ==> c[p] == a[p] || VendorReembed(fs, a[p], c[p], v, i)
  }

  /** From position `i` on, every spool of a filament of the vendor re-embeds it with `v` embedded. */
  predicate AllSpoolsRevended(fs: seq<Entry<Filament>>, a: seq<Entry<Spool>>, c: seq<Entry<Spool>>, v: Vendor, i: nat)
    requires |c| == |a|
  {
    forall p, k :: 0 <= p < |a| && i <= k < |fs| && HasVendor(fs[k].value, v.id) && Embeds(a[p].value, fs[k].key) ==>
      c[p] == Entry(a[p].key, Reembed(a[p].value, Revend(fs[k].value, v)))
  }

  /** From position `i` on, every filament of the vendor, with `v` embedded, is settled. */
  predicate VendorSettled(cfg: Config, names: map<string, string>, fs: seq<Entry<Filament>>, c: seq<Entry<Spool>>,
                          v: Vendor, i: nat) {
    forall k :: i <= k < |fs| && HasVendor(fs[k].value, v.id) ==> Settled(cfg, names, c, Revend(fs[k].value, v))
  }

  /** A filament cache whose entries carry their own key as id, with no key twice. */
  predicate KeyedFilaments(fs: seq<Entry<Filament>>) {
    UniqueKeys(fs) && forall k :: 0 <= k < |fs| ==> fs[k].value.id == fs[k].key
  }

  /** The spool half of one turn of the vendor loop followed by the rest of it. */
  lemma VendorSpoolsCompose(fs: seq<Entry<Filament>>, a: seq<Entry<Spool>>, b: seq<Entry<Spool>>,
                            c: seq<Entry<Spool>>, v: Vendor, i: nat, ok: bool)
    requires KeyedFilaments(fs)
    requires i < |fs| && HasVendor(fs[i].value, v.id)
    requires RefreshedFrom(a, b, Revend(fs[i].value, v), 0)
    requires ok ==> AllReembedded(a, b, Revend(fs[i].value, v), 0)
    requires SpoolsRevended(SetAt(fs, i, Revend(fs[i].value, v)), b, c, v, i + 1)
    requires ok ==> AllSpoolsRevended(SetAt(fs, i, Revend(fs[i].value, v)), b, c, v, i + 1)
    ensures SpoolsRevended(fs, a, c, v, i)
    ensures ok ==> AllSpoolsRevended(fs, a, c, v, i)
  {
    var f1 := Revend(fs[i].value, v);
    var fs2 := SetAt(fs, i, f1);
    forall p | 0 <= p < |a|
      ensures c[p] == a[p] || VendorReembed(fs, a[p], c[p], v, i)
    {
      if c[p] != b[p] {
        var k :| i + 1 <= k < |fs2| && HasVendor(fs2[k].value, v.id) && Embeds(b[p].value, fs2[k].key)
                 && c[p] == Entry(b[p].key, Reembed(b[p].value, Revend(fs2[k].value, v)));
        assert fs2[k] == fs[k];
        if b[p] != a[p] {
          KeysDistinct(fs, i, k);
          assert false;
        }
      } else if b[p] != a[p] {
        assert Embeds(a[p].value, fs[i].key);
      }
    }
    if ok {
      forall p, k | 0 <= p < |a| && i <= k < |fs| && HasVendor(fs[k].value, v.id) && Embeds(a[p].value, fs[k].key)
        ensures c[p] == Entry(a[p].key, Reembed(a[p].value, Revend(fs[k].value, v)))
      {
        if k == i {
          assert b[p] == Entry(a[p].key, Reembed(a[p].value, f1));
          if c[p] != b[p] {
            var k2 :| i + 1 <= k2 < |fs2| && HasVendor(fs2[k2].value, v.id) && Embeds(b[p].value, fs2[k2].key)
                      && c[p] == Entry(b[p].key, Reembed(b[p].value, Revend(fs2[k2].value, v)));
            assert fs2[k2] == fs[k2];
            KeysDistinct(fs, i, k2);
            assert false;
          }
        } else {
          KeysDistinct(fs, i, k);
          assert b[p] == a[p];
          assert fs2[k] == fs[k];
        }
      }
    }
  }

  /** The rest of the vendor loop leaves the spools of the filament handled at position `i` alone. */
  lemma RestSameActive(fs: seq<Entry<Filament>>, b: seq<Entry<Spool>>, c: seq<Entry<Spool>>, v: Vendor, i: nat)
    requires KeyedFilaments(fs)
    requires i < |fs| && HasVendor(fs[i].value, v.id)
    requires SpoolsRevended(SetAt(fs, i, Revend(fs[i].value, v)), b, c, v, i + 1)
    ensures SameActive(b, c, fs[i].key)
  {
    var fs2 := SetAt(fs, i, Revend(fs[i].value, v));
    forall p | 0 <= p < |b| && (ActiveFor(b[p].value, fs[i].key) || ActiveFor(c[p].value, fs[i].key))
      ensures b[p] == c[p]
    {
      if c[p] != b[p] {
        var k :| i + 1 <= k < |fs2| && HasVendor(fs2[k].value, v.id) && Embeds(b[p].value, fs2[k].key)
                 && c[p] == Entry(b[p].key, Reembed(b[p].value, Revend(fs2[k].value, v)));
        assert fs2[k] == fs[k];
        KeysDistinct(fs, i, k);
        assert false;
      }
    }
  }

  /** The settled filaments of one turn of the vendor loop and of the rest of it. */
  lemma VendorSettledCompose(cfg: Config, x: map<string, string>, y: map<string, string>, fs: seq<Entry<Filament>>,
                             b: seq<Entry<Spool>>, c: seq<Entry<Spool>>, v: Vendor, i: nat)
    requires KeyedFilaments(fs)
    requires i < |fs| && HasVendor(fs[i].value, v.id)
    requires x.Keys <= y.Keys
    requires Settled(cfg, x, b, Revend(fs[i].value, v))
    requires SpoolsRevended(SetAt(fs, i, Revend(fs[i].value, v)), b, c, v, i + 1)
    requires VendorSettled(cfg, y, SetAt(fs, i, Revend(fs[i].value, v)), c, v, i + 1)
    ensures VendorSettled(cfg, y, fs, c, v, i)
  {
    var f1 := Revend(fs[i].value, v);
    var fs2 := SetAt(fs, i, f1);
    RestSameActive(fs, b, c, v, i);
    SettledKeeps(cfg, x, y, b, c, f1);
    forall k | i < k < |fs| && HasVendor(fs[k].value, v.id)
      ensures Settled(cfg, y, c, Revend(fs[k].value, v))
    {
      assert fs2[k] == fs[k];
    }
  }

  /**
   What the vendor loop from position `i` on does to the spool cache: each
   spool is unchanged or re-embeds its filament of the vendor with `v`
   embedded; a loop that goes through does so for every spool of every
   filament of the vendor and leaves each of those filaments settled.
   */
  lemma {:induction false} VendorCascadeSpools(cfg: Config, t: Templates, st: State, v: Vendor, i: nat)
    requires Valid(st.g)
    requires i <= |st.g.filaments|
    ensures var r := VendorCascade(cfg, t, st, v, i);
            && SpoolsRevended(st.g.filaments, st.g.spools, r.st.g.spools, v, i)
            && (r.err == None ==> AllSpoolsRevended(st.g.filaments, st.g.spools, r.st.g.spools, v, i))
            && (r.err == None ==> VendorSettled(cfg, r.st.out.names, st.g.filaments, r.st.g.spools, v, i))
    decreases |st.g.filaments| - i
  {
    var fs := st.g.filaments;
    if i == |fs| {
    } else if !HasVendor(fs[i].value, v.id) {
      VendorCascadeSpools(cfg, t, st, v, i + 1);
    } else {
      var h := VendorAt(cfg, t, st, v, i);
      if h.err.Some? {
      } else {
        var rest := VendorCascade(cfg, t, h.st, v, i + 1);
        VendorCascadeSpools(cfg, t, h.st, v, i + 1);
        VendorSpoolsCompose(fs, st.g.spools, h.st.g.spools, rest.st.g.spools, v, i, rest.err == None);
        if rest.err == None {
          VendorSettledCompose(cfg, h.st.out.names, rest.st.out.names, fs, h.st.g.spools, rest.st.g.spools, v, i);
        }
        assert VendorCascade(cfg, t, st, v, i) == Then(h, rest);
      }
    }
  }

  /** No spool of a filament of the vendor from position `i` on writes under the content key `ck`. */
  predicate Spared(mode: Mode, ck: string, fs: seq<Entry<Filament>>, spools: seq<Entry<Spool>>, v: Vendor, i: nat) {
    forall k :: i <= k < |fs| && HasVendor(fs[k].value, v.id) ==> Untouched(mode, ck, spools, fs[k].key, 0)
  }

  /** Re-embedding spools of one filament changes no spool's key or filament id. */
  lemma UntouchedRefreshed(mode: Mode, ck: string, a: seq<Entry<Spool>>, b: seq<Entry<Spool>>, f: Filament, fid: int)
    requires RefreshedFrom(a, b, f, 0)
    requires Untouched(mode, ck, a, fid, 0)
    ensures Untouched(mode, ck, b, fid, 0)
  {
    forall p | 0 <= p < |b| && Embeds(b[p].value, fid)
      ensures ck != SpoolKey(mode, fid, b[p].key)
    {
      assert Embeds(a[p].value, fid) && b[p].key == a[p].key;
    }
  }

  /**
   The key a spool of the filament at position `i` writes under is spared by
   the later filaments of the vendor: they have other ids and other spools.
   */
  lemma SparedLater(mode: Mode, fs: seq<Entry<Filament>>, b: seq<Entry<Spool>>, v: Vendor, i: nat, p: nat)
    requires KeyedFilaments(fs) && UniqueKeys(b)
    requires i < |fs| && p < |b| && Embeds(b[p].value, fs[i].key)
    ensures Spared(mode, SpoolKey(mode, fs[i].key, b[p].key), SetAt(fs, i, Revend(fs[i].value, v)), b, v, i + 1)
  {
    var fs2 := SetAt(fs, i, Revend(fs[i].value, v));
    forall k, q | i + 1 <= k < |fs2| && HasVendor(fs2[k].value, v.id) && 0 <= q < |b| && Embeds(b[q].value, fs2[k].key)
      ensures SpoolKey(mode, fs[i].key, b[p].key) != SpoolKey(mode, fs2[k].key, b[q].key)
    {
      assert fs2[k] == fs[k];
      KeysDistinct(fs, i, k);
      assert q != p;
      KeysDistinct(b, p, q);
      SpoolKeyDistinct(mode, fs[i].key, b[p].key, fs2[k].key, b[q].key);
    }
  }

  /** A key the vendor loop spares from position `i` on is still spared after the turn at `i`. */
  lemma SparedNext(mode: Mode, ck: string, fs: seq<Entry<Filament>>, a: seq<Entry<Spool>>, b: seq<Entry<Spool>>,
                   v: Vendor, i: nat)
    requires i < |fs|
    requires RefreshedFrom(a, b, Revend(fs[i].value, v), 0)
    requires Spared(mode, ck, fs, a, v, i)
    ensures Spared(mode, ck, SetAt(fs, i, Revend(fs[i].value, v)), b, v, i + 1)
  {
    var fs2 := SetAt(fs, i, Revend(fs[i].value, v));
    forall k | i + 1 <= k < |fs2| && HasVendor(fs2[k].value, v.id)
      ensures Untouched(mode, ck, b, fs2[k].key, 0)
    {
      UntouchedRefreshed(mode, ck, a, b, Revend(fs[i].value, v), fs[k].key);
    }
  }

  /** The vendor loop from position `i` on keeps current every record under a content key it spares. */
  lemma {:induction false} VendorCascadeKeeps(cfg: Config, t: Templates, st: State, v: Vendor, i: nat, rec: Record)
    requires Valid(st.g)
    requires i <= |st.g.filaments|
    requires '-' !in rec.suffix
    requires Spared(cfg.mode, ContentKey(cfg.mode, rec), st.g.filaments, st.g.spools, v, i)
    ensures Current(cfg, t, st.out, rec) ==> Current(cfg, t, VendorCascade(cfg, t, st, v, i).st.out, rec)
    decreases |st.g.filaments| - i, 1
  {
    if i < |st.g.filaments| {
      if !HasVendor(st.g.filaments[i].value, v.id) {
        VendorSkipKeeps(cfg, t, st, v, i, rec);
      } else {
        VendorTurnKeeps(cfg, t, st, v, i, rec);
      }
    }
  }

  /** The same, past a filament of another vendor. */
  lemma {:induction false} VendorSkipKeeps(cfg: Config, t: Templates, st: State, v: Vendor, i: nat, rec: Record)
    requires Valid(st.g)
    requires i < |st.g.filaments| && !HasVendor(st.g.filaments[i].value, v.id)
    requires '-' !in rec.suffix
    requires Spared(cfg.mode, ContentKey(cfg.mode, rec), st.g.filaments, st.g.spools, v, i)
    ensures Current(cfg, t, st.out, rec) ==> Current(cfg, t, VendorCascade(cfg, t, st, v, i).st.out, rec)
    decreases |st.g.filaments| - i, 0
  {
    VendorCascadeKeeps(cfg, t, st, v, i + 1, rec);
    VendorCascadeSkip(cfg, t, st, v, i);
  }

  /** The same, from a filament of the vendor on. */
  lemma {:induction false} VendorTurnKeeps(cfg: Config, t: Templates, st: State, v: Vendor, i: nat, rec: Record)
    requires Valid(st.g)
    requires i < |st.g.filaments| && HasVendor(st.g.filaments[i].value, v.id)
    requires '-' !in rec.suffix
    requires Spared(cfg.mode, ContentKey(cfg.mode, rec), st.g.filaments, st.g.spools, v, i)
    ensures Current(cfg, t, st.out, rec) ==> Current(cfg, t, VendorCascade(cfg, t, st, v, i).st.out, rec)
    decreases |st.g.filaments| - i, 0
  {
    VendorAtKeeps(cfg, t, st, v, i, rec);
    VendorCascadeStep(cfg, t, st, v, i);
    var h := VendorAt(cfg, t, st, v, i);
    var rest := VendorCascade(cfg, t, h.st, v, i + 1);
    if h.err.None? {
      SparedNext(cfg.mode, ContentKey(cfg.mode, rec), st.g.filaments, st.g.spools, h.st.g.spools, v, i);
      VendorCascadeKeeps(cfg, t, h.st, v, i + 1, rec);
    }
    CurrentThrough(cfg, t, st.out, h, rest, VendorCascade(cfg, t, st, v, i), rec);
  }

  /** The turn at a filament of the vendor either fails, and the loop stops there, or is followed by the rest. */
  lemma VendorCascadeStep(cfg: Config, t: Templates, st: State, v: Vendor, i: nat)
    requires Valid(st.g)
    requires i < |st.g.filaments| && HasVendor(st.g.filaments[i].value, v.id)
    ensures var h := VendorAt(cfg, t, st, v, i);
            var r := VendorCascade(cfg, t, st, v, i);
            && (h.err.Some? ==> r == h)
            && (h.err.None? ==> r == Then(h, VendorCascade(cfg, t, h.st, v, i + 1)))
  {
  }

  /** A filament of another vendor is passed over. */
  lemma VendorCascadeSkip(cfg: Config, t: Templates, st: State, v: Vendor, i: nat)
    requires Valid(st.g)
    requires i < |st.g.filaments| && !HasVendor(st.g.filaments[i].value, v.id)
    ensures VendorCascade(cfg, t, st, v, i) == VendorCascade(cfg, t, st, v, i + 1)
  {
  }


  /** From position `i` on, every filament of the vendor, with `v` embedded, is rendered. */
  predicate VendorRendered(cfg: Config, t: Templates, out: Caches, fs: seq<Entry<Filament>>, c: seq<Entry<Spool>>,
                           v: Vendor, i: nat) {
    forall k :: i <= k < |fs| && HasVendor(fs[k].value, v.id) ==> Rendered(cfg, t, out, c, Revend(fs[k].value, v))
  }

  /** A record under the key of a spool of the filament handled at position `i` stays current through the rest of the loop. */
  lemma LaterTurnsKeep(cfg: Config, t: Templates, st: State, v: Vendor, i: nat, p: nat, rec: Record)
    requires Valid(st.g)
    requires i < |st.g.filaments| && HasVendor(st.g.filaments[i].value, v.id)
    requires VendorAt(cfg, t, st, v, i).err == None
    requires var b := VendorAt(cfg, t, st, v, i).st.g.spools;
             p < |b| && Embeds(b[p].value, st.g.filaments[i].key)
             && ContentKey(cfg.mode, rec) == SpoolKey(cfg.mode, st.g.filaments[i].key, b[p].key)
    requires '-' !in rec.suffix
    ensures var h := VendorAt(cfg, t, st, v, i);
            Current(cfg, t, h.st.out, rec) ==> Current(cfg, t, VendorCascade(cfg, t, h.st, v, i + 1).st.out, rec)
  {
    var h := VendorAt(cfg, t, st, v, i);
    SparedLater(cfg.mode, st.g.filaments, h.st.g.spools, v, i, p);
    VendorCascadeKeeps(cfg, t, h.st, v, i + 1, rec);
  }

  /** Every record under the key of a spool of `fid` in `b` that is current in `x` is current in `y`. */
  ghost predicate KeptFor(cfg: Config, t: Templates, x: Caches, y: Caches, b: seq<Entry<Spool>>, fid: int) {
    forall p: int, rec: Record ::
      (&& 0 <= p < |b| && Embeds(b[p].value, fid) && '-' !in rec.suffix
       && ContentKey(cfg.mode, rec) == SpoolKey(cfg.mode, fid, b[p].key)
       && Current(cfg, t, x, rec))
      ==> Current(cfg, t, y, rec)
  }

  /** The rest of the vendor loop keeps current what the turn at position `i` rendered. */
  lemma LaterTurnsKept(cfg: Config, t: Templates, st: State, v: Vendor, i: nat)
    requires Valid(st.g)
    requires i < |st.g.filaments| && HasVendor(st.g.filaments[i].value, v.id)
    requires VendorAt(cfg, t, st, v, i).err == None
    ensures var h := VendorAt(cfg, t, st, v, i);
            KeptFor(cfg, t, h.st.out, VendorCascade(cfg, t, h.st, v, i + 1).st.out, h.st.g.spools, st.g.filaments[i].key)
  {
    var h := VendorAt(cfg, t, st, v, i);
    var b := h.st.g.spools;
    forall p: nat, rec: Record | 0 <= p < |b| && Embeds(b[p].value, st.g.filaments[i].key) && '-' !in rec.suffix
                    && ContentKey(cfg.mode, rec) == SpoolKey(cfg.mode, st.g.filaments[i].key, b[p].key)
                    && Current(cfg, t, h.st.out, rec)
      ensures Current(cfg, t, VendorCascade(cfg, t, h.st, v, i + 1).st.out, rec)
    {
      LaterTurnsKeep(cfg, t, st, v, i, p, rec);
    }
  }

  /** A filament stays rendered when the active spools agree and its keys are kept. */
  lemma RenderedKept(cfg: Config, t: Templates, x: Caches, y: Caches, b: seq<Entry<Spool>>, c: seq<Entry<Spool>>,
                     f: Filament)
    requires forall p :: 0 <= p < |b| ==> b[p].value.id == Some(b[p].key)
    requires SameActive(b, c, f.id)
    requires KeptFor(cfg, t, x, y, b, f.id)
    ensures Rendered(cfg, t, x, b, f) ==> Rendered(cfg, t, y, c, f)
  {
    if Rendered(cfg, t, x, b, f) {
      if cfg.mode == All {
        EverySpoolKept(cfg, t, x, y, b, c, f);
      }
      if ActiveFrom(c, f.id, 0) {
        var q :| 0 <= q < |c| && ActiveFor(c[q].value, f.id);
        assert c[q] == b[q];
        if cfg.mode == Default {
          OwnRecordKept(cfg, t, x, y, b, f, q);
        }
        if PerFilament(cfg.mode) {
          BestKept(cfg, t, x, y, b, c, f);
        }
      }
    }
  }

  /** `KeptFor` at one spool and one record. */
  lemma KeptAt(cfg: Config, t: Templates, x: Caches, y: Caches, b: seq<Entry<Spool>>, fid: int, p: nat, rec: Record)
    requires KeptFor(cfg, t, x, y, b, fid)
    requires p < |b| && Embeds(b[p].value, fid) && '-' !in rec.suffix
    requires ContentKey(cfg.mode, rec) == SpoolKey(cfg.mode, fid, b[p].key)
    ensures Current(cfg, t, x, rec) ==> Current(cfg, t, y, rec)
  {
  }

  /** `all` mode: every active spool's last record is kept. */
  lemma EverySpoolKept(cfg: Config, t: Templates, x: Caches, y: Caches, b: seq<Entry<Spool>>, c: seq<Entry<Spool>>,
                       f: Filament)
    requires cfg.mode == All
    requires forall p :: 0 <= p < |b| ==> b[p].value.id == Some(b[p].key)
    requires SameActive(b, c, f.id)
    requires KeptFor(cfg, t, x, y, b, f.id)
    requires forall i :: 0 <= i < |b| && ActiveFor(b[i].value, f.id) ==>
               UpToDate(cfg, t, x, f, Some(b[i].value), Expansion(cfg))
    ensures forall i :: 0 <= i < |c| && ActiveFor(c[i].value, f.id) ==>
              UpToDate(cfg, t, y, f, Some(c[i].value), Expansion(cfg))
  {
    var ex := Expansion(cfg);
    ExpansionDashFree(cfg);
    forall p | 0 <= p < |c| && ActiveFor(c[p].value, f.id)
      ensures UpToDate(cfg, t, y, f, Some(c[p].value), ex)
    {
      assert c[p] == b[p];
      var rec := MakeRecord(cfg, f, Some(b[p].value), ex[|ex| - 1]);
      assert ContentKey(cfg.mode, rec) == SpoolKey(cfg.mode, f.id, b[p].key);
      KeptAt(cfg, t, x, y, b, f.id, p, rec);
      UpToDateKept(cfg, t, x, y, f, Some(b[p].value), ex);
    }
  }

  /** Default mode: the filament's own last record, under the key every spool of it shares, is kept. */
  lemma OwnRecordKept(cfg: Config, t: Templates, x: Caches, y: Caches, b: seq<Entry<Spool>>, f: Filament, q: nat)
    requires cfg.mode == Default
    requires q < |b| && Embeds(b[q].value, f.id)
    requires KeptFor(cfg, t, x, y, b, f.id)
    ensures UpToDate(cfg, t, x, f, None, Expansion(cfg)) ==> UpToDate(cfg, t, y, f, None, Expansion(cfg))
  {
    var ex := Expansion(cfg);
    ExpansionDashFree(cfg);
    var rec := MakeRecord(cfg, f, None, ex[|ex| - 1]);
    assert ContentKey(cfg.mode, rec) == SpoolKey(cfg.mode, f.id, b[q].key);
  }

  /** Per-filament modes: the best active spool, the same one in both caches, keeps its last record. */
  lemma BestKept(cfg: Config, t: Templates, x: Caches, y: Caches, b: seq<Entry<Spool>>, c: seq<Entry<Spool>>,
                 f: Filament)
    requires PerFilament(cfg.mode)
    requires forall p :: 0 <= p < |b| ==> b[p].value.id == Some(b[p].key)
    requires SameActive(b, c, f.id)
    requires KeptFor(cfg, t, x, y, b, f.id)
    ensures BestCurrent(cfg, t, x, b, f.id) ==> BestCurrent(cfg, t, y, c, f.id)
  {
    if BestCurrent(cfg, t, x, b, f.id) {
      var ex := Expansion(cfg);
      var p :| 0 <= p < |b| && BestActive(cfg.mode, b, f.id, b[p].value)
               && UpToDate(cfg, t, x, b[p].value.filament.value, Some(b[p].value), ex);
      var g := b[p].value.filament.value;
      var rec := MakeRecord(cfg, g, Some(b[p].value), ex[|ex| - 1]);
      SelectedRecordKey(cfg, b[p].value, f.id);
      KeptAt(cfg, t, x, y, b, f.id, p, rec);
      UpToDateKept(cfg, t, x, y, g, Some(b[p].value), ex);
      BestActiveSame(cfg.mode, b, c, f.id, b[p].value);
      assert c[p] == b[p];
      BestCurrentAt(cfg, t, y, c, f.id, p);
    }
  }

  /** Outside `all` mode the last record of a spool of `fid` is under the filament's key, with a dash-free suffix. */
  lemma SelectedRecordKey(cfg: Config, s: Spool, fid: int)
    requires cfg.mode != All
    requires Embeds(s, fid)
    ensures var ex := Expansion(cfg);
            var rec := MakeRecord(cfg, s.filament.value, Some(s), ex[|ex| - 1]);
            && '-' !in rec.suffix
            && forall sid :: ContentKey(cfg.mode, rec) == SpoolKey(cfg.mode, fid, sid)
  {
    ExpansionDashFree(cfg);
  }

  /** The filament handled at position `i` stays rendered through the rest of the vendor loop. */
  lemma VendorRenderedCompose(cfg: Config, t: Templates, st: State, v: Vendor, i: nat)
    requires Valid(st.g)
    requires i < |st.g.filaments| && HasVendor(st.g.filaments[i].value, v.id)
    requires VendorAt(cfg, t, st, v, i).err == None
    requires var h := VendorAt(cfg, t, st, v, i);
             var rest := VendorCascade(cfg, t, h.st, v, i + 1);
             && rest.err == None
             && SpoolsRevended(h.st.g.filaments, h.st.g.spools, rest.st.g.spools, v, i + 1)
             && VendorRendered(cfg, t, rest.st.out, h.st.g.filaments, rest.st.g.spools, v, i + 1)
    ensures var h := VendorAt(cfg, t, st, v, i);
            var rest := VendorCascade(cfg, t, h.st, v, i + 1);
            VendorRendered(cfg, t, rest.st.out, st.g.filaments, rest.st.g.spools, v, i)
  {
    var fs := st.g.filaments;
    var h := VendorAt(cfg, t, st, v, i);
    var rest := VendorCascade(cfg, t, h.st, v, i + 1);
    var f1 := Revend(fs[i].value, v);
    var b := h.st.g.spools;
    var c := rest.st.g.spools;
    RestSameActive(fs, b, c, v, i);
    LaterTurnsKept(cfg, t, st, v, i);
    RenderedKept(cfg, t, h.st.out, rest.st.out, b, c, f1);
    forall k | i < k < |fs| && HasVendor(fs[k].value, v.id)
      ensures Rendered(cfg, t, rest.st.out, c, Revend(fs[k].value, v))
    {
      assert h.st.g.filaments[k] == fs[k];
    }
  }

  /** On success the vendor loop from position `i` on leaves every filament of the vendor rendered. */
  lemma {:induction false} VendorCascadeRenders(cfg: Config, t: Templates, st: State, v: Vendor, i: nat)
    requires Valid(st.g)
    requires i <= |st.g.filaments|
    ensures var r := VendorCascade(cfg, t, st, v, i);
            r.err == None ==> VendorRendered(cfg, t, r.st.out, st.g.filaments, r.st.g.spools, v, i)
    decreases |st.g.filaments| - i, 1
  {
    if i < |st.g.filaments| {
      if !HasVendor(st.g.filaments[i].value, v.id) {
        VendorSkipRenders(cfg, t, st, v, i);
      } else {
        VendorTurnRenders(cfg, t, st, v, i);
      }
    }
  }

  /** The same, past a filament of another vendor. */
  lemma {:induction false} VendorSkipRenders(cfg: Config, t: Templates, st: State, v: Vendor, i: nat)
    requires Valid(st.g)
    requires i < |st.g.filaments| && !HasVendor(st.g.filaments[i].value, v.id)
    ensures var r := VendorCascade(cfg, t, st, v, i);
            r.err == None ==> VendorRendered(cfg, t, r.st.out, st.g.filaments, r.st.g.spools, v, i)
    decreases |st.g.filaments| - i, 0
  {
    VendorCascadeRenders(cfg, t, st, v, i + 1);
    VendorCascadeSkip(cfg, t, st, v, i);
  }

  /** The same, from a filament of the vendor on. */
  lemma {:induction false} VendorTurnRenders(cfg: Config, t: Templates, st: State, v: Vendor, i: nat)
    requires Valid(st.g)
    requires i < |st.g.filaments| && HasVendor(st.g.filaments[i].value, v.id)
    ensures var r := VendorCascade(cfg, t, st, v, i);
            r.err == None ==> VendorRendered(cfg, t, r.st.out, st.g.filaments, r.st.g.spools, v, i)
    decreases |st.g.filaments| - i, 0
  {
    VendorCascadeStep(cfg, t, st, v, i);
    var h := VendorAt(cfg, t, st, v, i);
    if h.err.None? {
      var rest := VendorCascade(cfg, t, h.st, v, i + 1);
      if rest.err == None {
        VendorCascadeRenders(cfg, t, h.st, v, i + 1);
        VendorCascadeSpools(cfg, t, h.st, v, i + 1);
        VendorRenderedCompose(cfg, t, st, v, i);
      }
    }
  }


  /**
   `_update_files_for_vendor_change`, from position `i` of the filament cache
   on: every cached filament whose embedded vendor has the id of `v` gets `v`
   embedded in place, and then its spools are refreshed. The filament and spool
   caches keep their keys and order; the first failure ends the loop.
   */
  function VendorCascade(cfg: Config, t: Templates, st: State, v: Vendor, i: nat): (r: Step)
    requires Valid(st.g)
    requires i <= |st.g.filaments|
    ensures Valid(r.st.g)
    ensures Good(st) ==> Good(r.st)
    ensures st.out.names.Keys <= r.st.out.names.Keys
    ensures r.st.g.vendors == st.g.vendors
    ensures Keys(r.st.g.filaments) == Keys(st.g.filaments)
    ensures Keys(r.st.g.spools) == Keys(st.g.spools)
    ensures RevendedFrom(st.g.filaments, r.st.g.filaments, v, i)
    ensures r.err == None ==> AllRevended(st.g.filaments, r.st.g.filaments, v, i)
    decreases |st.g.filaments| - i
  {
    if i == |st.g.filaments| then Stay(st)
    else if !HasVendor(st.g.filaments[i].value, v.id) then
      var rest := VendorCascade(cfg, t, st, v, i + 1);
      RevendedSkip(st.g.filaments, rest.st.g.filaments, v, i);
      rest
    else
      var h := VendorAt(cfg, t, st, v, i);
      if h.err.Some? then h
      else
        var rest := VendorCascade(cfg, t, h.st, v, i + 1);
        RevendedCompose(st.g.filaments, h.st.g.filaments, rest.st.g.filaments, v, i);
        Then(h, rest)
  }
}
